=== FILE: README.md ===
# TravelSNS core, modelled in Dafny

TravelSNS is a travel-sharing social network. Its Express back end stores users, profiles, posts (with images, route points, trip data and tags), likes, comments, follow edges and "mimics" (posts saved to try later). A React front end offers a composer for new posts and a home timeline with two tabs. This project models that core as pure functions over an immutable database value. Each request handler is a function `(Db, request) -> (Db', response)`. Each instance method of a model is a function returning a `SaveResult` that holds the assigned instance, the stored row and the success flag. Each piece of front-end state is a datatype with the handlers as functions on it.

Modules follow the source files:

- `Common`, `Schema`, `Sorting`, `JsText` and `UriEncoding` hold the tables and the JavaScript and SQL behaviour the handlers rely on: truthiness, `trim`, `split`, `parseInt`, `encodeURIComponent`, `ORDER BY`, `LIMIT`/`OFFSET`.
- `PostCreate` and `PostFeed` model `route/PostRoutes.js`.
- `PostModel`, `UserModel` and `ProfileModel` model the instance methods and hooks in `model/`.
- `Auth`, `ProfileRoutes`, `Follows`, `Mimics`, `Recommendations` and `GeocodeProxy` model the other route files.
- `CreatePostForm` models `CreatePost.jsx` and `HomeFeed` models `Home.jsx`.

Inputs the code cannot decide for itself are parameters:

- the clock (`now`, plus the overrun of a sleep);
- the salt and the random display-name suffix;
- the `ORDER BY RAND()` ranking;
- the outcome of uploads and outbound HTTP calls;
- the database failures a statement can meet.

Password hashing and token signing are symbolic: a `Digest(text, salt)` value and a `Token(userId, expiresIn)` record.

Where the code departs from what it evidently intends, or from what its comments and the rest of the application suggest, the model follows the code:

- The profile posts listing does not filter out soft-deleted posts. This is recorded under Findings.
- On registration, the new profile's display name is always `"user_" + suffix`. The `beforeCreate` hook has already filled `user.displayName` by then, so the `|| username` fallback in `AuthRoutes.js` never applies.

## Model

| member | source | states |
|---|---|---|
| PostCreate.ToSafeArray | TravelSNS/travelBackend/src/route/PostRoutes.js:73-81 | null/undefined give `[]`; an array gives one string per element; a string written as comma-free pieces joined by commas gives exactly the non-blank trims of those pieces, in order, each clean; anything else gives a one-element list |
| PostCreate.ToSafeArrayIdempotent | TravelSNS/travelBackend/src/route/PostRoutes.js:73-81 | normalising the stored list again yields the same list |
| PostCreate.ToSafeArrayOfJoin | TravelSNS/travelBackend/src/route/PostRoutes.js:76-78 | a comma-joined list of clean items reads back as those items |
| PostCreate.PointLon | TravelSNS/travelBackend/src/route/PostRoutes.js:61 | the longitude is `lng` when truthy, else `lon` |
| PostCreate.ImageRows | TravelSNS/travelBackend/src/route/PostRoutes.js:41-52 | one row per input image in input order, with url, description, and `sortOrder` if truthy else 0 |
| PostCreate.PointRowsOf | TravelSNS/travelBackend/src/route/PostRoutes.js:55-66 | n points give n rows; row i has `orderIndex` i and the point's lat, chosen lon, name and description; a transport left out is stored as the column default `walk`, an explicit null as null, a value as itself |
| PostCreate.FindOrCreateTag | TravelSNS/travelBackend/src/route/PostRoutes.js:103-106 | an existing tag of that name is reused with no new row; otherwise exactly one row is appended; tag names and ids stay unique |
| PostCreate.LinkOne | TravelSNS/travelBackend/src/route/PostRoutes.js:102-108 | one tag is found or created and linked to the post; nothing else changes |
| PostCreate.AttachTags | TravelSNS/travelBackend/src/route/PostRoutes.js:100-109 | tags only grow (existing rows kept as a prefix) and links are only added |
| PostCreate.AttachTagsLinks | TravelSNS/travelBackend/src/route/PostRoutes.js:100-109 | every requested name afterwards has a tag of exactly that name linked to the post |
| PostCreate.AttachTagsFrame | TravelSNS/travelBackend/src/route/PostRoutes.js:100-109 | every link the loop adds belongs to this post |
| PostCreate.AttachTagsNewTags | TravelSNS/travelBackend/src/route/PostRoutes.js:103-106 | every tag row the loop creates carries a requested name |
| PostCreate.AttachTagsUnique | TravelSNS/travelBackend/src/route/PostRoutes.js:103-106 | tag names and ids stay unique: a tag is never duplicated |
| PostCreate.CreatePost | TravelSNS/travelBackend/src/route/PostRoutes.js:14-137 | 200 exactly when the request is storable and no statement fails; on any failure the database is unchanged (rollback) and the answer is 500 |
| PostCreate.StagesSucceed | TravelSNS/travelBackend/src/route/PostRoutes.js:20-111 | the transaction commits exactly when every stage succeeds |
| PostCreate.Committed | TravelSNS/travelBackend/src/route/PostRoutes.js:27-109 | a commit appends the post, its image rows, point rows and trip row, and touches no other table |
| PostCreate.TransactionCommits | TravelSNS/travelBackend/src/route/PostRoutes.js:20-111 | a committed transaction holds exactly the rows of `Committed` |
| PostCreate.CreateAppends | TravelSNS/travelBackend/src/route/PostRoutes.js:27-111 | a successful create takes the next id, and every requested tag ends up linked |
| PostCreate.CreatePreservesWellFormed | TravelSNS/travelBackend/src/route/PostRoutes.js:14-137 | creating a post keeps ids unique and child rows pointing at existing posts |
| PostCreate.CommittedPostIds | TravelSNS/travelBackend/src/route/PostRoutes.js:27-37 | post ids stay unique after the insert |
| PostCreate.CommittedPostsExist | TravelSNS/travelBackend/src/route/PostRoutes.js:27-37 | the old posts and the new one all exist after the insert |
| PostCreate.CommittedChildren | TravelSNS/travelBackend/src/route/PostRoutes.js:41-97 | every child row refers to an existing post |
| PostCreate.CreatedView | TravelSNS/travelBackend/src/route/PostRoutes.js:115-128 | the response is the stored post, its author, and exactly its new images sorted by `sortOrder` ascending, equal orders in insertion order |
| PostCreate.CommittedPostById | TravelSNS/travelBackend/src/route/PostRoutes.js:115 | the new id finds the new post, and its author is found |
| PostCreate.CommittedImagesOfPost | TravelSNS/travelBackend/src/route/PostRoutes.js:115-126 | the images of the new id are exactly the rows just written |
| PostCreate.ClientImageOrderKept | TravelSNS/travelBackend/src/route/PostRoutes.js:48-125 | images numbered 0, 1, 2, ... come back in exactly input order |
| PostFeed.FeedOrder | TravelSNS/travelBackend/src/route/PostRoutes.js:230-236 | the matching posts, all of them and only them, each as many times as it is stored, newest first |
| PostFeed.Feed | TravelSNS/travelBackend/src/route/PostRoutes.js:140-245 | a 404 exactly for `type=following` with a missing user; otherwise at most `limit` posts or `[]` |
| PostFeed.FeedSound | TravelSNS/travelBackend/src/route/PostRoutes.js:147-228 | every returned post is not deleted, matches search (content OR location), tag and age group, and is by a followee when `type=following` |
| PostFeed.FeedNewestFirst | TravelSNS/travelBackend/src/route/PostRoutes.js:233-234 | the page is ordered by `createdAt` descending |
| PostFeed.FollowingNobody | TravelSNS/travelBackend/src/route/PostRoutes.js:184-187 | following nobody gives `[]` before any post query |
| PostFeed.FeedIsWindow | TravelSNS/travelBackend/src/route/PostRoutes.js:230-239 | the page is the `(page-1)*limit` offset window of the ordered matches |
| PostFeed.FeedPageFor | TravelSNS/travelBackend/src/route/PostRoutes.js:230-239 | every matching post appears on some page |
| PostFeed.OnPage | TravelSNS/travelBackend/src/route/PostRoutes.js:142-144 | the k-th match appears on page `k / limit + 1` |
| PostFeed.FeedIndexOf | TravelSNS/travelBackend/src/route/PostRoutes.js:230-236 | every matching post has a position in the ordered result |
| PostFeed.GetPost | TravelSNS/travelBackend/src/route/PostRoutes.js:248-272 | 404 exactly when no non-deleted post has that id; otherwise that post with all of its comments and no others, and exactly the users who like it |
| PostFeed.ToggleLike | TravelSNS/travelBackend/src/route/PostRoutes.js:275-291 | an existing like is removed ("Unliked"); otherwise one is added ("Liked") when post and user exist; otherwise 500 with no change |
| PostFeed.ToggleLikeTwice | TravelSNS/travelBackend/src/route/PostRoutes.js:280-287 | toggling twice restores the like set, and no other like changes |
| PostFeed.AddComment | TravelSNS/travelBackend/src/route/PostRoutes.js:294-305 | a comment with that author, post, content and time is appended exactly when the content is present and both rows exist |
| PostFeed.AddCommentThenDetail | TravelSNS/travelBackend/src/route/PostRoutes.js:248-305 | a comment added to a live post shows in its detail view at once |
| PostFeed.MarkDeleted | TravelSNS/travelBackend/src/route/PostRoutes.js:320-321 | rows with the id get `isDeleted` set; every other row is unchanged |
| PostFeed.DeletePost | TravelSNS/travelBackend/src/route/PostRoutes.js:308-328 | 404 for a missing post, 403 for a non-owner, each with no change; otherwise a soft delete |
| PostFeed.DeleteHides | TravelSNS/travelBackend/src/route/PostRoutes.js:248-328 | after a delete the detail view answers 404 and the feed no longer shows the post |
| PostFeed.DeleteIdempotent | TravelSNS/travelBackend/src/route/PostRoutes.js:308-328 | deleting again changes nothing more |
| PostModel.TravelMode | TravelSNS/travelBackend/src/model/Post.js:111 | `"driving"` when no mode is set, else exactly the lower-cased mode (ASCII letters lowered, same length, no ASCII capitals left) |
| PostModel.GetMapLink | TravelSNS/travelBackend/src/model/Post.js:108-114 | a link exactly when start and end are both truthy, else null |
| PostModel.MapLinkReadsBack | TravelSNS/travelBackend/src/model/Post.js:111 | the link's query is `api=1`, then origin, destination and travelmode, each decoding back to its value |
| PostModel.LinkPrefixParams | TravelSNS/travelBackend/src/model/Post.js:111 | origin precedes destination in the query, each percent-encoded |
| PostModel.UpdateRouteInfo | TravelSNS/travelBackend/src/model/Post.js:95-106 | sets exactly start, end, mode and summary; when these are the values already held nothing is sent and the result is true; otherwise true and stored on save success, false and unchanged on failure |
| PostModel.UpdateRouteThenLink | TravelSNS/travelBackend/src/model/Post.js:95-114 | after a route update with non-empty ends, a link exists |
| PostModel.SetOriginalLanguage | TravelSNS/travelBackend/src/model/Post.js:116-120 | assigns only the language; the code already held resolves true with nothing sent; otherwise the row follows exactly when the save succeeds |
| PostModel.OriginalLanguageRoundTrip | TravelSNS/travelBackend/src/model/Post.js:116-124 | set followed by get yields the code |
| UriEncoding.Encode | TravelSNS/travelBackend/src/model/Post.js:111 | `encodeURIComponent` output holds only unreserved characters and `%` |
| UriEncoding.DecodeEncode | TravelSNS/travelBackend/src/model/Post.js:111 | percent-decoding the encoding gives back the UTF-8 bytes of the string |
| UriEncoding.EncodedHasNoAmp | TravelSNS/travelBackend/src/model/Post.js:111 | an encoded value holds no `&`, so it cannot split a query parameter |
| UserModel.BeforeCreate | TravelSNS/travelBackend/src/model/User.js:62-72 | a present password becomes its hash; a missing or empty display name becomes `"user_"` + suffix; a non-empty one is kept; nothing else changes |
| UserModel.BeforeUpdate | TravelSNS/travelBackend/src/model/User.js:73-78 | the password is rehashed only when it changed |
| UserModel.Save | TravelSNS/travelBackend/src/model/User.js:12-79 | a save with no changed attribute sends nothing and succeeds; otherwise it succeeds exactly when the changed attributes pass validation, a changed name is free and the write goes through; the row changes only on success |
| UserModel.ChangeUserName | TravelSNS/travelBackend/src/model/User.js:87-95 | true for the current name, with nothing sent; otherwise true exactly when the new non-empty name is free and saves; then only the name changes, otherwise nothing |
| UserModel.ResetPassWord | TravelSNS/travelBackend/src/model/User.js:97-105 | true when the instance already holds that value, with nothing sent; otherwise true exactly when a non-empty password saves; only the password changes, stored as its hash |
| UserModel.ResetThenVerify | TravelSNS/travelBackend/src/model/User.js:83-105 | after a reset, exactly the new password verifies |
| UserModel.RenameKeepsPassword | TravelSNS/travelBackend/src/model/User.js:83-95 | a rename leaves password verification unchanged |
| UserModel.DeactivateAccount | TravelSNS/travelBackend/src/model/User.js:107-115 | sets `isActive` false and changes nothing else; true for an account already inactive, otherwise exactly when the write goes through; the row follows on success |
| UserModel.UnchangedSavesIgnoreFaults | TravelSNS/travelBackend/src/model/User.js:87-115 | renaming to the current name and deactivating an inactive account report success even while the database refuses writes; deactivating an active one then fails |
| UserModel.Persist | TravelSNS/travelBackend/src/model/User.js:97-115 | a save writes the row with the instance's id and leaves the rest |
| ProfileModel.AgeGroupRoundTrip | TravelSNS/travelBackend/src/model/Profile.js:36-40 | each of teen/20s/30s/40s/50s/60plus reads back as itself, and no two share a spelling |
| ProfileModel.Set | TravelSNS/travelBackend/src/model/Profile.js:59-97 | assigns one text field and no other |
| ProfileModel.UpdateField | TravelSNS/travelBackend/src/model/Profile.js:59-97 | `updateX` sets only field X; true when X already holds the value (nothing sent); otherwise false and the old row when the save fails |
| ProfileModel.UpdateAgeGroup | TravelSNS/travelBackend/src/model/Profile.js:99-107 | sets only the age group; true when it already holds that group (nothing sent); otherwise false when the save fails |
| ProfileModel.UpdateAgeGroupThenView | TravelSNS/travelBackend/src/model/Profile.js:99-117 | after `updateAgeGroup(g)` the view shows g and the old text fields; the stored row holds g on success and the old group on failure |
| ProfileModel.GetProfileView | TravelSNS/travelBackend/src/model/Profile.js:109-117 | projects exactly display name, bio, avatar, banner and age group |
| ProfileModel.UpdateThenView | TravelSNS/travelBackend/src/model/Profile.js:59-117 | `updateX(v)` then the view shows v in X and the old values elsewhere |
| ProfileModel.UpdateSameValue | TravelSNS/travelBackend/src/model/Profile.js:59-97 | writing the held value saves the same row |
| Auth.Register | TravelSNS/travelBackend/src/route/AuthRoutes.js:17-53 | a taken name gives 400 before the field check; a missing field gives 400; neither creates a user; success appends one active, unverified user with the hashed password and display name `"user_"` + suffix, then its profile; a failing profile insert leaves the user row behind, since no transaction wraps the two |
| Auth.Login | TravelSNS/travelBackend/src/route/AuthRoutes.js:55-95 | unknown name 404; inactive 401 whatever the password; on an active account a missing password 500 and a wrong one 401 with a null token, each exactly then; success gives the user's id, name and an 86400 s token |
| Auth.InactiveIgnoresPassword | TravelSNS/travelBackend/src/route/AuthRoutes.js:67-71 | an inactive account gets 401 whatever password is sent |
| Auth.RegisterThenLogin | TravelSNS/travelBackend/src/route/AuthRoutes.js:17-95 | a fresh registration can log in at once with a token for the new id |
| Auth.RegisterTwice | TravelSNS/travelBackend/src/route/AuthRoutes.js:20-23 | registering a taken name again gives 400 and changes nothing |
| Auth.DeactivateThenLogin | TravelSNS/travelBackend/src/route/AuthRoutes.js:67-69 | after a saved deactivation, login gets 401 |
| ProfileRoutes.GetProfile | TravelSNS/travelBackend/src/route/ProfileRoutes.js:9-38 | 404 exactly for an unknown name; display name falls back to the username and bio to `""`; id and name come from the user row |
| ProfileRoutes.UserPostsAsWritten | TravelSNS/travelBackend/src/route/ProfileRoutes.js:41-61 | 404 for an unknown name; otherwise all of that user's posts, deleted ones included, each as many times as it is stored, newest first |
| ProfileRoutes.UserPosts | TravelSNS/travelBackend/src/route/ProfileRoutes.js:41-61 | as above, but only the non-deleted posts, each as many times as it is stored |
| ProfileRoutes.DeletedPostStillListed | TravelSNS/travelBackend/src/route/ProfileRoutes.js:51-55 | a post the detail view answers 404 for is still in the as-written listing, and not in the corrected one |
| ProfileRoutes.ApplyUpdate | TravelSNS/travelBackend/src/route/ProfileRoutes.js:82-86 | a field takes the request value only when it is truthy; owner and age group are kept |
| ProfileRoutes.ReplaceOwnedFinds | TravelSNS/travelBackend/src/route/ProfileRoutes.js:74-86 | after the update the owner's profile lookup finds the new profile, and other users' profiles are unchanged |
| ProfileRoutes.UpdateProfile | TravelSNS/travelBackend/src/route/ProfileRoutes.js:64-92 | 404 exactly when the user is missing; a missing profile is created; only the profiles table changes |
| ProfileRoutes.UpdateProfileEffect | TravelSNS/travelBackend/src/route/ProfileRoutes.js:74-86 | afterwards the user's profile is the old or starting one with the truthy fields applied |
| ProfileRoutes.UpdateProfileTwice | TravelSNS/travelBackend/src/route/ProfileRoutes.js:64-92 | sending the same update twice has the effect of sending it once |
| ProfileRoutes.UpdateThenView | TravelSNS/travelBackend/src/route/ProfileRoutes.js:9-92 | when the user's name finds that user, the profile view after an update shows the truthy requested display name and bio |
| Follows.ToggleFollow | TravelSNS/travelBackend/src/route/UserRoutes.js:9-32 | following yourself gives 400 with no change; an existing edge is removed ("Unfollowed"); otherwise it is added ("Followed") when both users exist, and refused with 500 and no change when either is missing |
| Follows.ToggleFollowTwice | TravelSNS/travelBackend/src/route/UserRoutes.js:18-28 | toggling twice restores the follow set, and no other edge changes |
| Follows.ToggleFollowKeepsEdges | TravelSNS/travelBackend/src/route/UserRoutes.js:14-28 | edges keep pointing at users and no self-edge appears |
| Follows.GetUser | TravelSNS/travelBackend/src/route/UserRoutes.js:35-49 | 404 exactly for a missing id; otherwise the user, their profile, all of their posts and no others (each as many times as it is stored), exactly their followers and exactly their followees |
| Follows.ToggleFollowThenGetUser | TravelSNS/travelBackend/src/route/UserRoutes.js:9-49 | after a follow, each user's page shows the other (followee, follower); after an unfollow, neither does |
| Mimics.SaveMimic | TravelSNS/travelBackend/src/route/MimicRoutes.js:9-34 | an existing (user, post) pair gives 400 with no change; otherwise exactly one record carrying the note is appended |
| Mimics.RemoveFirst | TravelSNS/travelBackend/src/route/MimicRoutes.js:51 | removes one record of the pair when there is one; otherwise nothing |
| Mimics.DeleteMimic | TravelSNS/travelBackend/src/route/MimicRoutes.js:37-55 | 404 with no change when the pair is absent; otherwise that record is removed |
| Mimics.SaveThenDelete | TravelSNS/travelBackend/src/route/MimicRoutes.js:9-55 | save then delete of the same pair restores the records |
| Mimics.RemoveKeepsUnique | TravelSNS/travelBackend/src/route/MimicRoutes.js:42-51 | removing keeps pairs unique |
| Mimics.MimicOpsKeepUnique | TravelSNS/travelBackend/src/route/MimicRoutes.js:9-55 | neither operation creates a duplicate pair |
| Mimics.MyMimics | TravelSNS/travelBackend/src/route/MimicRoutes.js:58-75 | exactly the requester's records, each as many times as it is stored, newest first |
| Mimics.SaveThenListed | TravelSNS/travelBackend/src/route/MimicRoutes.js:9-75 | a saved record appears once more in its owner's list; every other user's list is unchanged |
| Recommendations.Candidates | TravelSNS/travelBackend/src/route/RecommendationRoutes.js:21-28 | exactly the users other than the requester whom the requester does not follow |
| Recommendations.RecommendUsers | TravelSNS/travelBackend/src/route/RecommendationRoutes.js:10-40 | min(5, candidates) rows, none the requester, none followed, each an existing user with that user's avatar and bio (null without a profile), no user twice when user ids are unique, in any random order |
| Recommendations.PickedDistinct | TravelSNS/travelBackend/src/route/RecommendationRoutes.js:14-30 | the picked users are distinct rows of the user table, so no user is recommended twice when ids are unique |
| Recommendations.FewCandidatesAllShown | TravelSNS/travelBackend/src/route/RecommendationRoutes.js:29-30 | with five candidates or fewer, every one is shown |
| Recommendations.FollowedNotRecommended | TravelSNS/travelBackend/src/route/RecommendationRoutes.js:24-28 | a user just followed is not recommended |
| Recommendations.NamesOf | TravelSNS/travelBackend/src/route/RecommendationRoutes.js:50-54 | one entry per non-null location name of a route point whose post exists |
| Recommendations.CountPosts | TravelSNS/travelBackend/src/route/RecommendationRoutes.js:48-52 | the corrected count is positive exactly when some joined route point has the name |
| Recommendations.CountPostsIgnoresImages | TravelSNS/travelBackend/src/route/RecommendationRoutes.js:48-52 | the corrected count does not depend on the images |
| Recommendations.CountAsWrittenDependsOnImages | TravelSNS/travelBackend/src/route/RecommendationRoutes.js:48-52 | one point on a post with two images counts 2 as written and 1 corrected |
| Recommendations.CountAsWrittenRepeatsPosts | TravelSNS/travelBackend/src/route/RecommendationRoutes.js:48 | two points of one name on one post count 2 as written, where they are one post |
| Recommendations.MinString | TravelSNS/travelBackend/src/route/RecommendationRoutes.js:49 | the least string of a list, null for none |
| Recommendations.GroupImages | TravelSNS/travelBackend/src/route/RecommendationRoutes.js:49-52 | exactly the image URLs of posts with a point of that name |
| Recommendations.TopLocations | TravelSNS/travelBackend/src/route/RecommendationRoutes.js:55-56 | at most three rows, count descending, taken from the groups; a group left out ranks no higher than the third |
| Recommendations.Groups | TravelSNS/travelBackend/src/route/RecommendationRoutes.js:46-54 | one row per name with its count and thumbnail |
| Recommendations.RecommendLocationsAsWritten | TravelSNS/travelBackend/src/route/RecommendationRoutes.js:43-67 | at most three distinct names of joined route points, count descending, the count being the joined-row count, with the least image URL as thumbnail; every name left out counts no more than the third |
| Recommendations.RecommendLocations | TravelSNS/travelBackend/src/route/RecommendationRoutes.js:43-67 | at most three distinct names of joined route points, count descending, the count being the number of distinct posts with a point of that name, with the least image URL as thumbnail; every name left out counts no more than the third |
| CreatePostForm.HandleTagInput | TravelSNS/travelFrontend/src/components/post/CreatePost.jsx:50-58 | only Enter with a trimmed, non-blank, new value appends it and clears the input; otherwise nothing changes; distinctness is kept |
| CreatePostForm.TypedTagsClean | TravelSNS/travelFrontend/src/components/post/CreatePost.jsx:50-58 | whatever is typed, the tag list holds only distinct, trimmed, non-blank tags |
| CreatePostForm.RemoveTag | TravelSNS/travelFrontend/src/components/post/CreatePost.jsx:60-62 | the value is gone and every other value stays |
| CreatePostForm.RemoveTagConcat | TravelSNS/travelFrontend/src/components/post/CreatePost.jsx:60-62 | removal filters each part separately, so the others keep their relative order |
| CreatePostForm.AddThenRemoveTag | TravelSNS/travelFrontend/src/components/post/CreatePost.jsx:50-62 | removing the tag just added restores the list |
| CreatePostForm.RemoveTagDistinct | TravelSNS/travelFrontend/src/components/post/CreatePost.jsx:60-62 | removal keeps the list free of repeats |
| CreatePostForm.RemoveAt | TravelSNS/travelFrontend/src/components/post/CreatePost.jsx:109-111 | filtering out index i equals the list with entry i cut out, one shorter; an index out of range removes nothing |
| CreatePostForm.RemoveAtShifts | TravelSNS/travelFrontend/src/components/post/CreatePost.jsx:147-149 | entries before the index keep their place and entries after it move up by one |
| CreatePostForm.RemoveAtShrinks | TravelSNS/travelFrontend/src/components/post/CreatePost.jsx:147-149 | removing by position never invents an entry: the result is a sub-multiset of the list |
| CreatePostForm.HandleMapClick | TravelSNS/travelFrontend/src/components/post/CreatePost.jsx:101-107 | appends a point at the click named `地点 ` + (length + 1) |
| CreatePostForm.ClicksNumbered | TravelSNS/travelFrontend/src/components/post/CreatePost.jsx:101-107 | clicks on an empty map give points `地点 1`, `地点 2`, ... in click order |
| CreatePostForm.ClickThenRemove | TravelSNS/travelFrontend/src/components/post/CreatePost.jsx:101-111 | removing the point just added restores the points |
| CreatePostForm.SelectImages | TravelSNS/travelFrontend/src/components/post/CreatePost.jsx:116-145 | refused with no change beyond four images; a failed upload adds nothing; otherwise the uploads follow, in order, with empty captions |
| CreatePostForm.ImageCapKept | TravelSNS/travelFrontend/src/components/post/CreatePost.jsx:119-122 | when selections are handled one at a time, none of them takes the form past four images |
| CreatePostForm.MoveImage | TravelSNS/travelFrontend/src/components/post/CreatePost.jsx:151-159 | swaps with the left or right neighbour when in range, otherwise nothing; the multiset of images is preserved |
| CreatePostForm.MoveLeftThenRight | TravelSNS/travelFrontend/src/components/post/CreatePost.jsx:151-159 | moving left then back right restores the order |
| CreatePostForm.MoveRightThenLeft | TravelSNS/travelFrontend/src/components/post/CreatePost.jsx:151-159 | moving right then back left restores the order |
| CreatePostForm.PayloadTrip | TravelSNS/travelFrontend/src/components/post/CreatePost.jsx:190-197 | budgets are `parseInt` or 0; the server reads each list back as the form's trimmed, non-blank comma items |
| CreatePostForm.Payload | TravelSNS/travelFrontend/src/components/post/CreatePost.jsx:171-198 | nothing is sent for blank content with no images; image i goes with `sortOrder` i; lat, lon and name come from the first point or are null; trip data only when shown |
| CreatePostForm.Submit | TravelSNS/travelFrontend/src/components/post/CreatePost.jsx:170-225 | after a success everything but the tag input is cleared, and the cleared form cannot be sent again; otherwise nothing changes |
| CreatePostForm.SubmittedPostShowsForm | TravelSNS/travelFrontend/src/components/post/CreatePost.jsx:177-200 | the post created from the form has its text and first-point location, and its images in the user's order with their captions |
| CreatePostForm.SubmittedPointsStored | TravelSNS/travelFrontend/src/components/post/CreatePost.jsx:185-188 | the stored route points are the form's points in order, with their places and labels, and the default transport `walk` |
| CreatePostForm.SubmittedTripStored | TravelSNS/travelFrontend/src/components/post/CreatePost.jsx:190-197 | the stored trip row holds the parsed budgets and the split lists |
| HomeFeed.KindOf | TravelSNS/travelFrontend/src/pages/Home.jsx:33 | `foryou` exactly for the recommend tab, `following` exactly for the other |
| HomeFeed.StartFetch | TravelSNS/travelFrontend/src/pages/Home.jsx:23-34 | ignored while a fetch is in flight; otherwise page `pageNum` of the tab's type is requested, 10 per page |
| HomeFeed.FinishFetch | TravelSNS/travelFrontend/src/pages/Home.jsx:39-56 | append gives old posts then new ones, otherwise the new ones replace them; page becomes `pageNum`; more is expected iff 10 came; the other tab is unchanged; a failure keeps the posts |
| HomeFeed.Scroll | TravelSNS/travelFrontend/src/pages/Home.jsx:80-83 | requests `page + 1` exactly when nothing is in flight and more is expected |
| HomeFeed.ShowTab | TravelSNS/travelFrontend/src/pages/Home.jsx:60-65 | the effect run on mount and on a tab change: an empty tab still expecting posts loads page 1; a filled tab keeps its posts |
| HomeFeed.Mount | TravelSNS/travelFrontend/src/pages/Home.jsx:8-65 | the page opens on the recommend tab, loading, and asks for page 1 of `foryou` |
| HomeFeed.ClickTab | TravelSNS/travelFrontend/src/pages/Home.jsx:97-107 | a click on the tab already on show changes nothing and sends nothing; a click on the other tab shows it and loads page 1 exactly when it is empty, still expects posts and nothing is in flight |
| HomeFeed.FailedFirstLoadNotRetriedByClick | TravelSNS/travelFrontend/src/pages/Home.jsx:60-65 | after a failed first load the empty tab is not reloaded by clicking it, only by switching away and back |
| HomeFeed.Refresh | TravelSNS/travelFrontend/src/pages/Home.jsx:68-71 | after a new post, page 1 of the tab on show is requested again |
| HomeFeed.InFlightIgnored | TravelSNS/travelFrontend/src/pages/Home.jsx:24-26 | while loading, scrolling, refreshing, switching tabs and clicking a tab send nothing |
| HomeFeed.ScrollingConcatenates | TravelSNS/travelFrontend/src/pages/Home.jsx:39-83 | scrolling through full pages shows them in order after the posts already there, one page number per page; the other tab is untouched |
| HomeFeed.ShortPageStops | TravelSNS/travelFrontend/src/pages/Home.jsx:80-83 | after a short page, further scrolling sends nothing |
| HomeFeed.RefreshReplaces | TravelSNS/travelFrontend/src/pages/Home.jsx:68-71 | a refreshed tab shows exactly the first page again |
| GeocodeProxy.Wait | TravelSNS/travelBackend/src/route/NominatimRoutes.js:40-43 | the wait is `1000 - elapsed` when under a second has passed, else zero |
| GeocodeProxy.Fetch | TravelSNS/travelBackend/src/route/NominatimRoutes.js:34-58 | an entry younger than an hour is answered with no call and no state change; an expired one is dropped; the slot is taken before the call; the cache is written only on success |
| GeocodeProxy.Handle | TravelSNS/travelBackend/src/route/NominatimRoutes.js:30-99 | an empty `q`, or a missing `lat` or `lon`, gives 400 with no call; otherwise the keyed fetch (`q`, or `REV:lat,lon`) |
| GeocodeProxy.OtherKeysUnchanged | TravelSNS/travelBackend/src/route/NominatimRoutes.js:34-53 | a request touches only its own cache key |
| GeocodeProxy.CacheHitIsQuiet | TravelSNS/travelBackend/src/route/NominatimRoutes.js:34-38 | a fresh hit makes no call and leaves `lastRequestTime` alone |
| GeocodeProxy.FailedCallConsumesSlot | TravelSNS/travelBackend/src/route/NominatimRoutes.js:40-58 | a failed call still moves `lastRequestTime`, caches nothing, and gives 500 |
| GeocodeProxy.SuccessThenHit | TravelSNS/travelBackend/src/route/NominatimRoutes.js:34-53 | a success is served from the cache within the hour |
| GeocodeProxy.SearchReverseShareKeys | TravelSNS/travelBackend/src/route/NominatimRoutes.js:34-67 | a search for the text `REV:lat,lon` shares the reverse lookup's cache entry |
| GeocodeProxy.HandleThrottle | TravelSNS/travelBackend/src/route/NominatimRoutes.js:40-43 | an outbound call starts at least a second after the previous one |
| GeocodeProxy.RunSpacing | TravelSNS/travelBackend/src/route/NominatimRoutes.js:27-43 | over any sequence of requests, successive outbound calls start at least 1000 ms apart |
| GeocodeProxy.RunPairwiseSpacing | TravelSNS/travelBackend/src/route/NominatimRoutes.js:27-43 | any two outbound calls are at least 1000 ms per intervening call apart |
| JsText.Trim | TravelSNS/travelFrontend/src/components/post/CreatePost.jsx:53 | `trim` leaves the infix without leading or trailing white space, empty exactly for an all-space string |
| JsText.TrimNonEmptyIsMapFilter | TravelSNS/travelBackend/src/route/PostRoutes.js:77 | the recursive reading equals `.map(s => s.trim())` followed by `.filter(s => s.length > 0)` |
| JsText.NonEmptyOfItems | TravelSNS/travelBackend/src/route/PostRoutes.js:77 | the filter keeps every non-empty string and nothing else, in order |
| JsText.TrimNonEmptyItems | TravelSNS/travelBackend/src/route/PostRoutes.js:77 | one item per piece whose trim is not blank, that trim, in the order of the pieces |
| JsText.CommaListOfPieces | TravelSNS/travelBackend/src/route/PostRoutes.js:77 | comma-free pieces joined by commas read back as their non-blank trims |
| JsText.CommaListIdempotent | TravelSNS/travelBackend/src/route/PostRoutes.js:77 | splitting, trimming and dropping blanks is idempotent through a re-join |
| JsText.ParseIntOfIntToString | TravelSNS/travelFrontend/src/components/post/CreatePost.jsx:191-194 | `parseInt(String(n)) \|\| 0` is n |

## Left out

- Request plumbing: authentication middleware (the signed-in user is a parameter), logging and file uploads themselves. Query and body values arrive as typed values, present or absent.
- `PostFeed.Feed`: `page` and `limit` arrive already read as integers. The route converts the query text itself (`page - 1` by Number conversion, `parseInt(limit)`), so text that is no number (NaN, a 500), a `limit` with trailing characters ("10x" read as 10) and the text-to-number step are not modelled; an empty `page` is the integer 0.
- bcrypt and jsonwebtoken: hashing and signing are symbolic, and the JWT secret is not modelled.
- Floating-point coordinates: latitude and longitude are opaque integers. Only JavaScript truthiness (0 is falsy) matters to the handlers.
- `LIKE` matching and collations: every string comparison in SQL is exact, code-point comparison rather than the column collation. That covers search (case-sensitive substring containment), `MIN(image_url)`, the username lookups of `Auth.Register`, `Auth.Login` and `ProfileRoutes.GetProfile`, the tag lookup of `PostCreate.FindOrCreateTag`, and the `GROUP BY location_name` of the location recommendation.
- Order of equal sort keys: SQL leaves it open, and may differ between two page queries; the parallel image inserts (`Promise.all`) may also land in any order. The model fixes equal keys in table order (insertion order), so the members below state one admissible order.
- `PostCreate.CreatedView`: images of equal `sortOrder` are stated in insertion order, which neither the query nor the parallel inserts guarantee; with distinct orders, as the composer sends, the order is fixed (`PostCreate.ClientImageOrderKept`).
- `PostFeed.FeedPageFor`: every match is on some page only under one fixed order of equal `createdAt` values; MySQL may order ties differently between page queries, and a post can then be skipped or repeated across pages.
- `PostFeed.OnPage`: the page of the k-th match holds under the model's fixed order of ties, which the source does not guarantee.
- `PostModel.TravelMode`: only ASCII capitals are lowered. JavaScript `toLowerCase` maps every Unicode capital and can change the length ("İ" becomes two code units); other characters are kept as they are.
- The feed's eager-loaded associations (likes, profile, route points, trip data) are not part of the returned value. Only the posts, their order and the paging are modelled.
- `ProfileRoutes.UserPostsAsWritten` and `ProfileRoutes.UserPosts`: the author row joined onto each post (`include: ["user"]`, ProfileRoutes.js line 53) is not part of the returned value; only the posts and their order are.
- `Mimics.MyMimics`: the saved post joined onto each record, with its author and route points (MimicRoutes.js lines 62-68), is not part of the returned value; only the records and their order are.
- `CreatePostForm.ImageCapKept`: the cap is proved only for selections that each finish before the next begins. The check on line 119 reads the images of the current render, the upload appends to the latest list (line 137), and the file input is disabled only at four images, not while an upload is in flight (line 309). Two selections overlapping during an upload can therefore each pass the check and together exceed four images (say three and three on an empty form). Overlapping uploads are not modelled.
- Re-reading the created post after commit can in principle fail. The model reads back within the same state.
- Column types (TINYINT, ENUM and VARCHAR lengths) are not modelled. An `ageGroup` value outside the enumeration cannot be represented.
- Sequelize throwing on `where: { username: undefined }`: an absent username is treated as a lookup miss.
- Concurrency: every request runs to completion before the next. Check-then-act races on like, follow, mimic and registration, and throttle races between awaits, are not modelled.
- InnoDB auto-increment counters: a new id is one more than the largest id present, so a rollback is exact.
- Database failures are parameters only where the code distinguishes them: post creation, registration and the model saves. Everywhere else a handler's `catch` answering 500 is not modelled.
- `ProfileRoutes.UpdateProfile`: the updaters' `false` results on a failed save are ignored by the route, which still answers 200. The model treats every such save as successful.
- `UserModel.Save`, `ProfileModel.UpdateField`, `ProfileModel.UpdateAgeGroup`, `PostModel.UpdateRouteInfo`, `PostModel.SetOriginalLanguage`: `Option` has one `None` for both null and undefined. So assigning undefined to a null column counts as no change here, and the save is treated as sending nothing. The ORM may instead see a change and write.
- `UserModel.BeforeUpdate`: rehashing of a value that is already a hash is not modelled. A stored `Digest` is never compared as a plain password.
- A null `isActive` column is not modelled. Accounts are active or inactive.
- `GeocodeProxy.Fetch`: the two `Date.now()` reads before the sleep are taken as one instant.
- Search proxies, the upload route, tag listing and the other routes outside the core are not part of this model.
- `CreatePostForm.MoveImage`: the index is required to be a position in the list, because the buttons that call it are rendered one per image.
- Location search suggestions, the initial-location effect and caption editing in `CreatePost.jsx` are not modelled. Their results are ordinary points and images.
- `CreatePostForm.SelectImages`: an upload response whose `imageUrl` is missing is not modelled. A successful upload yields a URL string.
- `HomeFeed.FinishFetch`: the `loading` state and `loadingRef` are one flag. The saved scroll position is not modelled.
- `Recommendations.RecommendUsers`: `ORDER BY RAND()` is a ranking parameter, so the contracts hold for every order.

## Findings

| source | as written | input that shows it | evidently intended | confidence | as-written member | corrected member |
|---|---|---|---|---|---|---|
| TravelSNS/travelBackend/src/route/ProfileRoutes.js:51-55 | the profile posts listing filters by `userId` only | a post its owner soft-deleted: the detail view answers 404, yet the listing still shows it | only posts with `isDeleted` false, as every other listing does | not executed | ProfileRoutes.DeletedPostStillListed | ProfileRoutes.UserPosts |
| TravelSNS/travelBackend/src/route/RecommendationRoutes.js:48-52 | `COUNT(rp.id)` over a `LEFT JOIN post_image` counts one row per image of the post | one route point named Kyoto on a post with two images: postCount 2 | the number of posts with a point of that name (`COUNT(DISTINCT p.post_id)`), since the client shows the figure as "N posts" (`{loc.postCount}件の投稿`, RecommendedDestinations.jsx line 37) | not executed | Recommendations.CountAsWrittenDependsOnImages | Recommendations.RecommendLocations |
| TravelSNS/travelBackend/src/route/RecommendationRoutes.js:48 | `COUNT(rp.id)` counts route points, not posts | one post without images whose route has two points named Kyoto: postCount 2 | one post counted once (`COUNT(DISTINCT p.post_id)`), for the same "N posts" label | not executed | Recommendations.CountAsWrittenRepeatsPosts | Recommendations.RecommendLocations |

=== FILE: auth.dfy ===
/** Registration and login. Registration is not a transaction: the user row
    and the profile row are two separate inserts. Signing is symbolic: a
    token is the claims it carries. */
module Auth {
  import opened Common
  import opened Schema
  import UserModel

  /** `expiresIn` of every token, in seconds (24 hours). */
  const TokenLifetime: int := 86400

  /** A signed token: the user id claim and its lifetime. */
  datatype Token = Token(userId: UserId, expiresIn: int)

  datatype RegisterRequest = RegisterRequest(username: Option<string>, password: Option<string>)

  /** The database failure a registration can meet: none, the user insert
      refused, or the profile insert refused after the user went in. */
  datatype RegisterFault = NoFault | UserInsertFails | ProfileInsertFails

  datatype RegisterResponse = Registered | UsernameTaken | MissingFields | RegisterFailed

  function RegisterStatus(r: RegisterResponse): int {
    match r
    case Registered => OK
    case UsernameTaken => BadRequest
    case MissingFields => BadRequest
    case RegisterFailed => ServerError
  }

  /** The id the next user insert receives. */
  function NextUserId(db: Db): (r: UserId)
    ensures forall i :: 0 <= i < |db.users| ==> db.users[i].id < r
  {
    var ids := seq(|db.users|, i requires 0 <= i < |db.users| => db.users[i].id);
    assert forall i :: 0 <= i < |db.users| ==> ids[i] == db.users[i].id;
    NextId(ids)
  }

  /** The name is held by some user. */
  predicate Taken(db: Db, name: Option<string>) {
    name.Some? && UserByName(db, name.value).Some?
  }

  /** The user row a registration creates, after the `beforeCreate` hook. */
  function NewUser(db: Db, name: string, password: string, salt: string, suffix: string): User {
    UserModel.BeforeCreate(User(NextUserId(db), name, Plain(password), None, true, false), salt, suffix)
  }

  /** `POST /api/auth/register`. A taken name is refused before the fields
      are checked; then a missing or empty username or password is refused;
      then the user is inserted (active, password hashed, display name
      generated by the hook), then a profile whose display name is the
      user's, falling back to the username. */
  function Register(db: Db, req: RegisterRequest, salt: string, suffix: string, fault: RegisterFault): (r: (Db, RegisterResponse))
    ensures r.1 == UsernameTaken <==> Taken(db, req.username)
    ensures r.1 == MissingFields <==> !Taken(db, req.username) && !(Truthy(req.username) && Truthy(req.password))
    ensures r.1 == Registered <==>
      !Taken(db, req.username) && Truthy(req.username) && Truthy(req.password) && fault == NoFault
    ensures r.1 != Registered && !(r.1 == RegisterFailed && fault == ProfileInsertFails) ==> r.0 == db
    ensures r.1 == Registered || (r.1 == RegisterFailed && fault == ProfileInsertFails) ==>
      && |r.0.users| == |db.users| + 1 && r.0.users[..|db.users|] == db.users
      && var u := r.0.users[|db.users|];
      && u.username == req.username.value && u.isActive && !u.isVerified
      && u.password == Digest(req.password.value, salt)
      && u.displayName == Some("user_" + suffix)
      && !UserExists(db, u.id)
    ensures r.1 == RegisterFailed && fault == ProfileInsertFails ==> r.0 == db.(users := r.0.users)
    ensures r.1 == Registered ==>
      r.0 == db.(users := r.0.users, profiles := db.profiles + [Profile(r.0.users[|db.users|].id, Some("user_" + suffix), None, None, None, None)])
  {
    if Taken(db, req.username) then (db, UsernameTaken)
    else if !Truthy(req.username) || !Truthy(req.password) then (db, MissingFields)
    else if fault == UserInsertFails then (db, RegisterFailed)
    else
      var u := NewUser(db, req.username.value, req.password.value, salt, suffix);
      var withUser := db.(users := db.users + [u]);
      if fault == ProfileInsertFails then (withUser, RegisterFailed)
      else
        assert fault.NoFault?;
        var profile := Profile(u.id, OrElse(u.displayName, Some(u.username)), None, None, None, None);
        (withUser.(profiles := withUser.profiles + [profile]), Registered)
  }

  datatype LoginResponse =
    | LoggedIn(id: UserId, username: string, accessToken: Token)
    | NoAccount
    | Deactivated
    | WrongPassword(token: Option<Token>)
    | LoginFailed

  function LoginStatus(r: LoginResponse): int {
    match r
    case LoggedIn(_, _, _) => OK
    case NoAccount => NotFound
    case Deactivated => Unauthorized
    case WrongPassword(_) => Unauthorized
    case LoginFailed => ServerError
  }

  /** `POST /api/auth/login`: 404 for an unknown name; 401 for an inactive
      account before the password is looked at; a missing password makes
      the comparison throw (500); a wrong one is 401 with a null token;
      otherwise the found user's id and name with a 24-hour token for that
      id. */
  function Login(db: Db, username: Option<string>, password: Option<string>): (r: LoginResponse)
    ensures r == NoAccount <==> !Taken(db, username)
    ensures r == Deactivated <==> Taken(db, username) && !UserByName(db, username.value).value.isActive
    ensures r == LoginFailed <==>
      Taken(db, username) && UserByName(db, username.value).value.isActive && password.None?
    ensures r.WrongPassword? <==>
      && Taken(db, username) && UserByName(db, username.value).value.isActive
      && password.Some? && !PasswordMatches(password.value, UserByName(db, username.value).value.password)
    ensures r.WrongPassword? ==> r.token.None?
    ensures r.LoggedIn? <==>
      && Taken(db, username) && UserByName(db, username.value).value.isActive
      && password.Some? && PasswordMatches(password.value, UserByName(db, username.value).value.password)
    ensures r.LoggedIn? ==>
      && r.username == username.value
      && r.accessToken == Token(r.id, TokenLifetime)
      && exists i :: 0 <= i < |db.users| && db.users[i].id == r.id && db.users[i].username == r.username
  {
    if !Taken(db, username) then NoAccount
    else
      var u := UserByName(db, username.value).value;
      if !u.isActive then Deactivated
      else if password.None? then LoginFailed
      else if !UserModel.VerifyPassWord(u, password.value) then WrongPassword(None)
      else LoggedIn(u.id, u.username, Token(u.id, TokenLifetime))
  }

  /** An inactive account is refused whatever password comes with it. */
  lemma InactiveIgnoresPassword(db: Db, name: string, p1: Option<string>, p2: Option<string>)
    requires UserByName(db, name).Some? && !UserByName(db, name).value.isActive
    ensures Login(db, Some(name), p1) == Login(db, Some(name), p2) == Deactivated
  {
  }

  /** A fresh registration can log in at once with the same name and
      password, and receives a token for the new user's id. */
  lemma RegisterThenLogin(db: Db, name: string, password: string, salt: string, suffix: string)
    requires Register(db, RegisterRequest(Some(name), Some(password)), salt, suffix, NoFault).1 == Registered
    ensures var db' := Register(db, RegisterRequest(Some(name), Some(password)), salt, suffix, NoFault).0;
      Login(db', Some(name), Some(password)) == LoggedIn(NextUserId(db), name, Token(NextUserId(db), TokenLifetime))
  {
    var u := NewUser(db, name, password, salt, suffix);
    FindFirstAppend(db.users, [u], (x: User) => x.username == name);
  }

  /** Registering a name a second time is refused, and changes nothing. */
  lemma RegisterTwice(db: Db, req: RegisterRequest, salt: string, suffix: string, req2: RegisterRequest, salt2: string, suffix2: string, fault: RegisterFault)
    requires Register(db, req, salt, suffix, NoFault).1 == Registered
    requires req2.username == req.username
    ensures var db' := Register(db, req, salt, suffix, NoFault).0;
      Register(db', req2, salt2, suffix2, fault) == (db', UsernameTaken)
  {
    var name := req.username.value;
    var u := NewUser(db, name, req.password.value, salt, suffix);
    FindFirstAppend(db.users, [u], (x: User) => x.username == name);
  }

  /** Once a deactivation is saved, logging in under that name is refused
      with 401 whatever the password. */
  lemma DeactivateThenLogin(db: Db, u: User, salt: string, dbFails: bool, password: Option<string>)
    requires UserByName(db, u.username) == Some(u)
    requires forall i :: 0 <= i < |db.users| && db.users[i].id == u.id ==> db.users[i] == u
    requires UserModel.DeactivateAccount(db, u, salt, dbFails).ok
    ensures Login(UserModel.Persist(db, UserModel.DeactivateAccount(db, u, salt, dbFails)), Some(u.username), password) == Deactivated
  {
    var r := UserModel.DeactivateAccount(db, u, salt, dbFails);
    var db' := UserModel.Persist(db, r);
    var byName := (x: User) => x.username == u.username;
    var update := (x: User) => if x.id == u.id then r.row else x;
    forall i | 0 <= i < |db.users| && byName(db.users[i]) ensures byName(update(db.users[i])) {
    }
    FindFirstMapped(db.users, db'.users, byName, update);
  }
}

=== FILE: common.dfy ===
/** Values shared by every part of the model: optional values (the source's
    null/undefined), row identifiers, and the HTTP statuses the handlers answer
    with. */
module Common {

  /** A nullable value. `None` stands for JavaScript's `null` and `undefined`
      alike wherever the source does not tell the two apart. */
  datatype Option<+T> = None | Some(value: T) {

    predicate IsFailure() {
      None?
    }

    function PropagateFailure<U>(): Option<U>
      requires None?
    {
      None
    }

    function Extract(): T
      requires Some?
    {
      value
    }

    /** `x ?? d`: the carried value, or `d` when there is none. */
    function GetOr(d: T): T {
      match this
      case Some(v) => v
      case None => d
    }
  }

  /** Primary keys are auto-increment integers. */
  type UserId = int
  type PostId = int
  type TagId = int

  /** JavaScript truthiness of an optional string: present and non-empty. */
  predicate Truthy(s: Option<string>) {
    s.Some? && s.value != ""
  }

  /** JavaScript truthiness of an optional number: present and non-zero. */
  predicate TruthyNum(n: Option<int>) {
    n.Some? && n.value != 0
  }

  /** `a || b` on optional strings. */
  function OrElse(a: Option<string>, b: Option<string>): Option<string> {
    if Truthy(a) then a else b
  }

  /** HTTP status codes the handlers send. */
  const OK: int := 200
  const BadRequest: int := 400
  const Unauthorized: int := 401
  const Forbidden: int := 403
  const NotFound: int := 404
  const ServerError: int := 500
}

=== FILE: create_post_form.dfy ===
/** The post composer: the form state the user edits (tags, route points,
    images, trip details) and the request body it sends. Uploads are given
    as their outcome; coordinates are opaque integers. */
module CreatePostForm {
  import opened Common
  import opened JsText
  import opened Sorting
  import opened Schema
  import PostCreate

  /** A route point on the form: where it is and what it is called. */
  datatype Point = Point(lat: int, lon: int, name: string)

  /** An uploaded image on the form: the server's URL and the caption. */
  datatype Image = Image(url: string, description: string)

  /** The trip-details inputs, all as typed. */
  datatype TripForm = TripForm(
    totalBudget: string,
    budgetFood: string,
    budgetAccommodation: string,
    budgetTransport: string,
    accommodationNames: string,
    transportMethods: string)

  const EmptyTrip: TripForm := TripForm("", "", "", "", "", "")

  /** The most images a post may carry. */
  const MaxImages: nat := 4

  datatype Form = Form(
    content: string,
    images: seq<Image>,
    routePoints: seq<Point>,
    tags: seq<string>,
    tagInput: string,
    showMap: bool,
    showTripDetails: bool,
    trip: TripForm)

  // ---------------------------------------------------------------- tags

  /** `handleTagInput`: on Enter, the trimmed input is added when it is
      non-blank and not yet listed, and the input is cleared; every other
      key, and a blank or repeated tag, leaves the form as it is. */
  function HandleTagInput(f: Form, key: string): (r: Form)
    ensures r.(tags := f.tags, tagInput := f.tagInput) == f
    ensures r.tags != f.tags <==> key == "Enter" && Trim(f.tagInput) != "" && Trim(f.tagInput) !in f.tags
    ensures r.tags != f.tags ==> r.tags == f.tags + [Trim(f.tagInput)] && r.tagInput == ""
    ensures r.tags == f.tags ==> r == f
    ensures Distinct(f.tags) ==> Distinct(r.tags)
    ensures forall k :: 0 <= k < |f.tags| && IsCleanTag(f.tags[k]) ==> IsCleanTag(r.tags[k])
  {
    var t := Trim(f.tagInput);
    if key == "Enter" && t != "" && t !in f.tags then
      assert (f.tags + [t])[|f.tags|] == t;
      f.(tags := f.tags + [t], tagInput := "")
    else f
  }

  /** A tag as the composer can produce it: non-empty and trimmed. */
  predicate IsCleanTag(t: string) {
    t != "" && IsTrimmed(t)
  }

  /** Whatever keys are pressed, a tag list that starts out empty holds only
      distinct, non-blank, trimmed tags. */
  lemma {:induction false} TypedTagsClean(f: Form, keys: seq<(string, string)>)
    requires f.tags == []
    ensures var r := TypeTags(f, keys);
      Distinct(r.tags) && forall k :: 0 <= k < |r.tags| ==> IsCleanTag(r.tags[k])
  {
    if |keys| > 0 {
      TypedTagsCleanFrom(f, keys);
    }
  }

  /** Typing each `(input, key)` pair into the tag box in turn. */
  function TypeTags(f: Form, keys: seq<(string, string)>): Form
    decreases |keys|
  {
    if |keys| == 0 then f
    else TypeTags(HandleTagInput(f.(tagInput := keys[0].0), keys[0].1), keys[1..])
  }

  lemma {:induction false} TypedTagsCleanFrom(f: Form, keys: seq<(string, string)>)
    requires Distinct(f.tags) && forall k :: 0 <= k < |f.tags| ==> IsCleanTag(f.tags[k])
    ensures var r := TypeTags(f, keys);
      Distinct(r.tags) && forall k :: 0 <= k < |r.tags| ==> IsCleanTag(r.tags[k])
    decreases |keys|
  {
    if |keys| > 0 {
      var g := f.(tagInput := keys[0].0);
      var h := HandleTagInput(g, keys[0].1);
      assert forall k :: 0 <= k < |h.tags| ==> IsCleanTag(h.tags[k]) by {
        if h.tags != g.tags {
          assert h.tags == g.tags + [Trim(g.tagInput)];
          forall k | 0 <= k < |h.tags| ensures IsCleanTag(h.tags[k]) {
            if k < |g.tags| {
              assert h.tags[k] == g.tags[k];
            }
          }
        }
      }
      TypedTagsCleanFrom(h, keys[1..]);
    }
  }

  /** `removeTag`: the list without that value, the others in their order. */
  function RemoveTag(tags: seq<string>, t: string): (r: seq<string>)
    ensures t !in r
    ensures forall x :: x != t ==> (x in r <==> x in tags)
    ensures |r| <= |tags|
    ensures t !in tags ==> r == tags
  {
    if |tags| == 0 then []
    else
      var rest := RemoveTag(tags[1..], t);
      assert forall x :: x in tags <==> x == tags[0] || x in tags[1..];
      if tags[0] == t then rest
      else
        assert tags == [tags[0]] + tags[1..];
        [tags[0]] + rest
  }

  /** Removing a tag filters each part of the list on its own, so the tags
      that stay keep their relative order. */
  lemma {:induction false} RemoveTagConcat(a: seq<string>, b: seq<string>, t: string)
    ensures RemoveTag(a + b, t) == RemoveTag(a, t) + RemoveTag(b, t)
    decreases |a|
  {
    if |a| > 0 {
      assert (a + b)[1..] == a[1..] + b;
      RemoveTagConcat(a[1..], b, t);
    } else {
      assert a + b == b;
    }
  }

  /** Removing the tag just added gives back the list before it. */
  lemma AddThenRemoveTag(f: Form)
    requires HandleTagInput(f, "Enter").tags != f.tags
    ensures RemoveTag(HandleTagInput(f, "Enter").tags, Trim(f.tagInput)) == f.tags
  {
    var t := Trim(f.tagInput);
    RemoveTagConcat(f.tags, [t], t);
    assert RemoveTag([t], t) == [];
  }

  /** A list without repeats keeps that property when a tag is removed. */
  lemma {:induction false} RemoveTagDistinct(tags: seq<string>, t: string)
    requires Distinct(tags)
    ensures Distinct(RemoveTag(tags, t))
  {
    if |tags| > 0 {
      assert Distinct(tags[1..]) by {
        forall i, j | 0 <= i < j < |tags[1..]| ensures tags[1..][i] != tags[1..][j] {
          assert tags[1..][i] == tags[i + 1] && tags[1..][j] == tags[j + 1];
        }
      }
      RemoveTagDistinct(tags[1..], t);
      var rest := RemoveTag(tags[1..], t);
      if tags[0] != t {
        assert tags[0] !in tags[1..] by {
          forall k | 0 <= k < |tags[1..]| ensures tags[1..][k] != tags[0] {
            assert tags[1..][k] == tags[k + 1];
          }
        }
        assert tags[0] !in rest;
        var r := [tags[0]] + rest;
        forall i, j | 0 <= i < j < |r| ensures r[i] != r[j] {
          if i == 0 {
            assert r[j] == rest[j - 1] && r[j] in rest;
          } else {
            assert r[i] == rest[i - 1] && r[j] == rest[j - 1];
          }
        }
      }
    }
  }

  // ------------------------------------------------- removal by position

  /** `list.filter((_, i) => i !== index)`, the body of both `removePoint`
      and `removeImage`: the list without the entry at `index`; an index
      that names no entry removes nothing. */
  function RemoveAt<T>(s: seq<T>, index: int): (r: seq<T>)
    ensures 0 <= index < |s| ==> r == s[..index] + s[index + 1..]
    ensures !(0 <= index < |s|) ==> r == s
    ensures 0 <= index < |s| ==> |r| == |s| - 1
    decreases |s|
  {
    if |s| == 0 then []
    else
      var rest := RemoveAt(s[1..], index - 1);
      if index == 0 then s[1..]
      else
        assert s == [s[0]] + s[1..];
        if 0 <= index < |s| then
          assert s[1..][..index - 1] == s[1..index] && s[1..][index..] == s[index + 1..];
          assert s[..index] == [s[0]] + s[1..index];
          [s[0]] + rest
        else
          [s[0]] + rest
  }

  /** Removal by position keeps the order of what remains: entries before
      the index stay where they were, entries after it move up by one. */
  lemma RemoveAtShifts<T>(s: seq<T>, index: int, k: int)
    requires 0 <= index < |s| && 0 <= k < |s| - 1
    ensures RemoveAt(s, index)[k] == if k < index then s[k] else s[k + 1]
  {
  }

  /** Removing by position never invents an entry. */
  lemma RemoveAtShrinks<T>(s: seq<T>, index: int)
    ensures multiset(RemoveAt(s, index)) <= multiset(s)
  {
    if 0 <= index < |s| {
      assert s == s[..index] + [s[index]] + s[index + 1..];
    }
  }

  // -------------------------------------------------------- route points

  /** The label a map click gives the point it adds: `地点 n` for the n-th. */
  function ClickLabel(n: int): string {
    "地点 " + IntToString(n)
  }

  /** `handleMapClick`: a point at the clicked place, labelled by its
      position counting from one, after the existing points. */
  function HandleMapClick(points: seq<Point>, lat: int, lon: int): (r: seq<Point>)
    ensures |r| == |points| + 1 && r[..|points|] == points
    ensures r[|points|].lat == lat && r[|points|].lon == lon
    ensures r[|points|].name == ClickLabel(|r|)
  {
    points + [Point(lat, lon, ClickLabel(|points| + 1))]
  }

  /** Clicking the map at each place in turn. */
  function ClickAll(points: seq<Point>, places: seq<(int, int)>): seq<Point>
    decreases |places|
  {
    if |places| == 0 then points
    else ClickAll(HandleMapClick(points, places[0].0, places[0].1), places[1..])
  }

  /** Points placed by clicking an empty map are labelled `地点 1`, `地点 2`,
      ... in order, one per click, at the clicked places. */
  lemma {:induction false} ClicksNumbered(places: seq<(int, int)>)
    ensures var r := ClickAll([], places);
      |r| == |places| && forall k :: 0 <= k < |r| ==> r[k] == Point(places[k].0, places[k].1, ClickLabel(k + 1))
  {
    var none: seq<Point> := [];
    ClicksNumberedFrom(none, places);
    var r := ClickAll(none, places);
    forall k | 0 <= k < |r| ensures r[k] == Point(places[k].0, places[k].1, ClickLabel(k + 1)) {
      assert r[|none| + k] == Point(places[k].0, places[k].1, ClickLabel(|none| + k + 1));
    }
  }

  lemma {:induction false} ClicksNumberedFrom(points: seq<Point>, places: seq<(int, int)>)
    requires forall k :: 0 <= k < |points| ==> points[k].name == ClickLabel(k + 1)
    ensures var r := ClickAll(points, places);
      && |r| == |points| + |places| && r[..|points|] == points
      && forall k :: 0 <= k < |places| ==> r[|points| + k] == Point(places[k].0, places[k].1, ClickLabel(|points| + k + 1))
    decreases |places|
  {
    if |places| > 0 {
      var p1 := HandleMapClick(points, places[0].0, places[0].1);
      ClicksNumberedFrom(p1, places[1..]);
      var r := ClickAll(p1, places[1..]);
      assert r[..|points|] == r[..|p1|][..|points|];
      forall k | 0 <= k < |places| ensures r[|points| + k] == Point(places[k].0, places[k].1, ClickLabel(|points| + k + 1)) {
        if k == 0 {
          assert r[|points|] == r[..|p1|][|points|];
        } else {
          assert places[1..][k - 1] == places[k];
          assert r[|p1| + (k - 1)] == Point(places[1..][k - 1].0, places[1..][k - 1].1, ClickLabel(|p1| + (k - 1) + 1));
        }
      }
    }
  }

  /** Removing the point a click just added gives back the points before. */
  lemma ClickThenRemove(points: seq<Point>, lat: int, lon: int)
    ensures RemoveAt(HandleMapClick(points, lat, lon), |points|) == points
  {
    var r := HandleMapClick(points, lat, lon);
    assert r[..|points|] == points;
  }

  // ---------------------------------------------------------------- images

  datatype SelectOutcome = TooMany | UploadFailed | Added

  /** `handleImageSelect` for `n` chosen files: refused with no change when
      the list would exceed four images; otherwise each file is uploaded
      and, when every upload succeeds (`uploads` holds the returned URLs in
      file order), the new images follow the existing ones with an empty
      caption. A failed upload adds none of them. */
  function SelectImages(images: seq<Image>, n: nat, uploads: Option<seq<string>>): (r: (seq<Image>, SelectOutcome))
    requires uploads.Some? ==> |uploads.value| == n
    ensures r.1 == TooMany <==> |images| + n > MaxImages
    ensures r.1 == Added <==> |images| + n <= MaxImages && uploads.Some?
    ensures r.1 != Added ==> r.0 == images
    ensures r.1 == Added ==>
      && |r.0| == |images| + n && r.0[..|images|] == images
      && forall k :: 0 <= k < n ==> r.0[|images| + k] == Image(uploads.value[k], "")
    ensures |images| <= MaxImages ==> |r.0| <= MaxImages
  {
    if |images| + n > MaxImages then (images, TooMany)
    else match uploads
      case None => (images, UploadFailed)
      case Some(urls) =>
        var added := seq(n, k requires 0 <= k < n => Image(urls[k], ""));
        (images + added, Added)
  }

  /** However many selections are made, each one finishing before the next
      begins, the list never holds more than four images. */
  lemma {:induction false} ImageCapKept(images: seq<Image>, picks: seq<(nat, Option<seq<string>>)>)
    requires |images| <= MaxImages
    requires forall i :: 0 <= i < |picks| ==> (picks[i].1.Some? ==> |picks[i].1.value| == picks[i].0)
    ensures |SelectAll(images, picks)| <= MaxImages
    decreases |picks|
  {
    if |picks| > 0 {
      ImageCapKept(SelectImages(images, picks[0].0, picks[0].1).0, picks[1..]);
    }
  }

  /** The images after a series of selections. */
  function SelectAll(images: seq<Image>, picks: seq<(nat, Option<seq<string>>)>): seq<Image>
    requires forall i :: 0 <= i < |picks| ==> (picks[i].1.Some? ==> |picks[i].1.value| == picks[i].0)
    decreases |picks|
  {
    if |picks| == 0 then images
    else SelectAll(SelectImages(images, picks[0].0, picks[0].1).0, picks[1..])
  }

  /** `moveImage(index, direction)`: `"left"` swaps the image with the one
      before it and `"right"` with the one after it; at either end, or for
      any other direction, nothing moves. */
  function MoveImage(images: seq<Image>, index: int, direction: string): (r: seq<Image>)
    requires 0 <= index < |images|
    ensures |r| == |images| && multiset(r) == multiset(images)
    ensures direction == "left" && index > 0 ==>
      && r[index - 1] == images[index] && r[index] == images[index - 1]
      && forall k :: 0 <= k < |r| && k != index - 1 && k != index ==> r[k] == images[k]
    ensures direction == "right" && index < |images| - 1 ==>
      && r[index + 1] == images[index] && r[index] == images[index + 1]
      && forall k :: 0 <= k < |r| && k != index && k != index + 1 ==> r[k] == images[k]
    ensures !(direction == "left" && index > 0) && !(direction == "right" && index < |images| - 1) ==> r == images
  {
    if direction == "left" && index > 0 then Swap(images, index - 1, index)
    else if direction == "right" && index < |images| - 1 then Swap(images, index, index + 1)
    else images
  }

  /** Exchanging the entries at `i` and `j`. */
  function Swap<T>(s: seq<T>, i: nat, j: nat): (r: seq<T>)
    requires i < j < |s|
    ensures |r| == |s| && r[i] == s[j] && r[j] == s[i]
    ensures forall k :: 0 <= k < |s| && k != i && k != j ==> r[k] == s[k]
    ensures multiset(r) == multiset(s)
  {
    var r := s[i := s[j]][j := s[i]];
    assert s == s[..i] + [s[i]] + s[i + 1..j] + [s[j]] + s[j + 1..];
    assert r == s[..i] + [s[j]] + s[i + 1..j] + [s[i]] + s[j + 1..];
    r
  }

  /** Moving an image left and then moving it back right restores the
      order. */
  lemma MoveLeftThenRight(images: seq<Image>, index: int)
    requires 0 < index < |images|
    ensures MoveImage(MoveImage(images, index, "left"), index - 1, "right") == images
  {
    assert "left"[0] != "right"[0];
    var m := MoveImage(images, index, "left");
    assert m == Swap(images, index - 1, index);
    assert MoveImage(m, index - 1, "right") == Swap(m, index - 1, index);
    SwapTwice(images, index - 1, index);
  }

  /** Moving an image right and then back left restores the order. */
  lemma MoveRightThenLeft(images: seq<Image>, index: int)
    requires 0 <= index < |images| - 1
    ensures MoveImage(MoveImage(images, index, "right"), index + 1, "left") == images
  {
    assert "left"[0] != "right"[0];
    var m := MoveImage(images, index, "right");
    assert m == Swap(images, index, index + 1);
    assert MoveImage(m, index + 1, "left") == Swap(m, index, index + 1);
    SwapTwice(images, index, index + 1);
  }

  /** Exchanging the same two entries twice restores the list. */
  lemma SwapTwice<T>(s: seq<T>, i: nat, j: nat)
    requires i < j < |s|
    ensures Swap(Swap(s, i, j), i, j) == s
  {
    var b := Swap(Swap(s, i, j), i, j);
    forall k | 0 <= k < |b| ensures b[k] == s[k] {
    }
  }

  // ---------------------------------------------------------------- submit

  /** The guard of `handleSubmit`: a post needs non-blank text or at least
      one image. */
  predicate CanSubmit(f: Form) {
    Trim(f.content) != "" || |f.images| > 0
  }

  /** The images as sent: URL, caption, and the position as `sortOrder`. */
  function PayloadImages(images: seq<Image>): (r: seq<PostCreate.ImageInput>)
    ensures |r| == |images|
    ensures forall i :: 0 <= i < |r| ==>
      r[i] == PostCreate.ImageInput(Some(images[i].url), Some(images[i].description), Some(i))
  {
    seq(|images|, i requires 0 <= i < |images| =>
      PostCreate.ImageInput(Some(images[i].url), Some(images[i].description), Some(i)))
  }

  /** The route points as sent: the longitude goes as `lon`, and neither a
      description nor a transport is sent. */
  function PayloadPoints(points: seq<Point>): (r: seq<PostCreate.PointInput>)
    ensures |r| == |points|
    ensures forall i :: 0 <= i < |r| ==>
      r[i] == PostCreate.PointInput(Some(points[i].lat), None, Some(points[i].lon), Some(points[i].name), None, PostCreate.Omitted)
  {
    seq(|points|, i requires 0 <= i < |points| =>
      PostCreate.PointInput(Some(points[i].lat), None, Some(points[i].lon), Some(points[i].name), None, PostCreate.Omitted))
  }

  /** The trip details as sent: each budget read with `parseInt`, 0 when it
      is not a number, and each list split at commas, trimmed and emptied of
      blanks. */
  function PayloadTrip(t: TripForm): (r: PostCreate.TripInput)
    ensures r.totalBudget == Some(ParseIntOrZero(t.totalBudget))
    ensures r.budgetFood == Some(ParseIntOrZero(t.budgetFood))
    ensures r.budgetAccommodation == Some(ParseIntOrZero(t.budgetAccommodation))
    ensures r.budgetTransport == Some(ParseIntOrZero(t.budgetTransport))
    ensures PostCreate.ToSafeArray(r.accommodationNames) == CommaList(t.accommodationNames)
    ensures PostCreate.ToSafeArray(r.transportMethods) == CommaList(t.transportMethods)
  {
    PostCreate.ToSafeArrayOfStrings(CommaList(t.accommodationNames));
    PostCreate.ToSafeArrayOfStrings(CommaList(t.transportMethods));
    PostCreate.TripInput(
      Some(ParseIntOrZero(t.totalBudget)),
      Some(ParseIntOrZero(t.budgetFood)),
      Some(ParseIntOrZero(t.budgetAccommodation)),
      Some(ParseIntOrZero(t.budgetTransport)),
      PostCreate.StringsToJs(CommaList(t.accommodationNames)),
      PostCreate.StringsToJs(CommaList(t.transportMethods)))
  }

  /** The first route point's field, or null when there are none. */
  function FirstLat(points: seq<Point>): Option<int> {
    if |points| > 0 then Some(points[0].lat) else None
  }

  function FirstLon(points: seq<Point>): Option<int> {
    if |points| > 0 then Some(points[0].lon) else None
  }

  function FirstName(points: seq<Point>): Option<string> {
    if |points| > 0 then Some(points[0].name) else None
  }

  /** The body `handleSubmit` posts, or nothing when the guard stops it. */
  function Payload(f: Form): (r: Option<PostCreate.CreateRequest>)
    ensures r.None? <==> !CanSubmit(f)
    ensures r.Some? ==>
      && r.value.content == Some(f.content)
      && r.value.images == PayloadImages(f.images)
      && r.value.routePoints == PayloadPoints(f.routePoints)
      && r.value.tags == f.tags
      && r.value.latitude == FirstLat(f.routePoints)
      && r.value.longitude == FirstLon(f.routePoints)
      && r.value.locationName == FirstName(f.routePoints)
      && r.value.startLocation.None? && r.value.endLocation.None?
      && r.value.transportMode.None? && r.value.routeSummary.None?
      && (f.showTripDetails <==> r.value.tripData.Some?)
      && (f.showTripDetails ==> r.value.tripData.value == PayloadTrip(f.trip))
  {
    if !CanSubmit(f) then None
    else Some(PostCreate.CreateRequest(
      Some(f.content), None, None, None, None,
      FirstLat(f.routePoints), FirstLon(f.routePoints), FirstName(f.routePoints),
      PayloadImages(f.images), PayloadPoints(f.routePoints),
      if f.showTripDetails then Some(PayloadTrip(f.trip)) else None,
      f.tags))
  }

  /** `handleSubmit`: nothing happens when the guard stops it or the
      request fails; after a successful post the composer is cleared, all
      but the tag input box. */
  function Submit(f: Form, succeeded: bool): (r: Form)
    ensures !CanSubmit(f) || !succeeded ==> r == f
    ensures CanSubmit(f) && succeeded ==>
      r == Form("", [], [], [], f.tagInput, false, false, EmptyTrip)
    ensures CanSubmit(f) && succeeded ==> !CanSubmit(r)
  {
    if CanSubmit(f) && succeeded then Form("", [], [], [], f.tagInput, false, false, EmptyTrip)
    else f
  }

  /** What the server stores for a submitted form: the text, the first
      route point as the post's location, and the images in the order the
      user arranged them, each with its caption. */
  lemma SubmittedPostShowsForm(db: Db, author: UserId, f: Form, now: int, faults: set<PostCreate.Step>)
    requires WellFormed(db)
    requires Payload(f).Some?
    requires PostCreate.CreatePost(db, author, Payload(f).value, now, faults).1.Created?
    ensures var body := PostCreate.CreatePost(db, author, Payload(f).value, now, faults).1.body;
      && body.Some?
      && body.value.post.content == f.content
      && body.value.post.latitude == FirstLat(f.routePoints)
      && body.value.post.longitude == FirstLon(f.routePoints)
      && body.value.post.locationName == FirstName(f.routePoints)
      && |body.value.images| == |f.images|
      && forall i :: 0 <= i < |f.images| ==>
           && body.value.images[i].imageUrl == f.images[i].url
           && body.value.images[i].description == Some(f.images[i].description)
           && body.value.images[i].sortOrder == i
  {
    var req := Payload(f).value;
    var id := NextPostId(db);
    PostCreate.ClientImageOrderKept(db, author, req, now, faults);
    PostCreate.CreatedView(db, author, req, now, faults);
    var body := PostCreate.CreatePost(db, author, req, now, faults).1.body.value;
    assert body.post == PostCreate.NewPost(author, id, req, now);
    var rows := PostCreate.ImageRows(id, req.images);
    assert body.images == rows;
    assert req.images == PayloadImages(f.images);
    forall i | 0 <= i < |f.images|
      ensures rows[i].imageUrl == f.images[i].url && rows[i].description == Some(f.images[i].description) && rows[i].sortOrder == i
    {
      assert req.images[i] == PostCreate.ImageInput(Some(f.images[i].url), Some(f.images[i].description), Some(i));
    }
  }

  /** Every route point of a form is storable, and the rows written for it
      are the form's points in order: position, place and label, with the
      column's default transport `walk`, since the form sends none. */
  lemma SubmittedPointsStored(f: Form, id: PostId)
    requires Payload(f).Some?
    ensures PostCreate.PointsStorable(Payload(f).value.routePoints)
    ensures var rows := PostCreate.PointRowsOf(id, Payload(f).value.routePoints);
      && |rows| == |f.routePoints|
      && forall i :: 0 <= i < |rows| ==>
           rows[i] == RoutePoint(id, i, f.routePoints[i].lat, f.routePoints[i].lon, Some(f.routePoints[i].name), None, Some("walk"))
  {
    var pts := Payload(f).value.routePoints;
    assert forall i :: 0 <= i < |pts| ==> !TruthyNum(pts[i].lng);
  }

  /** The trip-data row written for a form with trip details on holds the
      budgets as read by `parseInt` and the lists as split on the form. */
  lemma SubmittedTripStored(f: Form, id: PostId)
    requires Payload(f).Some? && f.showTripDetails
    ensures var row := PostCreate.TripRowOf(id, Payload(f).value.tripData.value);
      && row.totalBudget == Some(ParseIntOrZero(f.trip.totalBudget))
      && row.budgetFood == Some(ParseIntOrZero(f.trip.budgetFood))
      && row.budgetAccommodation == Some(ParseIntOrZero(f.trip.budgetAccommodation))
      && row.budgetTransport == Some(ParseIntOrZero(f.trip.budgetTransport))
      && row.accommodationNames == CommaList(f.trip.accommodationNames)
      && row.transportMethods == CommaList(f.trip.transportMethods)
  {
  }
}

=== FILE: follows.dfy ===
/** Following other users and looking a user up. Follow edges are ordered
    pairs (follower, followed); the unique index on the two columns makes
    them a set. */
module Follows {
  import opened Common
  import opened Schema
  import PostFeed

  datatype FollowResponse = Followed | Unfollowed | SelfFollow | FollowFailed

  function FollowStatus(r: FollowResponse): int {
    match r
    case Followed => OK
    case Unfollowed => OK
    case SelfFollow => BadRequest
    case FollowFailed => ServerError
  }

  /** `POST /api/users/:id/follow` by `me`: following oneself is refused; an
      existing edge is removed; otherwise an edge is inserted, which the
      foreign keys refuse when either user is missing. */
  function ToggleFollow(db: Db, me: UserId, target: UserId): (r: (Db, FollowResponse))
    ensures r.1 == SelfFollow <==> me == target
    ensures r.1 == Unfollowed <==> me != target && (me, target) in db.follows
    ensures r.1 == Followed <==> me != target && (me, target) !in db.follows && UserExists(db, me) && UserExists(db, target)
    ensures r.1 == Unfollowed ==> r.0 == db.(follows := db.follows - {(me, target)})
    ensures r.1 == Followed ==> r.0 == db.(follows := db.follows + {(me, target)})
    ensures r.1 == SelfFollow || r.1 == FollowFailed ==> r.0 == db
  {
    if me == target then (db, SelfFollow)
    else if (me, target) in db.follows then (db.(follows := db.follows - {(me, target)}), Unfollowed)
    else if !UserExists(db, me) || !UserExists(db, target) then (db, FollowFailed)
    else (db.(follows := db.follows + {(me, target)}), Followed)
  }

  /** Every edge joins two existing users (the foreign keys). */
  ghost predicate EdgesReferenceUsers(db: Db) {
    forall f :: f in db.follows ==> UserExists(db, f.0) && UserExists(db, f.1)
  }

  /** Toggling the same pair twice restores the follow set; no other edge is
      ever touched; following oneself changes nothing. */
  lemma ToggleFollowTwice(db: Db, me: UserId, target: UserId)
    requires EdgesReferenceUsers(db)
    ensures ToggleFollow(ToggleFollow(db, me, target).0, me, target).0 == db
    ensures forall f :: f != (me, target) ==> (f in ToggleFollow(db, me, target).0.follows <==> f in db.follows)
  {
    var once := ToggleFollow(db, me, target);
    if once.1 == Unfollowed {
      assert once.0.users == db.users;
      assert once.0.follows + {(me, target)} == db.follows;
    } else if once.1 == Followed {
      assert once.0.follows - {(me, target)} == db.follows;
    }
  }

  /** The toggle keeps every edge between existing, distinct users. */
  lemma ToggleFollowKeepsEdges(db: Db, me: UserId, target: UserId)
    requires EdgesReferenceUsers(db)
    requires forall f :: f in db.follows ==> f.0 != f.1
    ensures EdgesReferenceUsers(ToggleFollow(db, me, target).0)
    ensures forall f :: f in ToggleFollow(db, me, target).0.follows ==> f.0 != f.1
  {
  }

  /** What `GET /api/users/:id` shows: the user with profile, posts,
      followers and followees. */
  datatype UserPage = UserPage(
    user: User,
    profile: Option<Profile>,
    posts: seq<Post>,
    followers: set<UserId>,
    following: set<UserId>)

  /** `GET /api/users/:id`: 404 when no user has the id. The post list is
      every post of the user, deleted ones included. */
  function GetUser(db: Db, id: UserId): (r: Option<UserPage>)
    ensures r.None? <==> !UserExists(db, id)
    ensures r.Some? ==> r.value.user.id == id && r.value.user in db.users
    ensures r.Some? ==> r.value.profile == ProfileOf(db, id)
    ensures r.Some? ==> forall k :: 0 <= k < |r.value.posts| ==> r.value.posts[k].userId == id && r.value.posts[k] in db.posts
    ensures r.Some? ==> forall p :: p in db.posts && p.userId == id ==> p in r.value.posts
    ensures r.Some? ==> forall p :: multiset(r.value.posts)[p] == if p.userId == id then multiset(db.posts)[p] else 0
    ensures r.Some? ==> forall u :: u in r.value.followers <==> (u, id) in db.follows && UserExists(db, u)
    ensures r.Some? ==> forall u :: u in r.value.following <==> (id, u) in db.follows && UserExists(db, u)
  {
    match UserById(db, id)
    case None => None
    case Some(u) =>
      WhereCount(db.posts, (p: Post) => p.userId == id);
      Some(UserPage(
        u,
        ProfileOf(db, id),
        Where(db.posts, (p: Post) => p.userId == id),
        set f | f in db.follows && f.1 == id && UserExists(db, f.0) :: f.0,
        PostFeed.Followees(db, id)))
  }

  /** A new follow shows on both users' pages: the target among the
      follower's followees and the follower among the target's followers;
      an unfollow removes both. */
  lemma ToggleFollowThenGetUser(db: Db, me: UserId, target: UserId)
    requires EdgesReferenceUsers(db)
    ensures var (db', resp) := ToggleFollow(db, me, target);
      resp == Followed ==>
        && GetUser(db', me).Some? && target in GetUser(db', me).value.following
        && GetUser(db', target).Some? && me in GetUser(db', target).value.followers
    ensures var (db', resp) := ToggleFollow(db, me, target);
      resp == Unfollowed ==>
        && GetUser(db', me).Some? && target !in GetUser(db', me).value.following
        && GetUser(db', target).Some? && me !in GetUser(db', target).value.followers
  {
    var (db', resp) := ToggleFollow(db, me, target);
    assert db'.users == db.users;
  }
}

=== FILE: geocode_proxy.dfy ===
/** The geocoding proxy: forward and reverse lookups answered from an
    in-process cache with a one-hour lifetime, and a single timestamp shared
    by both lookups that keeps outbound requests at least one second apart.
    The clock is a parameter: `now` is the time a request arrives, `delay`
    the extra time a sleep overruns, `latency` the time the outbound call
    takes, and the outbound call's outcome is given. Requests are handled
    one after another. */
module GeocodeProxy {
  import opened Common

  /** `CACHE_TTL`: one hour in milliseconds. */
  const CacheTtl: int := 3600 * 1000
  /** The minimum spacing of outbound requests, in milliseconds. */
  const Spacing: int := 1000

  datatype Entry = Entry(data: string, timestamp: int)

  /** The module state: the cache and `lastRequestTime`. */
  datatype Proxy = Proxy(cache: map<string, Entry>, lastRequestTime: int)

  const Initial: Proxy := Proxy(map[], 0)

  /** What the upstream service does with the outbound call. */
  datatype Outcome = Success(data: string) | Failure

  /** The environment of one request: arrival time, sleep overrun, call
      latency and upstream outcome. */
  datatype Env = Env(now: int, delay: nat, latency: nat, outcome: Outcome)

  datatype Lookup = Search(q: Option<string>) | Reverse(lat: Option<string>, lon: Option<string>)

  datatype Reply = Answer(data: string) | Rejected | Failed

  function ReplyStatus(r: Reply): int {
    match r
    case Answer(_) => OK
    case Rejected => BadRequest
    case Failed => ServerError
  }

  /** The proxy's new state, its reply, and the time the outbound call was
      sent if one was. */
  datatype Step = Step(state: Proxy, reply: Reply, call: Option<int>)

  /** The cache key of a reverse lookup: `REV:<lat>,<lon>`. */
  function ReverseKey(lat: string, lon: string): string {
    "REV:" + lat + "," + lon
  }

  /** An entry is fresh while strictly less than `CACHE_TTL` old. */
  predicate Fresh(st: Proxy, key: string, now: int) {
    key in st.cache && now - st.cache[key].timestamp < CacheTtl
  }

  /** The throttle's wait: `1000 - elapsed` when less than a second has
      passed since the last outbound request, else none. */
  function Wait(last: int, now: int): (w: int)
    ensures w >= 0
    ensures now - last < Spacing ==> now + w == last + Spacing
    ensures now - last >= Spacing ==> w == 0
  {
    if now - last < Spacing then Spacing - (now - last) else 0
  }

  /** The shared lookup: a fresh entry answers at once; otherwise a stale
      entry is dropped, the throttle waits, `lastRequestTime` is set, and
      only a successful call fills the cache. */
  function Fetch(st: Proxy, key: string, env: Env): (r: Step)
    ensures Fresh(st, key, env.now) ==> r == Step(st, Answer(st.cache[key].data), None)
    ensures !Fresh(st, key, env.now) ==>
      && r.call == Some(env.now + Wait(st.lastRequestTime, env.now) + env.delay)
      && r.state.lastRequestTime == r.call.value
      && r.call.value >= st.lastRequestTime + Spacing
    ensures !Fresh(st, key, env.now) && env.outcome.Failure? ==>
      r.reply == Failed && r.state.cache == st.cache - {key}
    ensures !Fresh(st, key, env.now) && env.outcome.Success? ==>
      && r.reply == Answer(env.outcome.data)
      && r.state.cache == st.cache[key := Entry(env.outcome.data, r.call.value + env.latency)]
  {
    if Fresh(st, key, env.now) then Step(st, Answer(st.cache[key].data), None)
    else
      var cache := st.cache - {key};
      var sent := env.now + Wait(st.lastRequestTime, env.now) + env.delay;
      match env.outcome
      case Failure => Step(Proxy(cache, sent), Failed, Some(sent))
      case Success(d) => Step(Proxy(cache[key := Entry(d, sent + env.latency)], sent), Answer(d), Some(sent))
  }

  /** The cache key of a lookup, when its parameters are present. */
  function KeyOf(l: Lookup): Option<string> {
    match l
    case Search(q) => if Truthy(q) then Some(q.value) else None
    case Reverse(lat, lon) => if Truthy(lat) && Truthy(lon) then Some(ReverseKey(lat.value, lon.value)) else None
  }

  /** `GET /search` and `GET /reverse`: a missing or empty `q`, `lat` or
      `lon` is 400 with no outbound call and no change of state. */
  function Handle(st: Proxy, l: Lookup, env: Env): (r: Step)
    ensures KeyOf(l).None? ==> r == Step(st, Rejected, None)
    ensures KeyOf(l).Some? ==> r == Fetch(st, KeyOf(l).value, env)
  {
    match KeyOf(l)
    case None => Step(st, Rejected, None)
    case Some(key) => Fetch(st, key, env)
  }

  /** Only the looked-up key's entry can change. */
  lemma OtherKeysUnchanged(st: Proxy, l: Lookup, env: Env, other: string)
    requires KeyOf(l) != Some(other)
    ensures other in Handle(st, l, env).state.cache <==> other in st.cache
    ensures other in st.cache ==> Handle(st, l, env).state.cache[other] == st.cache[other]
  {
  }

  /** A lookup answered from the cache sends nothing and leaves the throttle
      alone. */
  lemma CacheHitIsQuiet(st: Proxy, l: Lookup, env: Env)
    requires KeyOf(l).Some? && Fresh(st, KeyOf(l).value, env.now)
    ensures Handle(st, l, env).call.None?
    ensures Handle(st, l, env).state == st
    ensures Handle(st, l, env).reply == Answer(st.cache[KeyOf(l).value].data)
  {
  }

  /** A failed call still takes its slot: `lastRequestTime` moves to the
      send time, and the stale entry it replaced is gone. */
  lemma FailedCallConsumesSlot(st: Proxy, l: Lookup, env: Env)
    requires KeyOf(l).Some? && !Fresh(st, KeyOf(l).value, env.now) && env.outcome.Failure?
    ensures Handle(st, l, env).call.Some?
    ensures Handle(st, l, env).state.lastRequestTime == Handle(st, l, env).call.value
    ensures KeyOf(l).value !in Handle(st, l, env).state.cache
    ensures ReplyStatus(Handle(st, l, env).reply) == ServerError
  {
  }

  /** Right after a successful call the same lookup is answered from the
      cache, as long as it comes within the hour. */
  lemma SuccessThenHit(st: Proxy, l: Lookup, env: Env, env2: Env)
    requires KeyOf(l).Some? && !Fresh(st, KeyOf(l).value, env.now) && env.outcome.Success?
    requires env2.now < Handle(st, l, env).call.value + env.latency + CacheTtl
    ensures Handle(Handle(st, l, env).state, l, env2) == Step(Handle(st, l, env).state, Answer(env.outcome.data), None)
  {
  }

  /** Forward and reverse lookups share one key space: a search for the
      text `REV:<lat>,<lon>` is answered with the cached reverse result. */
  lemma SearchReverseShareKeys(lat: string, lon: string)
    requires lat != "" && lon != ""
    ensures KeyOf(Search(Some(ReverseKey(lat, lon)))) == KeyOf(Reverse(Some(lat), Some(lon)))
  {
  }

  /** One request and the throttle: a call is sent at least a second after
      the previous one and becomes the new `lastRequestTime`; without a
      call the timestamp stays. */
  lemma HandleThrottle(st: Proxy, l: Lookup, env: Env)
    ensures var s := Handle(st, l, env);
      && (s.call.Some? ==> s.state.lastRequestTime == s.call.value >= st.lastRequestTime + Spacing)
      && (s.call.None? ==> s.state.lastRequestTime == st.lastRequestTime)
  {
  }

  /** A run of requests, one after another: the final state and the send
      times of the outbound calls, in order. */
  function Run(st: Proxy, reqs: seq<(Lookup, Env)>): (r: (Proxy, seq<int>))
    decreases |reqs|
  {
    if |reqs| == 0 then (st, [])
    else
      var s := Handle(st, reqs[0].0, reqs[0].1);
      var rest := Run(s.state, reqs[1..]);
      (rest.0, (if s.call.Some? then [s.call.value] else []) + rest.1)
  }

  /** Send times spaced by the throttle: each at least a second after
      `last`, and each at least a second after the one before it. */
  ghost predicate Spaced(calls: seq<int>, last: int) {
    && (forall i :: 0 <= i < |calls| ==> calls[i] >= last + Spacing)
    && (forall i :: 0 <= i < |calls| - 1 ==> calls[i] + Spacing <= calls[i + 1])
  }

  /** Throttle spacing over any run: the first outbound call is at least a
      second after the last one before the run, each later call at least a
      second after the one before it, whichever lookups they serve; and
      `lastRequestTime` ends at the last call. */
  lemma {:induction false} RunSpacing(st: Proxy, reqs: seq<(Lookup, Env)>)
    ensures Spaced(Run(st, reqs).1, st.lastRequestTime)
    ensures var calls := Run(st, reqs).1;
      && (|calls| > 0 ==> Run(st, reqs).0.lastRequestTime == calls[|calls| - 1])
      && (|calls| == 0 ==> Run(st, reqs).0.lastRequestTime == st.lastRequestTime)
    decreases |reqs|
  {
    if |reqs| > 0 {
      var s := RunHead(st, reqs);
      RunSpacing(s.state, reqs[1..]);
      var rest := Run(s.state, reqs[1..]);
      if s.call.Some? {
        SpacedCons(s.call.value, rest.1, st.lastRequestTime);
      } else {
        assert [] + rest.1 == rest.1;
      }
    }
  }

  /** The first step of a run: its state starts the rest of the run, its
      call (if any) comes first, and the throttle holds for it. */
  lemma RunHead(st: Proxy, reqs: seq<(Lookup, Env)>) returns (s: Step)
    requires |reqs| > 0
    ensures Run(st, reqs) == (Run(s.state, reqs[1..]).0, (if s.call.Some? then [s.call.value] else []) + Run(s.state, reqs[1..]).1)
    ensures s.call.Some? ==> s.state.lastRequestTime == s.call.value >= st.lastRequestTime + Spacing
    ensures s.call.None? ==> s.state.lastRequestTime == st.lastRequestTime
  {
    s := Handle(st, reqs[0].0, reqs[0].1);
    HandleThrottle(st, reqs[0].0, reqs[0].1);
  }

  /** A call at least a second after `last`, followed by calls spaced after
      it, gives a spaced sequence after `last`. */
  lemma SpacedCons(x: int, rest: seq<int>, last: int)
    requires x >= last + Spacing && Spaced(rest, x)
    ensures Spaced([x] + rest, last)
    ensures ([x] + rest)[|rest|] == (if |rest| == 0 then x else rest[|rest| - 1])
  {
    var calls := [x] + rest;
    forall i | 0 <= i < |calls| - 1 ensures calls[i] + Spacing <= calls[i + 1] {
      assert calls[i + 1] == rest[i];
      if i > 0 {
        assert calls[i] == rest[i - 1];
      }
    }
  }

  /** Any two outbound calls of a run are at least a second apart for each
      step between them. */
  lemma {:induction false} RunPairwiseSpacing(st: Proxy, reqs: seq<(Lookup, Env)>, i: int, j: int)
    requires 0 <= i < j < |Run(st, reqs).1|
    ensures Run(st, reqs).1[i] + Spacing * (j - i) <= Run(st, reqs).1[j]
    decreases j - i
  {
    RunSpacing(st, reqs);
    if j > i + 1 {
      RunPairwiseSpacing(st, reqs, i, j - 1);
    }
  }
}

=== FILE: home_feed.dfy ===
/** The home timeline: two tabs, each with its own list of posts, page
    number and "more to come" flag, filled page by page from the feed
    endpoint. A fetch is split into its start (the request it sends, or
    none while another is in flight) and its end (the response, or a
    failure). A post is represented by its id. */
module HomeFeed {
  import opened Common

  /** Posts the client asks for per page, and the page size below which it
      concludes there is nothing more. */
  const PageSize: int := 10

  datatype Tab = Recommend | Following

  /** One tab's state. */
  datatype Feed = Feed(posts: seq<PostId>, page: int, hasMore: bool)

  /** The page state: both tabs, the tab on show, and the in-flight flag. */
  datatype Home = Home(recommend: Feed, following: Feed, activeTab: Tab, loading: bool)

  /** The query string of `GET /api/posts`. */
  datatype FeedRequest = FeedRequest(page: int, limit: int, kind: string)

  const EmptyFeed: Feed := Feed([], 1, true)

  /** Both tabs empty, on page one, expecting posts; the first tab shown. */
  const Initial: Home := Home(EmptyFeed, EmptyFeed, Recommend, false)

  function FeedOf(h: Home, t: Tab): Feed {
    match t
    case Recommend => h.recommend
    case Following => h.following
  }

  function WithFeed(h: Home, t: Tab, f: Feed): (r: Home)
    ensures FeedOf(r, t) == f
    ensures forall u :: u != t ==> FeedOf(r, u) == FeedOf(h, u)
    ensures r.activeTab == h.activeTab && r.loading == h.loading
  {
    match t
    case Recommend => h.(recommend := f)
    case Following => h.(following := f)
  }

  /** The feed type the server is asked for on a tab. */
  function KindOf(t: Tab): (k: string)
    ensures k == "foryou" <==> t == Recommend
    ensures k == "following" <==> t == Following
  {
    assert "foryou"[2] != "following"[2];
    match t
    case Recommend => "foryou"
    case Following => "following"
  }

  /** The start of `fetchPosts(type, pageNum, append)`: nothing while a
      fetch is in flight; otherwise the flag is raised and page `pageNum`
      of the tab's feed type is requested, ten posts at a time. */
  function StartFetch(h: Home, t: Tab, pageNum: int): (r: (Home, Option<FeedRequest>))
    ensures h.loading ==> r == (h, None)
    ensures !h.loading ==> r.0 == h.(loading := true)
    ensures !h.loading ==> r.1 == Some(FeedRequest(pageNum, PageSize, KindOf(t)))
  {
    if h.loading then (h, None)
    else (h.(loading := true), Some(FeedRequest(pageNum, PageSize, KindOf(t))))
  }

  /** The end of the fetch. On a response the tab's posts are extended
      (`append`) or replaced by the new page, the page number becomes
      `pageNum`, and more is expected exactly when a full page came back;
      a failure leaves the posts as they were. Either way the flag drops. */
  function FinishFetch(h: Home, t: Tab, pageNum: int, append: bool, response: Option<seq<PostId>>): (r: Home)
    ensures !r.loading && r.activeTab == h.activeTab
    ensures forall u :: u != t ==> FeedOf(r, u) == FeedOf(h, u)
    ensures response.None? ==> r == h.(loading := false)
    ensures response.Some? && append ==> FeedOf(r, t).posts == FeedOf(h, t).posts + response.value
    ensures response.Some? && !append ==> FeedOf(r, t).posts == response.value
    ensures response.Some? ==> FeedOf(r, t).page == pageNum
    ensures response.Some? ==> (FeedOf(r, t).hasMore <==> |response.value| == PageSize)
  {
    match response
    case None => h.(loading := false)
    case Some(newPosts) =>
      var cur := FeedOf(h, t);
      var f := Feed(if append then cur.posts + newPosts else newPosts, pageNum, |newPosts| == PageSize);
      WithFeed(h, t, f).(loading := false)
  }

  /** The tab on show. */
  function Current(h: Home): Feed {
    FeedOf(h, h.activeTab)
  }

  /** The scroll handler near the bottom of the page: the next page of the
      tab on show, appended, only when nothing is in flight and more is
      expected. */
  function Scroll(h: Home): (r: (Home, Option<FeedRequest>))
    ensures r.1.Some? <==> !h.loading && Current(h).hasMore
    ensures r.1.Some? ==> r.1.value == FeedRequest(Current(h).page + 1, PageSize, KindOf(h.activeTab))
    ensures r.1.None? ==> r.0 == h
  {
    if !h.loading && Current(h).hasMore then StartFetch(h, h.activeTab, Current(h).page + 1)
    else (h, None)
  }

  /** The tab effect, run on mount and whenever the tab on show changes: an
      empty tab that still expects posts loads page one; a tab that has been
      filled keeps what it holds. */
  function ShowTab(h: Home, t: Tab): (r: (Home, Option<FeedRequest>))
    ensures r.0.activeTab == t
    ensures r.1.Some? <==> !h.loading && |FeedOf(h, t).posts| == 0 && FeedOf(h, t).hasMore
    ensures r.1.Some? ==> r.1.value == FeedRequest(1, PageSize, KindOf(t))
    ensures FeedOf(r.0, Recommend) == FeedOf(h, Recommend) && FeedOf(r.0, Following) == FeedOf(h, Following)
  {
    var h1 := h.(activeTab := t);
    if |FeedOf(h, t).posts| == 0 && FeedOf(h, t).hasMore then StartFetch(h1, t, 1)
    else (h1, None)
  }

  /** Mounting the page: the effect runs once for the first tab. */
  function Mount(): (r: (Home, Option<FeedRequest>))
    ensures r.0 == Initial.(loading := true)
    ensures r.1 == Some(FeedRequest(1, PageSize, "foryou"))
  {
    ShowTab(Initial, Recommend)
  }

  /** A click on a tab button, `setActiveTab(t)`. The effect depends on the
      tab alone, so a click on the tab already on show runs nothing, even
      when that tab is empty; a click on the other tab runs the effect. */
  function ClickTab(h: Home, t: Tab): (r: (Home, Option<FeedRequest>))
    ensures r.0.activeTab == t
    ensures t == h.activeTab ==> r == (h, None)
    ensures r.1.Some? <==> t != h.activeTab && !h.loading && |FeedOf(h, t).posts| == 0 && FeedOf(h, t).hasMore
    ensures r.1.Some? ==> r.1.value == FeedRequest(1, PageSize, KindOf(t))
    ensures FeedOf(r.0, Recommend) == FeedOf(h, Recommend) && FeedOf(r.0, Following) == FeedOf(h, Following)
  {
    if t == h.activeTab then (h, None) else ShowTab(h, t)
  }

  /** When the first load fails, the tab stays empty and still expects
      posts, yet clicking it again sends nothing; switching to the other tab
      and, once that fetch ends, back again retries. */
  lemma FailedFirstLoadNotRetriedByClick()
    ensures var h := FinishFetch(Mount().0, Recommend, 1, false, None);
      && |Current(h).posts| == 0 && Current(h).hasMore && !h.loading
      && ClickTab(h, Recommend) == (h, None)
      && var back := FinishFetch(ClickTab(h, Following).0, Following, 1, false, None);
         ClickTab(back, Recommend).1 == Some(FeedRequest(1, PageSize, "foryou"))
  {
  }

  /** `handlePostCreated`: page one of the tab on show is fetched again, to
      replace what it shows. */
  function Refresh(h: Home): (r: (Home, Option<FeedRequest>))
    ensures r.1.Some? <==> !h.loading
    ensures r.1.Some? ==> r.1.value == FeedRequest(1, PageSize, KindOf(h.activeTab))
  {
    StartFetch(h, h.activeTab, 1)
  }

  /** A fetch started while another is in flight changes nothing and sends
      nothing, whether it comes from scrolling, a refresh, the tab effect or
      a tab click. */
  lemma InFlightIgnored(h: Home, t: Tab)
    requires h.loading
    ensures Scroll(h) == (h, None) && Refresh(h) == (h, None)
    ensures ShowTab(h, t) == (h.(activeTab := t), None)
    ensures ClickTab(h, t).1.None?
  {
  }

  /** One scroll to the bottom and the response to it: the page arrives
      after the posts already shown. When nothing could be requested, the
      state stays as it was. */
  function LoadMore(h: Home, response: seq<PostId>): Home {
    var (h1, req) := Scroll(h);
    if req.None? then h
    else FinishFetch(h1, h.activeTab, Current(h).page + 1, true, Some(response))
  }

  /** Scrolling to the bottom once per page in `pages`. */
  function LoadAll(h: Home, pages: seq<seq<PostId>>): Home
    decreases |pages|
  {
    if |pages| == 0 then h
    else LoadAll(LoadMore(h, pages[0]), pages[1..])
  }

  /** The posts of several pages, in order. */
  function Flatten(pages: seq<seq<PostId>>): (r: seq<PostId>)
    decreases |pages|
  {
    if |pages| == 0 then [] else pages[0] + Flatten(pages[1..])
  }

  /** Infinite scroll over full pages: when every page but the last holds
      ten posts, scrolling shows the pages one after the other after the
      posts already there, the page number advances once per page, more is
      expected exactly when the last page was full, and the other tab is
      untouched. */
  lemma {:induction false} ScrollingConcatenates(h: Home, pages: seq<seq<PostId>>)
    requires !h.loading && Current(h).hasMore
    requires forall i :: 0 <= i < |pages| - 1 ==> |pages[i]| == PageSize
    ensures var r := LoadAll(h, pages);
      && Current(r).posts == Current(h).posts + Flatten(pages)
      && Current(r).page == Current(h).page + |pages|
      && (|pages| > 0 ==> (Current(r).hasMore <==> |pages[|pages| - 1]| == PageSize))
      && !r.loading && r.activeTab == h.activeTab
      && forall u :: u != h.activeTab ==> FeedOf(r, u) == FeedOf(h, u)
    decreases |pages|
  {
    if |pages| == 0 {
      assert Current(h).posts + Flatten(pages) == Current(h).posts;
    } else {
      var h1 := LoadMore(h, pages[0]);
      LoadMoreStep(h, pages[0]);
      assert LoadAll(h, pages) == LoadAll(h1, pages[1..]);
      assert Flatten(pages) == pages[0] + Flatten(pages[1..]);
      if |pages| > 1 {
        var tail := pages[1..];
        assert forall i :: 0 <= i < |tail| - 1 ==> |tail[i]| == PageSize by {
          forall i | 0 <= i < |tail| - 1 ensures |tail[i]| == PageSize {
            assert tail[i] == pages[i + 1];
          }
        }
        ScrollingConcatenates(h1, tail);
        assert tail[|tail| - 1] == pages[|pages| - 1];
        assert Current(h).posts + pages[0] + Flatten(tail) == Current(h).posts + Flatten(pages);
      } else {
        assert pages[1..] == [];
        assert LoadAll(h1, pages[1..]) == h1;
        assert Flatten(pages) == pages[0] + [];
        assert pages[0] + [] == pages[0];
      }
    }
  }

  /** One scroll and its response, when a request can go out: the page is
      appended to the tab on show, its number advances by one, and more is
      expected exactly when the page was full. */
  lemma LoadMoreStep(h: Home, response: seq<PostId>)
    requires !h.loading && Current(h).hasMore
    ensures var h1 := LoadMore(h, response);
      && Current(h1).posts == Current(h).posts + response
      && Current(h1).page == Current(h).page + 1
      && (Current(h1).hasMore <==> |response| == PageSize)
      && !h1.loading && h1.activeTab == h.activeTab
      && forall u :: u != h.activeTab ==> FeedOf(h1, u) == FeedOf(h, u)
  {
  }

  /** After a short page the tab stops asking: further scrolling sends
      nothing and leaves the state as it is. */
  lemma ShortPageStops(h: Home, response: seq<PostId>, more: seq<seq<PostId>>)
    requires !h.loading && Current(h).hasMore
    requires |response| < PageSize
    ensures var h1 := LoadMore(h, response);
      && !Current(h1).hasMore
      && Scroll(h1) == (h1, None)
      && LoadAll(h1, more) == h1
  {
    var h1 := LoadMore(h, response);
    StoppedStays(h1, more);
  }

  lemma {:induction false} StoppedStays(h: Home, more: seq<seq<PostId>>)
    requires !Current(h).hasMore
    ensures LoadAll(h, more) == h
    decreases |more|
  {
    if |more| > 0 {
      StoppedStays(h, more[1..]);
    }
  }

  /** A refresh that gets its response shows exactly that first page, and
      more is expected again when it is full. */
  lemma RefreshReplaces(h: Home, response: seq<PostId>)
    requires !h.loading
    ensures var r := FinishFetch(Refresh(h).0, h.activeTab, 1, false, Some(response));
      && Current(r) == Feed(response, 1, |response| == PageSize)
      && forall u :: u != h.activeTab ==> FeedOf(r, u) == FeedOf(h, u)
  {
  }
}

=== FILE: jstext.dfy ===
/** The JavaScript string built-ins the application leans on, written out
    over `seq<char>`: `trim`, `split`, `join`, `includes`, ASCII
    `toLowerCase`, number-to-string and `parseInt`. */
module JsText {
  import opened Common

  /** ECMAScript WhiteSpace and LineTerminator code points: what `trim` strips
      and what `parseInt` skips. */
  predicate IsSpace(c: char) {
    || c == '\t' || c == '\n' || c == '\U{000B}' || c == '\U{000C}' || c == '\r'
    || c == ' ' || c == '\U{00A0}' || c == '\U{1680}'
    || ('\U{2000}' <= c <= '\U{200A}')
    || c == '\U{2028}' || c == '\U{2029}' || c == '\U{202F}' || c == '\U{205F}'
    || c == '\U{3000}' || c == '\U{FEFF}'
  }

  /** A string with no white space at either end. */
  predicate IsTrimmed(s: string) {
    |s| > 0 ==> !IsSpace(s[0]) && !IsSpace(s[|s| - 1])
  }

  /** Number of leading white-space characters. */
  function LeadCount(s: string): (n: nat)
    ensures n <= |s|
    ensures forall i :: 0 <= i < n ==> IsSpace(s[i])
    ensures n < |s| ==> !IsSpace(s[n])
  {
    if |s| > 0 && IsSpace(s[0]) then 1 + LeadCount(s[1..]) else 0
  }

  /** Number of trailing white-space characters. */
  function TrailCount(s: string): (n: nat)
    ensures n <= |s|
    ensures forall i :: |s| - n <= i < |s| ==> IsSpace(s[i])
    ensures n < |s| ==> !IsSpace(s[|s| - 1 - n])
  {
    if |s| > 0 && IsSpace(s[|s| - 1]) then 1 + TrailCount(s[..|s| - 1]) else 0
  }

  /** `String.prototype.trim`: the infix left after stripping white space
      from both ends. */
  function Trim(s: string): (r: string)
    ensures IsTrimmed(r)
    ensures |r| <= |s|
    ensures LeadCount(s) + |r| <= |s| && r == s[LeadCount(s)..LeadCount(s) + |r|]
    ensures forall i :: LeadCount(s) + |r| <= i < |s| ==> IsSpace(s[i])
    ensures r == "" <==> forall i :: 0 <= i < |s| ==> IsSpace(s[i])
  {
    var a := LeadCount(s);
    var t := s[a..];
    var b := TrailCount(t);
    var r := t[..|t| - b];
    assert r == s[a..a + |r|];
    EmptyTrimAllSpace(s, a, r);
    r
  }

  /** When the infix left between `a` leading and some trailing spaces is
      empty, every character is a space. */
  lemma EmptyTrimAllSpace(s: string, a: nat, r: string)
    requires a <= |s| - |r| && r == s[a..a + |r|]
    requires forall i :: 0 <= i < a ==> IsSpace(s[i])
    requires forall i :: a + |r| <= i < |s| ==> IsSpace(s[i])
    ensures r == "" ==> forall i :: 0 <= i < |s| ==> IsSpace(s[i])
  {
  }

  /** Trimming a string that is already trimmed changes nothing. */
  lemma TrimOfTrimmed(s: string)
    requires IsTrimmed(s)
    ensures Trim(s) == s
  {
    assert LeadCount(s) == 0;
    assert TrailCount(s) == 0;
  }

  /** `s.split(sep)` for a one-character separator: the pieces between
      separators, always at least one (the empty string splits to `[""]`). */
  function Split(s: string, sep: char): (r: seq<string>)
    ensures |r| >= 1
    ensures forall k :: 0 <= k < |r| ==> sep !in r[k]
  {
    if |s| == 0 then [""]
    else
      var rest := Split(s[1..], sep);
      if s[0] == sep then [""] + rest
      else [[s[0]] + rest[0]] + rest[1..]
  }

  /** `parts.join(sep)`. */
  function Join(parts: seq<string>, sep: char): string {
    if |parts| == 0 then ""
    else if |parts| == 1 then parts[0]
    else parts[0] + [sep] + Join(parts[1..], sep)
  }

  /** Splitting and re-joining on the same separator gives back the string. */
  lemma {:induction false} JoinSplit(s: string, sep: char)
    ensures Join(Split(s, sep), sep) == s
  {
    if |s| > 0 {
      JoinSplit(s[1..], sep);
      var rest := Split(s[1..], sep);
      if s[0] == sep {
        assert Split(s, sep)[1..] == rest;
      } else {
        var r := Split(s, sep);
        assert r[1..] == rest[1..];
        if |rest| == 1 {
          assert s == [s[0]] + rest[0];
        } else {
          assert Join(rest, sep) == rest[0] + [sep] + Join(rest[1..], sep);
          assert s == [s[0]] + s[1..];
        }
      }
    }
  }

  /** Joining separator-free pieces and splitting again gives back the
      pieces: `Split` and `Join` are inverse on separator-free lists. */
  lemma {:induction false} SplitJoin(parts: seq<string>, sep: char)
    requires |parts| >= 1
    requires forall k :: 0 <= k < |parts| ==> sep !in parts[k]
    ensures Split(Join(parts, sep), sep) == parts
  {
    if |parts| == 1 {
      SplitNoSep(parts[0], sep);
    } else {
      SplitJoin(parts[1..], sep);
      SplitPrefix(parts[0], Join(parts[1..], sep), sep);
      assert parts == [parts[0]] + parts[1..];
    }
  }

  /** A string without the separator splits to itself. */
  lemma {:induction false} SplitNoSep(s: string, sep: char)
    requires sep !in s
    ensures Split(s, sep) == [s]
  {
    if |s| > 0 {
      assert sep !in s[1..] by {
        forall k | 0 <= k < |s[1..]| ensures s[1..][k] != sep {
          assert s[1..][k] == s[k + 1];
        }
      }
      SplitNoSep(s[1..], sep);
      assert s == [s[0]] + s[1..];
    }
  }

  /** Splitting `w + [sep] + t` for a separator-free `w` puts `w` in front of
      the pieces of `t`. */
  lemma {:induction false} SplitPrefix(w: string, t: string, sep: char)
    requires sep !in w
    ensures Split(w + [sep] + t, sep) == [w] + Split(t, sep)
  {
    if |w| == 0 {
      assert w + [sep] + t == [sep] + t;
      assert ([sep] + t)[1..] == t;
    } else {
      assert sep !in w[1..] by {
        forall k | 0 <= k < |w[1..]| ensures w[1..][k] != sep {
          assert w[1..][k] == w[k + 1];
        }
      }
      SplitPrefix(w[1..], t, sep);
      var s := w + [sep] + t;
      assert s[0] == w[0];
      assert s[1..] == w[1..] + [sep] + t;
      assert [w[0]] + w[1..] == w;
    }
  }

  /** The non-blank trimmed pieces of a list: `.map(s => s.trim()).filter(s => s.length > 0)`. */
  function TrimNonEmpty(pieces: seq<string>): (r: seq<string>)
    ensures |r| <= |pieces|
    ensures forall k :: 0 <= k < |r| ==> r[k] != "" && IsTrimmed(r[k])
  {
    if |pieces| == 0 then []
    else
      var t := Trim(pieces[0]);
      if |t| > 0 then [t] + TrimNonEmpty(pieces[1..]) else TrimNonEmpty(pieces[1..])
  }

  /** `.map(s => s.trim())`. */
  function Trims(pieces: seq<string>): (r: seq<string>)
    ensures |r| == |pieces| && forall i :: 0 <= i < |r| ==> r[i] == Trim(pieces[i])
  {
    seq(|pieces|, i requires 0 <= i < |pieces| => Trim(pieces[i]))
  }

  /** `.filter(s => s.length > 0)`. */
  function NonEmptyOf(ts: seq<string>): seq<string> {
    if |ts| == 0 then []
    else if ts[0] != "" then [ts[0]] + NonEmptyOf(ts[1..])
    else NonEmptyOf(ts[1..])
  }

  /** The number of non-empty strings in a list. */
  function CountNonEmpty(ts: seq<string>): nat {
    if |ts| == 0 then 0
    else (if ts[0] != "" then 1 else 0) + CountNonEmpty(ts[1..])
  }

  /** `TrimNonEmpty` is the map followed by the filter. */
  lemma {:induction false} TrimNonEmptyIsMapFilter(pieces: seq<string>)
    ensures TrimNonEmpty(pieces) == NonEmptyOf(Trims(pieces))
  {
    if |pieces| > 0 {
      TrimNonEmptyIsMapFilter(pieces[1..]);
      assert Trims(pieces)[1..] == Trims(pieces[1..]);
    }
  }

  /** The filter keeps each non-empty string, in order: the one at `j`
      lands right after those kept before it. */
  lemma {:induction false} NonEmptyOfItems(ts: seq<string>)
    ensures |NonEmptyOf(ts)| == CountNonEmpty(ts)
    ensures forall j :: 0 <= j < |ts| && ts[j] != "" ==>
      CountNonEmpty(ts[..j]) < |NonEmptyOf(ts)| && NonEmptyOf(ts)[CountNonEmpty(ts[..j])] == ts[j]
  {
    if |ts| > 0 {
      var rest := ts[1..];
      NonEmptyOfItems(rest);
      forall j | 0 <= j < |ts| && ts[j] != ""
        ensures CountNonEmpty(ts[..j]) < |NonEmptyOf(ts)| && NonEmptyOf(ts)[CountNonEmpty(ts[..j])] == ts[j]
      {
        if j == 0 {
          assert ts[..0] == [];
        } else {
          assert ts[..j][0] == ts[0];
          assert ts[..j][1..] == rest[..j - 1];
          assert ts[j] == rest[j - 1];
        }
      }
    }
  }

  /** `TrimNonEmpty` in terms of its input: one item per piece whose trim is
      not blank, and the item of such a piece `j` is its trim, standing right
      after the items of the pieces before it. */
  lemma TrimNonEmptyItems(pieces: seq<string>)
    ensures |TrimNonEmpty(pieces)| == CountNonEmpty(Trims(pieces))
    ensures forall j :: 0 <= j < |pieces| && Trim(pieces[j]) != "" ==>
      CountNonEmpty(Trims(pieces)[..j]) < |TrimNonEmpty(pieces)|
      && TrimNonEmpty(pieces)[CountNonEmpty(Trims(pieces)[..j])] == Trim(pieces[j])
  {
    TrimNonEmptyIsMapFilter(pieces);
    NonEmptyOfItems(Trims(pieces));
  }

  /** Every piece of `TrimNonEmpty` is a trimmed piece of its input, so a
      character that no input piece holds appears in no output piece. */
  lemma {:induction false} TrimNonEmptyAvoids(pieces: seq<string>, c: char)
    requires forall k :: 0 <= k < |pieces| ==> c !in pieces[k]
    ensures forall k :: 0 <= k < |TrimNonEmpty(pieces)| ==> c !in TrimNonEmpty(pieces)[k]
  {
    if |pieces| > 0 {
      TrimNonEmptyAvoids(pieces[1..], c);
      var t := Trim(pieces[0]);
      assert c !in t by {
        var a := LeadCount(pieces[0]);
        forall j | 0 <= j < |t| ensures t[j] != c {
          assert t[j] == pieces[0][a + j];
        }
      }
    }
  }

  /** A string that is a clean list item: non-empty, trimmed, comma-free. */
  predicate IsCleanItem(s: string) {
    s != "" && IsTrimmed(s) && ',' !in s
  }

  /** `s.split(',').map(s => s.trim()).filter(...)`: a comma-separated string
      read as a list of non-blank, trimmed items. */
  function CommaList(s: string): (r: seq<string>)
    ensures forall k :: 0 <= k < |r| ==> IsCleanItem(r[k])
  {
    var pieces := Split(s, ',');
    TrimNonEmptyAvoids(pieces, ',');
    TrimNonEmpty(pieces)
  }

  /** `TrimNonEmpty` keeps a list of clean items as it is. */
  lemma {:induction false} TrimNonEmptyOfClean(items: seq<string>)
    requires forall k :: 0 <= k < |items| ==> IsCleanItem(items[k])
    ensures TrimNonEmpty(items) == items
  {
    if |items| > 0 {
      TrimOfTrimmed(items[0]);
      TrimNonEmptyOfClean(items[1..]);
      assert items == [items[0]] + items[1..];
    }
  }

  /** Writing a list of clean items as a comma-separated string and reading
      it back gives the same list. */
  lemma CommaListOfJoin(items: seq<string>)
    requires forall k :: 0 <= k < |items| ==> IsCleanItem(items[k])
    ensures CommaList(Join(items, ',')) == items
  {
    if |items| == 0 {
      assert Split("", ',') == [""];
      assert Trim("") == "";
    } else {
      SplitJoin(items, ',');
      TrimNonEmptyOfClean(items);
    }
  }

  /** A string made of comma-free pieces joined by commas reads as the
      trimmed, non-blank pieces in order. */
  lemma CommaListOfPieces(pieces: seq<string>)
    requires forall k :: 0 <= k < |pieces| ==> ',' !in pieces[k]
    ensures CommaList(Join(pieces, ',')) == TrimNonEmpty(pieces)
  {
    if |pieces| == 0 {
      assert Split("", ',') == [""];
      assert Trim("") == "";
    } else {
      SplitJoin(pieces, ',');
    }
  }

  /** Every way of writing `s` as comma-free pieces joined by commas gives
      the list `CommaList(s)` reads. */
  lemma CommaListOfAnyJoin(s: string)
    ensures forall pieces :: (forall k :: 0 <= k < |pieces| ==> ',' !in pieces[k]) && Join(pieces, ',') == s ==>
      CommaList(s) == TrimNonEmpty(pieces)
  {
    forall pieces | (forall k :: 0 <= k < |pieces| ==> ',' !in pieces[k]) && Join(pieces, ',') == s
      ensures CommaList(s) == TrimNonEmpty(pieces)
    {
      CommaListOfPieces(pieces);
    }
  }

  /** Reading a comma-separated string, writing the list back out and reading
      it again gives the list of the first reading. */
  lemma CommaListIdempotent(s: string)
    ensures CommaList(Join(CommaList(s), ',')) == CommaList(s)
  {
    CommaListOfJoin(CommaList(s));
  }

  /** `needle` occurs in `hay` starting at offset `i`. */
  ghost predicate OccursAt(hay: string, needle: string, i: int) {
    0 <= i && i + |needle| <= |hay| && hay[i..i + |needle|] == needle
  }

  /** `hay.includes(needle)`: `needle` occurs somewhere in `hay`. */
  predicate Contains(hay: string, needle: string)
    decreases |hay|
  {
    (|needle| <= |hay| && hay[..|needle|] == needle)
    || (|hay| > 0 && Contains(hay[1..], needle))
  }

  /** `Contains` holds exactly when the needle occurs at some offset. */
  lemma ContainsIff(hay: string, needle: string)
    ensures Contains(hay, needle) <==> exists i :: OccursAt(hay, needle, i)
  {
    if Contains(hay, needle) {
      var i := ContainsWitness(hay, needle);
    }
    if exists i :: OccursAt(hay, needle, i) {
      var i :| OccursAt(hay, needle, i);
      OccursContains(hay, needle, i);
    }
  }

  /** An offset at which a contained needle occurs. */
  lemma {:induction false} ContainsWitness(hay: string, needle: string) returns (i: int)
    requires Contains(hay, needle)
    ensures OccursAt(hay, needle, i)
    decreases |hay|
  {
    if |needle| <= |hay| && hay[..|needle|] == needle {
      i := 0;
    } else {
      var j := ContainsWitness(hay[1..], needle);
      assert hay[1..][j..j + |needle|] == hay[j + 1..j + 1 + |needle|];
      i := j + 1;
    }
  }

  /** A needle occurring at some offset is contained. */
  lemma {:induction false} OccursContains(hay: string, needle: string, i: int)
    requires OccursAt(hay, needle, i)
    ensures Contains(hay, needle)
    decreases |hay|
  {
    if i == 0 {
      assert hay[..|needle|] == hay[0..0 + |needle|];
    } else {
      assert hay[1..][i - 1..i - 1 + |needle|] == hay[i..i + |needle|];
      OccursContains(hay[1..], needle, i - 1);
    }
  }

  /** `toLowerCase` on the ASCII letters; other characters are kept. */
  function LowerAscii(s: string): (r: string)
    ensures |r| == |s|
    ensures forall i :: 0 <= i < |s| ==> r[i] == (if 'A' <= s[i] <= 'Z' then (s[i] as int + 32) as char else s[i])
  {
    seq(|s|, i requires 0 <= i < |s| => if 'A' <= s[i] <= 'Z' then (s[i] as int + 32) as char else s[i])
  }

  /** The decimal digit character for `d`. */
  function DigitChar(d: nat): char
    requires d < 10
  {
    ('0' as int + d) as char
  }

  predicate IsDigit(c: char) {
    '0' <= c <= '9'
  }

  /** Decimal spelling of a natural number, without leading zeros. */
  function NatToString(n: nat): (r: string)
    ensures |r| >= 1
    ensures forall i :: 0 <= i < |r| ==> IsDigit(r[i])
    ensures r[0] == '0' ==> n == 0 && r == "0"
  {
    if n < 10 then [DigitChar(n)] else NatToString(n / 10) + [DigitChar(n % 10)]
  }

  /** `String(n)` for an integer. */
  function IntToString(n: int): string {
    if n < 0 then "-" + NatToString(-n) else NatToString(n)
  }

  /** Value of a digit character in base `radix` (10 or 16), if it is one. */
  function DigitValue(c: char, radix: nat): Option<nat> {
    if '0' <= c <= '9' && (c as int - '0' as int) < radix then Some(c as int - '0' as int)
    else if radix == 16 && 'a' <= c <= 'f' then Some(c as int - 'a' as int + 10)
    else if radix == 16 && 'A' <= c <= 'F' then Some(c as int - 'A' as int + 10)
    else None
  }

  /** Length of the longest prefix of `s` made of base-`radix` digits. */
  function DigitRun(s: string, radix: nat): (n: nat)
    ensures n <= |s|
  {
    if |s| > 0 && DigitValue(s[0], radix).Some? then 1 + DigitRun(s[1..], radix) else 0
  }

  /** Value of a string of base-`radix` digits, read most significant first. */
  function DigitsValue(s: string, radix: nat): nat {
    if |s| == 0 then 0
    else
      var d := DigitValue(s[|s| - 1], radix);
      DigitsValue(s[..|s| - 1], radix) * radix + (if d.Some? then d.value else 0)
  }

  /** `parseInt(s)` with no radix argument: leading white space is skipped, an
      optional sign is read, a `0x`/`0X` prefix selects base 16, and the
      longest run of digits is read; `None` is NaN (no digits at all). */
  function ParseInt(s: string): Option<int> {
    var t := s[LeadCount(s)..];
    var sign := if |t| > 0 && t[0] == '-' then -1 else 1;
    var u := if |t| > 0 && (t[0] == '-' || t[0] == '+') then t[1..] else t;
    var hex := |u| >= 2 && u[0] == '0' && (u[1] == 'x' || u[1] == 'X');
    var radix := if hex then 16 else 10;
    var body := if hex then u[2..] else u;
    var n := DigitRun(body, radix);
    if n == 0 then None else Some(sign * DigitsValue(body[..n], radix))
  }

  /** `parseInt(s) || 0`: NaN (and minus zero) become 0. */
  function ParseIntOrZero(s: string): int {
    ParseInt(s).GetOr(0)
  }

  /** A string of decimal digits is one digit run as long as itself. */
  lemma {:induction false} DigitRunOfDigits(s: string)
    requires forall i :: 0 <= i < |s| ==> IsDigit(s[i])
    ensures DigitRun(s, 10) == |s|
  {
    if |s| > 0 {
      DigitRunOfDigits(s[1..]);
    }
  }

  /** Reading back the decimal spelling of `n` gives `n`. */
  lemma {:induction false} DigitsValueOfNatToString(n: nat)
    ensures DigitsValue(NatToString(n), 10) == n
  {
    if n >= 10 {
      DigitsValueOfNatToString(n / 10);
      var s := NatToString(n);
      assert s[..|s| - 1] == NatToString(n / 10);
      assert s[|s| - 1] == DigitChar(n % 10);
    }
  }

  /** `parseInt(String(n)) || 0 == n`: the number a budget field shows is the
      number it is read back as. */
  lemma ParseIntOfIntToString(n: int)
    ensures ParseIntOrZero(IntToString(n)) == n
  {
    var m: nat := if n < 0 then -n else n;
    var digits := NatToString(m);
    DigitRunOfDigits(digits);
    DigitsValueOfNatToString(m);
    if n < 0 {
      ParseNegative(digits, m);
    } else {
      ParseUnsigned(digits, m);
    }
  }

  /** A run of decimal digits starting without `0x` reads as its value. */
  lemma ParseUnsigned(digits: string, m: nat)
    requires |digits| > 0 && DigitRun(digits, 10) == |digits|
    requires digits[0] == '0' ==> |digits| == 1
    requires DigitsValue(digits, 10) == m
    ensures ParseInt(digits) == Some(m)
  {
    assert digits[0] != ' ' && digits[0] != '-' && digits[0] != '+' by {
      assert DigitValue(digits[0], 10).Some?;
    }
    assert LeadCount(digits) == 0;
    assert digits[0..] == digits;
    assert digits[..|digits|] == digits;
  }

  /** A minus sign before such a run reads as the negated value. */
  lemma ParseNegative(digits: string, m: nat)
    requires |digits| > 0 && DigitRun(digits, 10) == |digits|
    requires digits[0] == '0' ==> |digits| == 1
    requires DigitsValue(digits, 10) == m
    ensures ParseInt("-" + digits) == Some(-(m as int))
  {
    var s := "-" + digits;
    assert s[0] == '-' && s[1..] == digits;
    assert LeadCount(s) == 0;
    assert s[LeadCount(s)..] == s;
    assert !(|digits| >= 2 && digits[0] == '0');
    assert digits[..|digits|] == digits;
  }
}

=== FILE: mimics.dfy ===
/** Saving posts to try later ("mimics"): one record per (user, post),
    with an optional note. */
module Mimics {
  import opened Common
  import opened Sorting
  import opened Schema

  datatype MimicResponse = MimicSaved(record: Mimic) | AlreadySaved | MimicRemoved | MimicNotFound | MimicFailed

  function MimicStatus(r: MimicResponse): int {
    match r
    case MimicSaved(_) => OK
    case MimicRemoved => OK
    case AlreadySaved => BadRequest
    case MimicNotFound => NotFound
    case MimicFailed => ServerError
  }

  /** The user has a record for the post. */
  predicate HasMimic(mimics: seq<Mimic>, user: UserId, post: PostId) {
    exists k :: 0 <= k < |mimics| && mimics[k].userId == user && mimics[k].postId == post
  }

  /** No (user, post) pair has two records. */
  ghost predicate NoDuplicatePairs(mimics: seq<Mimic>) {
    forall i, j :: 0 <= i < j < |mimics| ==>
      mimics[i].userId != mimics[j].userId || mimics[i].postId != mimics[j].postId
  }

  /** `POST /api/posts/:id/mimic`: 400 when the pair already has a record;
      otherwise one record carrying the note is added (the foreign keys
      refuse a missing post or user). */
  function SaveMimic(db: Db, user: UserId, post: PostId, note: Option<string>, now: int): (r: (Db, MimicResponse))
    ensures r.1 == AlreadySaved <==> HasMimic(db.mimics, user, post)
    ensures r.1.MimicSaved? <==> !HasMimic(db.mimics, user, post) && PostExists(db, post) && UserExists(db, user)
    ensures r.1.MimicSaved? ==> r.1.record == Mimic(user, post, note, now) && r.0 == db.(mimics := db.mimics + [r.1.record])
    ensures !r.1.MimicSaved? ==> r.0 == db
  {
    if HasMimic(db.mimics, user, post) then (db, AlreadySaved)
    else if !PostExists(db, post) || !UserExists(db, user) then (db, MimicFailed)
    else
      var m := Mimic(user, post, note, now);
      (db.(mimics := db.mimics + [m]), MimicSaved(m))
  }

  /** The table without the first record of the pair. */
  function RemoveFirst(mimics: seq<Mimic>, user: UserId, post: PostId): (r: seq<Mimic>)
    ensures HasMimic(mimics, user, post) ==> |r| == |mimics| - 1
    ensures !HasMimic(mimics, user, post) ==> r == mimics
    ensures multiset(r) <= multiset(mimics)
  {
    if |mimics| == 0 then []
    else
      assert mimics == [mimics[0]] + mimics[1..];
      if mimics[0].userId == user && mimics[0].postId == post then
        assert HasMimic(mimics, user, post);
        mimics[1..]
      else
        HasMimicTail(mimics, user, post);
        [mimics[0]] + RemoveFirst(mimics[1..], user, post)
  }

  /** Past a head that is not of the pair, the pair is held by the tail or
      not at all. */
  lemma HasMimicTail(mimics: seq<Mimic>, user: UserId, post: PostId)
    requires |mimics| > 0 && !(mimics[0].userId == user && mimics[0].postId == post)
    ensures HasMimic(mimics, user, post) <==> HasMimic(mimics[1..], user, post)
  {
    if HasMimic(mimics, user, post) {
      var k :| 0 <= k < |mimics| && mimics[k].userId == user && mimics[k].postId == post;
      assert mimics[1..][k - 1] == mimics[k];
    }
    if HasMimic(mimics[1..], user, post) {
      var k :| 0 <= k < |mimics[1..]| && mimics[1..][k].userId == user && mimics[1..][k].postId == post;
      assert mimics[k + 1] == mimics[1..][k];
    }
  }

  /** `DELETE /api/posts/:id/mimic`: 404 when the pair has no record,
      otherwise that record is destroyed. */
  function DeleteMimic(db: Db, user: UserId, post: PostId): (r: (Db, MimicResponse))
    ensures r.1 == MimicNotFound <==> !HasMimic(db.mimics, user, post)
    ensures r.1 == MimicNotFound ==> r.0 == db
    ensures r.1 == MimicRemoved ==> r.0 == db.(mimics := RemoveFirst(db.mimics, user, post))
    ensures r.1 == MimicRemoved || r.1 == MimicNotFound
  {
    if !HasMimic(db.mimics, user, post) then (db, MimicNotFound)
    else (db.(mimics := RemoveFirst(db.mimics, user, post)), MimicRemoved)
  }

  /** Removing the first record of a pair that only the last record holds
      gives back the records before it. */
  lemma {:induction false} RemoveAppended(mimics: seq<Mimic>, m: Mimic)
    requires !HasMimic(mimics, m.userId, m.postId)
    ensures RemoveFirst(mimics + [m], m.userId, m.postId) == mimics
  {
    if |mimics| > 0 {
      assert (mimics + [m])[1..] == mimics[1..] + [m];
      assert !HasMimic(mimics[1..], m.userId, m.postId) by {
        forall k | 0 <= k < |mimics[1..]| ensures !(mimics[1..][k].userId == m.userId && mimics[1..][k].postId == m.postId) {
          assert mimics[1..][k] == mimics[k + 1];
        }
      }
      RemoveAppended(mimics[1..], m);
      assert mimics == [mimics[0]] + mimics[1..];
    }
  }

  /** Saving and then removing the same pair restores the table. */
  lemma SaveThenDelete(db: Db, user: UserId, post: PostId, note: Option<string>, now: int)
    requires SaveMimic(db, user, post, note, now).1.MimicSaved?
    ensures DeleteMimic(SaveMimic(db, user, post, note, now).0, user, post).0 == db
  {
    var m := Mimic(user, post, note, now);
    RemoveAppended(db.mimics, m);
    assert HasMimic(db.mimics + [m], user, post) by {
      assert (db.mimics + [m])[|db.mimics|] == m;
    }
  }

  /** Removing a record keeps pairs unique. */
  lemma {:induction false} RemoveKeepsUnique(mimics: seq<Mimic>, user: UserId, post: PostId)
    requires NoDuplicatePairs(mimics)
    ensures NoDuplicatePairs(RemoveFirst(mimics, user, post))
  {
    if |mimics| > 0 && !(mimics[0].userId == user && mimics[0].postId == post) {
      var tail := mimics[1..];
      TailUnique(mimics);
      RemoveKeepsUnique(tail, user, post);
      ConsUnique(mimics[0], RemoveFirst(tail, user, post), tail);
    }
  }

  /** Dropping the first record keeps pairs unique, and no later record has
      the first record's pair. */
  lemma TailUnique(mimics: seq<Mimic>)
    requires |mimics| > 0 && NoDuplicatePairs(mimics)
    ensures NoDuplicatePairs(mimics[1..])
    ensures forall m :: m in mimics[1..] ==> m.userId != mimics[0].userId || m.postId != mimics[0].postId
  {
    var tail := mimics[1..];
    forall i, j | 0 <= i < j < |tail| ensures tail[i].userId != tail[j].userId || tail[i].postId != tail[j].postId {
      assert tail[i] == mimics[i + 1] && tail[j] == mimics[j + 1];
    }
    forall m | m in tail ensures m.userId != mimics[0].userId || m.postId != mimics[0].postId {
      var k :| 0 <= k < |tail| && tail[k] == m;
      assert mimics[k + 1] == m;
    }
  }

  /** A record whose pair is not among `tail`, in front of unique records
      drawn from `tail`, gives unique records. */
  lemma ConsUnique(x: Mimic, rest: seq<Mimic>, tail: seq<Mimic>)
    requires NoDuplicatePairs(rest) && multiset(rest) <= multiset(tail)
    requires forall m :: m in tail ==> m.userId != x.userId || m.postId != x.postId
    ensures NoDuplicatePairs([x] + rest)
  {
    var r := [x] + rest;
    forall i, j | 0 <= i < j < |r| ensures r[i].userId != r[j].userId || r[i].postId != r[j].postId {
      assert r[j] == rest[j - 1];
      if i == 0 {
        assert r[j] in multiset(rest);
        assert r[j] in tail;
      } else {
        assert r[i] == rest[i - 1];
      }
    }
  }


  /** Saving and removing keep every (user, post) pair to at most one
      record. */
  lemma MimicOpsKeepUnique(db: Db, user: UserId, post: PostId, note: Option<string>, now: int)
    requires NoDuplicatePairs(db.mimics)
    ensures NoDuplicatePairs(SaveMimic(db, user, post, note, now).0.mimics)
    ensures NoDuplicatePairs(DeleteMimic(db, user, post).0.mimics)
  {
    RemoveKeepsUnique(db.mimics, user, post);
    var r := SaveMimic(db, user, post, note, now);
    if r.1.MimicSaved? {
      var s := r.0.mimics;
      forall i, j | 0 <= i < j < |s| ensures s[i].userId != s[j].userId || s[i].postId != s[j].postId {
        assert s[i] == db.mimics[i];
        if j < |db.mimics| {
          assert s[j] == db.mimics[j];
        }
      }
    }
  }

  function MimicCreated(m: Mimic): int {
    m.createdAt
  }

  /** `GET /api/users/me/mimics`: the requester's records, newest first. */
  function MyMimics(db: Db, me: UserId): (r: seq<Mimic>)
    ensures SortedDesc(r, MimicCreated)
    ensures forall k :: 0 <= k < |r| ==> r[k].userId == me && r[k] in db.mimics
    ensures forall i :: 0 <= i < |db.mimics| && db.mimics[i].userId == me ==> db.mimics[i] in r
    ensures forall x :: multiset(r)[x] == if x.userId == me then multiset(db.mimics)[x] else 0
  {
    var w := Where(db.mimics, (m: Mimic) => m.userId == me);
    WhereCount(db.mimics, (m: Mimic) => m.userId == me);
    var r := SortDesc(w, MimicCreated);
    forall k | 0 <= k < |r| ensures r[k] in w {
      SameElements(r, w, r[k]);
    }
    forall i | 0 <= i < |db.mimics| && db.mimics[i].userId == me ensures db.mimics[i] in r {
      SameElements(r, w, db.mimics[i]);
    }
    r
  }

  /** A saved record shows up once more in its owner's list, and nobody
      else's list changes. */
  lemma SaveThenListed(db: Db, user: UserId, post: PostId, note: Option<string>, now: int, other: UserId)
    requires SaveMimic(db, user, post, note, now).1.MimicSaved?
    ensures var r := SaveMimic(db, user, post, note, now);
      multiset(MyMimics(r.0, user)) == multiset(MyMimics(db, user)) + multiset{r.1.record}
    ensures other != user ==> MyMimics(SaveMimic(db, user, post, note, now).0, other) == MyMimics(db, other)
  {
    var r := SaveMimic(db, user, post, note, now);
    var mine := (m: Mimic) => m.userId == user;
    WhereAppend(db.mimics, [r.1.record], mine);
    assert Where(r.0.mimics, mine) == Where(db.mimics, mine) + [r.1.record];
    if other != user {
      assert Where(r.0.mimics, (m: Mimic) => m.userId == other) == Where(db.mimics, (m: Mimic) => m.userId == other) by {
        WhereAppend(db.mimics, [r.1.record], (m: Mimic) => m.userId == other);
      }
    }
  }
}

=== FILE: post_create.dfy ===
/** Creating a post: one request expands into the post row and its child rows
    (images, route points, trip data, tag links), all written in one
    transaction that either commits as a whole or leaves the store as it
    was. */
module PostCreate {
  import opened Common
  import opened JsText
  import opened Sorting
  import opened Schema

  /** A JSON value as the request body can carry it. Numbers are integers;
      an object is opaque. */
  datatype JsValue =
    | JsUndefined
    | JsNull
    | JsBool(b: bool)
    | JsNumber(n: int)
    | JsString(s: string)
    | JsArray(items: seq<JsValue>)
    | JsObject

  /** `String(v)`. An array prints its elements joined by commas, with null
      and undefined elements printed as the empty string. */
  function ToJsString(v: JsValue): string
    decreases v
  {
    match v
    case JsUndefined => "undefined"
    case JsNull => "null"
    case JsBool(b) => if b then "true" else "false"
    case JsNumber(n) => IntToString(n)
    case JsString(s) => s
    case JsArray(xs) =>
      Join(seq(|xs|, i requires 0 <= i < |xs| =>
             if xs[i].JsNull? || xs[i].JsUndefined? then "" else ToJsString(xs[i])), ',')
    case JsObject => "[object Object]"
  }

  /** `toSafeArray(val)`: always a list of strings. Null and undefined give
      the empty list, an array its elements as strings, a string its
      comma-separated non-blank items trimmed, anything else the one-element
      list of its string form. */
  function ToSafeArray(v: JsValue): (r: seq<string>)
    ensures (v.JsNull? || v.JsUndefined?) ==> r == []
    ensures v.JsArray? ==> |r| == |v.items| && forall i :: 0 <= i < |r| ==> r[i] == ToJsString(v.items[i])
    ensures v.JsString? ==> forall k :: 0 <= k < |r| ==> IsCleanItem(r[k])
    ensures v.JsString? ==> forall pieces :: (forall k :: 0 <= k < |pieces| ==> ',' !in pieces[k]) && Join(pieces, ',') == v.s ==>
      r == TrimNonEmpty(pieces)
    ensures v.JsString? && IsCleanItem(v.s) ==> r == [v.s]
    ensures (v.JsBool? || v.JsNumber? || v.JsObject?) ==> r == [ToJsString(v)]
  {
    match v
    case JsNull => []
    case JsUndefined => []
    case JsArray(xs) => seq(|xs|, i requires 0 <= i < |xs| => ToJsString(xs[i]))
    case JsString(s) =>
      CommaListOfCleanItem(s);
      CommaListOfAnyJoin(s);
      CommaList(s)
    case _ => [ToJsString(v)]
  }

  /** A single clean item is read as the one-element list. */
  lemma CommaListOfCleanItem(s: string)
    ensures IsCleanItem(s) ==> CommaList(s) == [s]
  {
    if IsCleanItem(s) {
      CommaListOfJoin([s]);
    }
  }

  /** The stored list as a JSON array of strings. */
  function StringsToJs(items: seq<string>): (r: JsValue)
    ensures r.JsArray? && |r.items| == |items|
    ensures forall i :: 0 <= i < |items| ==> r.items[i] == JsString(items[i])
  {
    JsArray(seq(|items|, i requires 0 <= i < |items| => JsString(items[i])))
  }

  /** Normalising is idempotent: sending back the stored list (a JSON array
      of strings) stores the same list again. */
  lemma ToSafeArrayIdempotent(v: JsValue)
    ensures ToSafeArray(StringsToJs(ToSafeArray(v))) == ToSafeArray(v)
  {
  }

  /** A list of strings sent as an array is read back as that list. */
  lemma ToSafeArrayOfStrings(items: seq<string>)
    ensures ToSafeArray(StringsToJs(items)) == items
  {
  }

  /** A comma-joined list of clean items is read back as those items. */
  lemma ToSafeArrayOfJoin(items: seq<string>)
    requires forall k :: 0 <= k < |items| ==> IsCleanItem(items[k])
    ensures ToSafeArray(JsString(Join(items, ','))) == items
  {
    CommaListOfJoin(items);
  }

  /** One entry of the request's `images` list. */
  datatype ImageInput = ImageInput(url: Option<string>, description: Option<string>, sortOrder: Option<int>)

  /** One entry of the request's `routePoints` list; the longitude may come
      as `lng` or as `lon`. */
  datatype PointInput = PointInput(
    lat: Option<int>,
    lng: Option<int>,
    lon: Option<int>,
    name: Option<string>,
    description: Option<string>,
    transportToNext: Field<string>)

  /** A body field that may be left out, sent as null, or sent with a value.
      Sequelize fills in a column's default only when the field is left out
      (its value is `undefined`); an explicit null is stored as null. */
  datatype Field<T> = Omitted | NullField | Given(value: T)

  /** The default of the `transport_to_next` column. */
  const DefaultTransport: string := "walk"

  /** The `transportToNext` value a route-point row is written with. */
  function StoredTransport(t: Field<string>): Option<string> {
    match t
    case Omitted => Some(DefaultTransport)
    case NullField => None
    case Given(m) => Some(m)
  }

  datatype TripInput = TripInput(
    totalBudget: Option<int>,
    budgetFood: Option<int>,
    budgetAccommodation: Option<int>,
    budgetTransport: Option<int>,
    accommodationNames: JsValue,
    transportMethods: JsValue)

  /** The body of a create request. A list field that is absent or not an
      array is the empty list, which the handler skips the same way. */
  datatype CreateRequest = CreateRequest(
    content: Option<string>,
    startLocation: Option<string>,
    endLocation: Option<string>,
    transportMode: Option<string>,
    routeSummary: Option<string>,
    latitude: Option<int>,
    longitude: Option<int>,
    locationName: Option<string>,
    images: seq<ImageInput>,
    routePoints: seq<PointInput>,
    tripData: Option<TripInput>,
    tags: seq<string>)

  /** The statements of the transaction. A statement in the fault set is
      one the database rejects for reasons outside the model (a lost
      connection, a lock timeout, a value out of a column's range). */
  datatype Step = PostRow | ImageRow(index: nat) | PointRows | TripRow | TagRow(index: nat)

  /** The statements a request issues. */
  function Steps(req: CreateRequest): set<Step> {
    {PostRow}
    + (set i | 0 <= i < |req.images| :: ImageRow(i))
    + (if |req.routePoints| > 0 then {PointRows} else {})
    + (if req.tripData.Some? then {TripRow} else {})
    + (set i | 0 <= i < |req.tags| :: TagRow(i))
  }

  /** `point.lng || point.lon`. */
  function PointLon(p: PointInput): (r: Option<int>)
    ensures TruthyNum(p.lng) ==> r == p.lng
    ensures !TruthyNum(p.lng) ==> r == p.lon
  {
    if TruthyNum(p.lng) then p.lng else p.lon
  }

  /** Every image carries the non-null `imageUrl`. */
  predicate ImagesStorable(imgs: seq<ImageInput>) {
    forall i :: 0 <= i < |imgs| ==> imgs[i].url.Some?
  }

  /** Every route point carries the non-null `lat` and `lon`. */
  predicate PointsStorable(pts: seq<PointInput>) {
    forall i :: 0 <= i < |pts| ==> pts[i].lat.Some? && PointLon(pts[i]).Some?
  }

  /** The conditions the schema puts on a request: non-null content, an
      author row for the foreign key, and the non-null columns of every
      child row. */
  predicate Storable(db: Db, author: UserId, req: CreateRequest) {
    && req.content.Some?
    && UserExists(db, author)
    && ImagesStorable(req.images)
    && (|req.routePoints| > 0 ==> PointsStorable(req.routePoints))
  }

  function NewPost(author: UserId, id: PostId, req: CreateRequest, now: int): Post
    requires req.content.Some?
  {
    Post(id, author, req.content.value, req.locationName, req.startLocation, req.endLocation,
         req.transportMode, req.routeSummary, req.latitude, req.longitude, None, false, now)
  }

  /** `img.sortOrder || 0`. */
  function SortOrderOf(img: ImageInput): int {
    if TruthyNum(img.sortOrder) then img.sortOrder.value else 0
  }

  /** One image row per input image, in input order. */
  function ImageRows(id: PostId, imgs: seq<ImageInput>): (r: seq<PostImage>)
    requires ImagesStorable(imgs)
    ensures |r| == |imgs|
    ensures forall i :: 0 <= i < |r| ==>
      && r[i].postId == id
      && Some(r[i].imageUrl) == imgs[i].url
      && r[i].description == imgs[i].description
      && (TruthyNum(imgs[i].sortOrder) ==> r[i].sortOrder == imgs[i].sortOrder.value)
      && (!TruthyNum(imgs[i].sortOrder) ==> r[i].sortOrder == 0)
  {
    seq(|imgs|, i requires 0 <= i < |imgs| =>
      PostImage(id, imgs[i].url.value, SortOrderOf(imgs[i]), imgs[i].description))
  }

  /** One route-point row per input point, numbered by position. */
  function PointRowsOf(id: PostId, pts: seq<PointInput>): (r: seq<RoutePoint>)
    requires PointsStorable(pts)
    ensures |r| == |pts|
    ensures forall i :: 0 <= i < |r| ==>
      && r[i].postId == id
      && r[i].orderIndex == i
      && Some(r[i].lat) == pts[i].lat
      && (TruthyNum(pts[i].lng) ==> r[i].lon == pts[i].lng.value)
      && (!TruthyNum(pts[i].lng) ==> Some(r[i].lon) == pts[i].lon)
      && r[i].locationName == pts[i].name
      && r[i].description == pts[i].description
      && (pts[i].transportToNext.Omitted? ==> r[i].transportToNext == Some("walk"))
      && (pts[i].transportToNext.NullField? ==> r[i].transportToNext.None?)
      && (pts[i].transportToNext.Given? ==> r[i].transportToNext == Some(pts[i].transportToNext.value))
  {
    seq(|pts|, i requires 0 <= i < |pts| =>
      RoutePoint(id, i, pts[i].lat.value, PointLon(pts[i]).value, pts[i].name,
                 pts[i].description, StoredTransport(pts[i].transportToNext)))
  }

  function TripRowOf(id: PostId, t: TripInput): TripData {
    TripData(id, t.totalBudget, t.budgetFood, t.budgetAccommodation, t.budgetTransport,
             ToSafeArray(t.accommodationNames), ToSafeArray(t.transportMethods))
  }

  /** `Tag.findOrCreate({ where: { name } })`: the first tag of that name,
      or a new row appended for it. An existing tag is never duplicated. */
  function FindOrCreateTag(db: Db, name: string): (r: (Db, TagId))
    ensures r.0 == db.(tags := r.0.tags)
    ensures TagByName(db, name).Some? ==> r.0 == db && r.1 == TagByName(db, name).value.id
    ensures TagByName(db, name).None? ==> r.0.tags == db.tags + [Tag(r.1, name)]
    ensures TagByName(r.0, name) == Some(Tag(r.1, name))
    ensures TagNamesUnique(db) ==> TagNamesUnique(r.0)
    ensures TagIdsUnique(db) ==> TagIdsUnique(r.0)
  {
    match TagByName(db, name)
    case Some(t) => (db, t.id)
    case None =>
      var t := Tag(NextTagId(db), name);
      var db1 := db.(tags := db.tags + [t]);
      FindFirstAppend(db.tags, [t], (x: Tag) => x.name == name);
      (db1, t.id)
  }

  /** The tag named `name` is linked to post `postId`. */
  predicate Linked(db: Db, postId: PostId, name: string) {
    TagByName(db, name).Some? && (postId, TagByName(db, name).value.id) in db.postTags
  }

  /** A link stays in place when tags are only appended and links only
      added. */
  lemma LinkedStable(db: Db, db': Db, postId: PostId, name: string)
    requires |db.tags| <= |db'.tags| && db'.tags[..|db.tags|] == db.tags
    requires db.postTags <= db'.postTags
    requires Linked(db, postId, name)
    ensures Linked(db', postId, name)
  {
    var p := (x: Tag) => x.name == name;
    assert db'.tags == db.tags + db'.tags[|db.tags|..];
    FindFirstAppend(db.tags, db'.tags[|db.tags|..], p);
  }

  /** The tag loop: find or create each named tag and link it to the post
      (`post.addTag` adds a link once; an existing link stays as it is). Only
      the tag and link tables change, and the tag table only grows at its
      end. */
  function AttachTags(db: Db, postId: PostId, names: seq<string>): (r: Db)
    ensures r == db.(tags := r.tags, postTags := r.postTags)
    ensures |db.tags| <= |r.tags| && r.tags[..|db.tags|] == db.tags
    ensures db.postTags <= r.postTags
    decreases |names|
  {
    if |names| == 0 then db
    else
      var db2 := LinkOne(db, postId, names[0]);
      var r := AttachTags(db2, postId, names[1..]);
      assert r.tags[..|db.tags|] == r.tags[..|db2.tags|][..|db.tags|];
      r
  }

  /** One round of the tag loop. */
  function LinkOne(db: Db, postId: PostId, name: string): (r: Db)
    ensures r == db.(tags := r.tags, postTags := r.postTags)
    ensures |db.tags| <= |r.tags| <= |db.tags| + 1 && r.tags[..|db.tags|] == db.tags
    ensures |r.tags| > |db.tags| ==> r.tags[|db.tags|].name == name
    ensures Linked(r, postId, name)
    ensures r.postTags == db.postTags + {(postId, TagByName(r, name).value.id)}
    ensures TagNamesUnique(db) ==> TagNamesUnique(r)
    ensures TagIdsUnique(db) ==> TagIdsUnique(r)
  {
    var found := FindOrCreateTag(db, name);
    found.0.(postTags := found.0.postTags + {(postId, found.1)})
  }

  /** After the tag loop every requested name is a tag linked to the post. */
  lemma {:induction false} AttachTagsLinks(db: Db, postId: PostId, names: seq<string>)
    ensures forall k :: 0 <= k < |names| ==> Linked(AttachTags(db, postId, names), postId, names[k])
    decreases |names|
  {
    if |names| > 0 {
      var db2 := LinkOne(db, postId, names[0]);
      var r := AttachTags(db2, postId, names[1..]);
      AttachTagsLinks(db2, postId, names[1..]);
      forall k | 0 <= k < |names| ensures Linked(r, postId, names[k]) {
        if k == 0 {
          LinkedStable(db2, r, postId, names[0]);
        } else {
          assert names[k] == names[1..][k - 1];
        }
      }
    }
  }

  /** The tag loop only adds links of this post. */
  lemma {:induction false} AttachTagsFrame(db: Db, postId: PostId, names: seq<string>)
    ensures forall pt :: pt in AttachTags(db, postId, names).postTags && pt !in db.postTags ==> pt.0 == postId
    decreases |names|
  {
    if |names| > 0 {
      AttachTagsFrame(LinkOne(db, postId, names[0]), postId, names[1..]);
    }
  }

  /** The tag loop only creates tags for requested names. */
  lemma {:induction false} AttachTagsNewTags(db: Db, postId: PostId, names: seq<string>)
    ensures forall k :: |db.tags| <= k < |AttachTags(db, postId, names).tags| ==>
      AttachTags(db, postId, names).tags[k].name in names
    decreases |names|
  {
    if |names| > 0 {
      var db2 := LinkOne(db, postId, names[0]);
      AttachTagsNewTags(db2, postId, names[1..]);
      NewTagsNamed(db.tags, db2.tags, AttachTags(db2, postId, names[1..]).tags, names);
    }
  }

  /** Tags appended in two rounds, the first adding at most one tag named
      `names[0]` and the second only tags named in `names[1..]`, all carry
      names from `names`. */
  lemma NewTagsNamed(before: seq<Tag>, mid: seq<Tag>, after: seq<Tag>, names: seq<string>)
    requires |names| > 0
    requires |before| <= |mid| <= |before| + 1 && |mid| <= |after| && after[..|mid|] == mid
    requires |mid| > |before| ==> mid[|before|].name == names[0]
    requires forall k :: |mid| <= k < |after| ==> after[k].name in names[1..]
    ensures forall k :: |before| <= k < |after| ==> after[k].name in names
  {
    forall k | |before| <= k < |after| ensures after[k].name in names {
      if k < |mid| {
        assert after[k] == after[..|mid|][k];
      } else {
        assert after[k].name in names[1..];
      }
    }
  }

  /** The tag loop keeps tag names and tag ids unique: an existing tag is
      reused, never duplicated. */
  lemma {:induction false} AttachTagsUnique(db: Db, postId: PostId, names: seq<string>)
    requires TagNamesUnique(db) && TagIdsUnique(db)
    ensures TagNamesUnique(AttachTags(db, postId, names))
    ensures TagIdsUnique(AttachTags(db, postId, names))
    decreases |names|
  {
    if |names| > 0 {
      AttachTagsUnique(LinkOne(db, postId, names[0]), postId, names[1..]);
    }
  }

  /** The stages of the transaction, each failing (`None`) when its
      statement is rejected. */
  function InsertPost(db: Db, author: UserId, id: PostId, req: CreateRequest, now: int, faults: set<Step>): Option<Db> {
    if PostRow in faults || req.content.None? || !UserExists(db, author) then None
    else Some(db.(posts := db.posts + [NewPost(author, id, req, now)]))
  }

  function InsertImages(db: Db, id: PostId, imgs: seq<ImageInput>, faults: set<Step>): Option<Db> {
    if exists i :: 0 <= i < |imgs| && (ImageRow(i) in faults || imgs[i].url.None?) then None
    else Some(db.(images := db.images + ImageRows(id, imgs)))
  }

  function InsertPoints(db: Db, id: PostId, pts: seq<PointInput>, faults: set<Step>): Option<Db> {
    if |pts| == 0 then Some(db)
    else if PointRows in faults || !PointsStorable(pts) then None
    else Some(db.(routePoints := db.routePoints + PointRowsOf(id, pts)))
  }

  function InsertTrip(db: Db, id: PostId, trip: Option<TripInput>, faults: set<Step>): Option<Db> {
    match trip
    case None => Some(db)
    case Some(t) => if TripRow in faults then None else Some(db.(tripData := db.tripData + [TripRowOf(id, t)]))
  }

  function InsertTags(db: Db, id: PostId, names: seq<string>, faults: set<Step>): Option<Db> {
    if exists i :: 0 <= i < |names| && TagRow(i) in faults then None
    else Some(AttachTags(db, id, names))
  }

  /** The whole transaction: the committed store, or `None` after a
      rollback. */
  function Transaction(db: Db, author: UserId, id: PostId, req: CreateRequest, now: int, faults: set<Step>): Option<Db> {
    var d1 :- InsertPost(db, author, id, req, now, faults);
    var d2 :- InsertImages(d1, id, req.images, faults);
    var d3 :- InsertPoints(d2, id, req.routePoints, faults);
    var d4 :- InsertTrip(d3, id, req.tripData, faults);
    InsertTags(d4, id, req.tags, faults)
  }

  /** The post as the handler reads it back: author, images ordered by
      `sortOrder`, route points, trip data and tags. */
  datatype PostView = PostView(
    post: Post,
    author: Option<User>,
    images: seq<PostImage>,
    routePoints: seq<RoutePoint>,
    tripData: Option<TripData>,
    tags: seq<Tag>)

  /** The filter selecting the images of one post. */
  function ImageOfPost(id: PostId): PostImage -> bool {
    (img: PostImage) => img.postId == id
  }

  /** The `sortOrder` column, the key the images are ordered by. */
  function ImageSortKey(img: PostImage): int {
    img.sortOrder
  }

  function ReadPost(db: Db, id: PostId): Option<PostView> {
    var p :- PostById(db, id);
    Some(PostView(
      p,
      UserById(db, p.userId),
      SortAsc(Where(db.images, ImageOfPost(id)), ImageSortKey),
      Where(db.routePoints, (rp: RoutePoint) => rp.postId == id),
      FindFirst(db.tripData, (t: TripData) => t.postId == id),
      Where(db.tags, (t: Tag) => (id, t.id) in db.postTags)))
  }

  datatype CreateResponse = Created(body: Option<PostView>) | CreateFailed

  function CreateStatus(r: CreateResponse): int {
    if r.Created? then OK else ServerError
  }

  /** `POST /api/posts` by the signed-in user `author` at time `now`. The
      new post takes the next free id. */
  function CreatePost(db: Db, author: UserId, req: CreateRequest, now: int, faults: set<Step>): (r: (Db, CreateResponse))
    ensures r.1.Created? <==> Storable(db, author, req) && Steps(req) !! faults
    ensures r.1.CreateFailed? ==> r.0 == db
  {
    var id := NextPostId(db);
    StagesSucceed(db, author, id, req, now, faults);
    match Transaction(db, author, id, req, now, faults)
    case None => (db, CreateFailed)
    case Some(db') => (db', Created(ReadPost(db', id)))
  }

  /** The transaction commits exactly when the request is storable and none
      of its statements is rejected. */
  lemma StagesSucceed(db: Db, author: UserId, id: PostId, req: CreateRequest, now: int, faults: set<Step>)
    ensures Transaction(db, author, id, req, now, faults).Some? <==> Storable(db, author, req) && Steps(req) !! faults
  {
    StepsClear(req, faults);
  }

  /** None of a request's statements is rejected exactly when each of them,
      one by one, is not. */
  lemma StepsClear(req: CreateRequest, faults: set<Step>)
    ensures Steps(req) !! faults <==>
      && PostRow !in faults
      && (forall i :: 0 <= i < |req.images| ==> ImageRow(i) !in faults)
      && (|req.routePoints| > 0 ==> PointRows !in faults)
      && (req.tripData.Some? ==> TripRow !in faults)
      && (forall i :: 0 <= i < |req.tags| ==> TagRow(i) !in faults)
  {
    if Steps(req) !! faults {
      forall i | 0 <= i < |req.images| ensures ImageRow(i) !in faults {
        assert ImageRow(i) in Steps(req);
      }
      forall i | 0 <= i < |req.tags| ensures TagRow(i) !in faults {
        assert TagRow(i) in Steps(req);
      }
    }
  }

  /** The store after the row stages, before the tag loop. */
  function WithRows(db: Db, author: UserId, id: PostId, req: CreateRequest, now: int): Db
    requires Storable(db, author, req)
  {
    db.(
      posts := db.posts + [NewPost(author, id, req, now)],
      images := db.images + ImageRows(id, req.images),
      routePoints := db.routePoints + (if |req.routePoints| > 0 then PointRowsOf(id, req.routePoints) else []),
      tripData := db.tripData + (if req.tripData.Some? then [TripRowOf(id, req.tripData.value)] else []))
  }

  /** The committed store, written out table by table: the post and one
      child row per input element appended in input order, the tags linked;
      users, profiles, comments, likes, follows and mimics untouched. */
  function Committed(db: Db, author: UserId, id: PostId, req: CreateRequest, now: int): (r: Db)
    requires Storable(db, author, req)
    ensures r.posts == db.posts + [NewPost(author, id, req, now)]
    ensures r.images == db.images + ImageRows(id, req.images)
    ensures |req.routePoints| > 0 ==> r.routePoints == db.routePoints + PointRowsOf(id, req.routePoints)
    ensures |req.routePoints| == 0 ==> r.routePoints == db.routePoints
    ensures req.tripData.Some? ==> r.tripData == db.tripData + [TripRowOf(id, req.tripData.value)]
    ensures req.tripData.None? ==> r.tripData == db.tripData
    ensures r.users == db.users && r.profiles == db.profiles && r.comments == db.comments
    ensures r.likes == db.likes && r.follows == db.follows && r.mimics == db.mimics
  {
    assert db.routePoints + [] == db.routePoints && db.tripData + [] == db.tripData;
    AttachTags(WithRows(db, author, id, req, now), id, req.tags)
  }

  /** A transaction that commits writes exactly the committed store. */
  lemma TransactionCommits(db: Db, author: UserId, id: PostId, req: CreateRequest, now: int, faults: set<Step>)
    requires Transaction(db, author, id, req, now, faults).Some?
    ensures Storable(db, author, req)
    ensures Transaction(db, author, id, req, now, faults) == Some(Committed(db, author, id, req, now))
  {
    StagesSucceed(db, author, id, req, now, faults);
    var d1 := InsertPost(db, author, id, req, now, faults).value;
    var d2 := InsertImages(d1, id, req.images, faults).value;
    var d3 := InsertPoints(d2, id, req.routePoints, faults).value;
    var d4 := InsertTrip(d3, id, req.tripData, faults).value;
    assert d4 == WithRows(db, author, id, req, now);
  }

  /** A successful create stores the committed store and links every
      requested tag to the new post. */
  lemma CreateAppends(db: Db, author: UserId, req: CreateRequest, now: int, faults: set<Step>)
    requires CreatePost(db, author, req, now, faults).1.Created?
    ensures Storable(db, author, req)
    ensures CreatePost(db, author, req, now, faults).0 == Committed(db, author, NextPostId(db), req, now)
    ensures forall k :: 0 <= k < |req.tags| ==>
      Linked(CreatePost(db, author, req, now, faults).0, NextPostId(db), req.tags[k])
  {
    var id := NextPostId(db);
    TransactionCommits(db, author, id, req, now, faults);
    AttachTagsLinks(WithRows(db, author, id, req, now), id, req.tags);
  }

  /** Post creation keeps the store well formed: post ids and tag ids stay
      unique, tag names stay unique, and every child row and tag link names
      an existing post. */
  lemma CreatePreservesWellFormed(db: Db, author: UserId, req: CreateRequest, now: int, faults: set<Step>)
    requires WellFormed(db)
    ensures WellFormed(CreatePost(db, author, req, now, faults).0)
  {
    if CreatePost(db, author, req, now, faults).1.Created? {
      var id := NextPostId(db);
      CreateAppends(db, author, req, now, faults);
      var w := WithRows(db, author, id, req, now);
      AttachTagsUnique(w, id, req.tags);
      CommittedPostIds(db, author, req, now);
      CommittedChildren(db, author, req, now);
    }
  }

  /** The new post's id differs from every existing one. */
  lemma CommittedPostIds(db: Db, author: UserId, req: CreateRequest, now: int)
    requires Storable(db, author, req) && PostIdsUnique(db)
    ensures PostIdsUnique(Committed(db, author, NextPostId(db), req, now))
  {
    var r := Committed(db, author, NextPostId(db), req, now);
    forall i, j | 0 <= i < j < |r.posts| ensures r.posts[i].id != r.posts[j].id {
      assert r.posts[i] == db.posts[i];
      if j < |db.posts| {
        assert r.posts[j] == db.posts[j];
      }
    }
  }

  /** Every post of the old store is still there, and so is the new one. */
  lemma CommittedPostsExist(db: Db, author: UserId, req: CreateRequest, now: int, x: PostId)
    requires Storable(db, author, req)
    requires PostExists(db, x) || x == NextPostId(db)
    ensures PostExists(Committed(db, author, NextPostId(db), req, now), x)
  {
    var r := Committed(db, author, NextPostId(db), req, now);
    if x == NextPostId(db) {
      assert r.posts[|db.posts|].id == x;
    } else {
      var i :| 0 <= i < |db.posts| && db.posts[i].id == x;
      assert r.posts[i] == db.posts[i];
    }
  }

  /** The new child rows and links name the new post, the old ones old
      posts. */
  lemma CommittedChildren(db: Db, author: UserId, req: CreateRequest, now: int)
    requires Storable(db, author, req) && ChildrenReferencePosts(db)
    ensures ChildrenReferencePosts(Committed(db, author, NextPostId(db), req, now))
  {
    var id := NextPostId(db);
    var r := Committed(db, author, id, req, now);
    AttachTagsFrame(WithRows(db, author, id, req, now), id, req.tags);
    forall k | 0 <= k < |r.images| ensures PostExists(r, r.images[k].postId) {
      if k >= |db.images| {
        assert r.images[k] == ImageRows(id, req.images)[k - |db.images|];
      }
      CommittedPostsExist(db, author, req, now, r.images[k].postId);
    }
    forall k | 0 <= k < |r.routePoints| ensures PostExists(r, r.routePoints[k].postId) {
      if k >= |db.routePoints| {
        assert r.routePoints[k] == PointRowsOf(id, req.routePoints)[k - |db.routePoints|];
      }
      CommittedPostsExist(db, author, req, now, r.routePoints[k].postId);
    }
    forall k | 0 <= k < |r.tripData| ensures PostExists(r, r.tripData[k].postId) {
      CommittedPostsExist(db, author, req, now, r.tripData[k].postId);
    }
    forall pt | pt in r.postTags ensures PostExists(r, pt.0) {
      CommittedPostsExist(db, author, req, now, pt.0);
    }
  }

  /** The response of a successful create is the new post read back: the
      stored post, its author, and its images in ascending `sortOrder` (a
      reordering of exactly the rows just written). */
  lemma CreatedView(db: Db, author: UserId, req: CreateRequest, now: int, faults: set<Step>)
    requires WellFormed(db)
    requires CreatePost(db, author, req, now, faults).1.Created?
    ensures Storable(db, author, req)
    ensures var body := CreatePost(db, author, req, now, faults).1.body;
      && body.Some?
      && body.value.post == NewPost(author, NextPostId(db), req, now)
      && body.value.author.Some? && body.value.author.value.id == author
      && body.value.images == SortAsc(ImageRows(NextPostId(db), req.images), ImageSortKey)
  {
    CreateAppends(db, author, req, now, faults);
    CommittedPostById(db, author, req, now);
    CommittedImagesOfPost(db, author, req, now);
  }

  /** The new post is the one its id finds, and its author is found. */
  lemma CommittedPostById(db: Db, author: UserId, req: CreateRequest, now: int)
    requires Storable(db, author, req)
    ensures var r := Committed(db, author, NextPostId(db), req, now);
      && PostById(r, NextPostId(db)) == Some(NewPost(author, NextPostId(db), req, now))
      && UserById(r, author).Some? && UserById(r, author).value.id == author
  {
    var id := NextPostId(db);
    var r := Committed(db, author, id, req, now);
    var np := NewPost(author, id, req, now);
    var isNew := (p: Post) => p.id == id;
    FindFirstAppend(db.posts, [np], isNew);
    assert FindFirst(db.posts, isNew).None?;
    assert [np][0] == np;
    var i :| 0 <= i < |db.users| && db.users[i].id == author;
    assert !(forall k :: 0 <= k < |r.users| ==> !((u: User) => u.id == author)(r.users[k]));
  }

  /** The images of the new post are exactly the rows just written: no older
      image names the fresh id. */
  lemma CommittedImagesOfPost(db: Db, author: UserId, req: CreateRequest, now: int)
    requires Storable(db, author, req) && WellFormed(db)
    ensures var id := NextPostId(db);
      Where(Committed(db, author, id, req, now).images, ImageOfPost(id)) == ImageRows(id, req.images)
  {
    var id := NextPostId(db);
    forall k | 0 <= k < |db.images| ensures !ImageOfPost(id)(db.images[k]) {
      var i :| 0 <= i < |db.posts| && db.posts[i].id == db.images[k].postId;
    }
    WhereNone(db.images, ImageOfPost(id));
    WhereAll(ImageRows(id, req.images), ImageOfPost(id));
    WhereAppend(db.images, ImageRows(id, req.images), ImageOfPost(id));
  }

  /** The client numbers its images 0, 1, 2, ... in the order the user
      arranged them; the created post shows them in exactly that order. */
  lemma ClientImageOrderKept(db: Db, author: UserId, req: CreateRequest, now: int, faults: set<Step>)
    requires WellFormed(db)
    requires CreatePost(db, author, req, now, faults).1.Created?
    requires forall i :: 0 <= i < |req.images| ==> req.images[i].sortOrder == Some(i)
    ensures Storable(db, author, req)
    ensures CreatePost(db, author, req, now, faults).1.body.Some?
    ensures CreatePost(db, author, req, now, faults).1.body.value.images == ImageRows(NextPostId(db), req.images)
  {
    CreatedView(db, author, req, now, faults);
    NumberedRowsSorted(NextPostId(db), req.images);
  }

  /** Rows numbered 0, 1, 2, ... are already in `sortOrder` order. */
  lemma NumberedRowsSorted(id: PostId, imgs: seq<ImageInput>)
    requires ImagesStorable(imgs)
    requires forall i :: 0 <= i < |imgs| ==> imgs[i].sortOrder == Some(i)
    ensures SortAsc(ImageRows(id, imgs), ImageSortKey) == ImageRows(id, imgs)
  {
    var rows := ImageRows(id, imgs);
    forall i | 0 <= i < |rows| ensures ImageSortKey(rows[i]) == i {
    }
    SortAscOfSorted(rows, ImageSortKey);
  }
}

=== FILE: post_feed.dfy ===
/** Reading and small writes on posts: the timeline with its filters and
    pagination, the detail view, the like toggle, comments, and the
    owner-only soft delete. */
module PostFeed {
  import opened Common
  import opened JsText
  import opened Sorting
  import opened Schema
  import PostCreate

  /** The query string of the timeline. `page` and `limit` arrive as
      integers or not at all. */
  datatype FeedQuery = FeedQuery(
    search: Option<string>,
    ageGroup: Option<string>,
    tag: Option<string>,
    kind: Option<string>,
    page: Option<int>,
    limit: Option<int>)

  datatype FeedResponse = FeedPosts(posts: seq<Post>) | FeedError(status: int)

  /** The ids the user follows (`user.Following`), joined with the users
      table. */
  function Followees(db: Db, me: UserId): set<UserId> {
    set f | f in db.follows && f.0 == me && UserExists(db, f.1) :: f.1
  }

  /** `content LIKE %s% OR locationName LIKE %s%`. */
  predicate SearchMatches(p: Post, s: string) {
    Contains(p.content, s) || (p.locationName.Some? && Contains(p.locationName.value, s))
  }

  /** The post is linked to a tag named `name`. */
  predicate HasTag(db: Db, postId: PostId, name: string) {
    exists k :: 0 <= k < |db.tags| && db.tags[k].name == name && (postId, db.tags[k].id) in db.postTags
  }

  /** The author exists and has a profile whose age group is spelled `g`. */
  predicate AuthorInAgeGroup(db: Db, p: Post, g: string) {
    && UserExists(db, p.userId)
    && ParseAgeGroup(g).Some?
    && exists k :: 0 <= k < |db.profiles| && db.profiles[k].userId == p.userId && db.profiles[k].ageGroup == ParseAgeGroup(g)
  }

  /** The filters of a query, apart from the page it asks for. */
  datatype Filter = Filter(search: Option<string>, ageGroup: Option<string>, tag: Option<string>)

  function FilterOf(q: FeedQuery): Filter {
    Filter(q.search, q.ageGroup, q.tag)
  }

  /** The timeline condition: not deleted, and every filter the query turns
      on. `scope` is the followed authors on the following tab. */
  predicate Matches(db: Db, q: Filter, scope: Option<set<UserId>>, p: Post) {
    && !p.isDeleted
    && (scope.Some? ==> p.userId in scope.value)
    && (Truthy(q.search) ==> SearchMatches(p, q.search.value))
    && (Truthy(q.tag) ==> HasTag(db, p.id, q.tag.value))
    && (Truthy(q.ageGroup) ==> AuthorInAgeGroup(db, p, q.ageGroup.value))
  }

  function CreatedKey(p: Post): int {
    p.createdAt
  }

  /** The matching posts, newest first, each as often as the table holds
      it. */
  function FeedOrder(db: Db, q: Filter, scope: Option<set<UserId>>): (r: seq<Post>)
    ensures SortedDesc(r, CreatedKey)
    ensures forall k :: 0 <= k < |r| ==> r[k] in db.posts && Matches(db, q, scope, r[k])
    ensures forall i :: 0 <= i < |db.posts| && Matches(db, q, scope, db.posts[i]) ==> db.posts[i] in r
    ensures forall x :: multiset(r)[x] == if Matches(db, q, scope, x) then multiset(db.posts)[x] else 0
  {
    var w := Where(db.posts, (p: Post) => Matches(db, q, scope, p));
    WhereCount(db.posts, (p: Post) => Matches(db, q, scope, p));
    var r := SortDesc(w, CreatedKey);
    forall k | 0 <= k < |r| ensures r[k] in w {
      SameElements(r, w, r[k]);
    }
    forall i | 0 <= i < |db.posts| && Matches(db, q, scope, db.posts[i]) ensures db.posts[i] in r {
      SameElements(r, w, db.posts[i]);
    }
    r
  }

  function PageOf(q: FeedQuery): int {
    q.page.GetOr(1)
  }

  function LimitOf(q: FeedQuery): int {
    q.limit.GetOr(10)
  }

  /** `(page - 1) * limit`. */
  function OffsetOf(q: FeedQuery): int {
    (PageOf(q) - 1) * LimitOf(q)
  }

  function Scope(db: Db, me: UserId, q: FeedQuery): Option<set<UserId>> {
    if q.kind == Some("following") then Some(Followees(db, me)) else None
  }

  /** `GET /api/posts` for the signed-in user `me`. On the following tab a
      missing user is 404 and an empty followee list answers `[]` before
      any query; a negative offset or limit makes the query fail. */
  function Feed(db: Db, me: UserId, q: FeedQuery): (r: FeedResponse)
    ensures r.FeedError? ==> r.status == NotFound || r.status == ServerError
    ensures r.FeedError? && r.status == NotFound <==> q.kind == Some("following") && UserById(db, me).None?
    ensures r.FeedPosts? ==> r.posts == [] || |r.posts| <= LimitOf(q)
  {
    if q.kind == Some("following") && UserById(db, me).None? then FeedError(NotFound)
    else if q.kind == Some("following") && Followees(db, me) == {} then FeedPosts([])
    else if OffsetOf(q) < 0 || LimitOf(q) < 0 then FeedError(ServerError)
    else FeedPosts(Sorting.Window(FeedOrder(db, FilterOf(q), Scope(db, me, q)), OffsetOf(q), LimitOf(q)))
  }

  /** Soundness: every post on the timeline exists, is not deleted, and
      passes every filter of the query; on the following tab its author is
      followed. */
  lemma FeedSound(db: Db, me: UserId, q: FeedQuery)
    requires Feed(db, me, q).FeedPosts?
    ensures var ps := Feed(db, me, q).posts;
      forall k :: 0 <= k < |ps| ==>
        && ps[k] in db.posts
        && !ps[k].isDeleted
        && (q.kind == Some("following") ==> ps[k].userId in Followees(db, me))
        && (Truthy(q.search) ==> SearchMatches(ps[k], q.search.value))
        && (Truthy(q.tag) ==> HasTag(db, ps[k].id, q.tag.value))
        && (Truthy(q.ageGroup) ==> AuthorInAgeGroup(db, ps[k], q.ageGroup.value))
  {
    var ps := Feed(db, me, q).posts;
    if ps != [] {
      var s := FeedOrder(db, FilterOf(q), Scope(db, me, q));
      forall k | 0 <= k < |ps| ensures ps[k] in s {
        assert ps[k] == s[OffsetOf(q) + k];
      }
    }
  }

  /** The timeline is newest first. */
  lemma FeedNewestFirst(db: Db, me: UserId, q: FeedQuery)
    requires Feed(db, me, q).FeedPosts?
    ensures SortedDesc(Feed(db, me, q).posts, CreatedKey)
  {
    var ps := Feed(db, me, q).posts;
    if ps != [] {
      var s := FeedOrder(db, FilterOf(q), Scope(db, me, q));
      forall i, j | 0 <= i < j < |ps| ensures CreatedKey(ps[i]) >= CreatedKey(ps[j]) {
        assert ps[i] == s[OffsetOf(q) + i] && ps[j] == s[OffsetOf(q) + j];
      }
    }
  }

  /** Following nobody gives the empty timeline, whatever the page. */
  lemma FollowingNobody(db: Db, me: UserId, q: FeedQuery)
    requires q.kind == Some("following") && UserById(db, me).Some?
    requires forall f :: f in db.follows ==> f.0 != me
    ensures Feed(db, me, q) == FeedPosts([])
  {
  }

  /** When the query runs, the timeline is one window of the matching
      posts in order. */
  lemma FeedIsWindow(db: Db, me: UserId, q: FeedQuery)
    requires q.kind == Some("following") ==> UserById(db, me).Some? && Followees(db, me) != {}
    requires OffsetOf(q) >= 0 && LimitOf(q) >= 0
    ensures Feed(db, me, q) == FeedPosts(Sorting.Window(FeedOrder(db, FilterOf(q), Scope(db, me, q)), OffsetOf(q), LimitOf(q)))
  {
  }

  /** Completeness: with a positive limit, every matching post shows up on
      some page of the timeline. */
  lemma FeedPageFor(db: Db, me: UserId, q: FeedQuery, x: Post) returns (page: int)
    requires q.limit.Some? && q.limit.value > 0
    requires q.kind == Some("following") ==> UserById(db, me).Some?
    requires x in db.posts && Matches(db, FilterOf(q), Scope(db, me, q), x)
    ensures page >= 1
    ensures Feed(db, me, q.(page := Some(page))).FeedPosts?
    ensures x in Feed(db, me, q.(page := Some(page))).posts
  {
    var k := FeedIndexOf(db, FilterOf(q), Scope(db, me, q), x);
    MatchInScope(db, me, q, x);
    assert k / q.limit.value >= 0 by {
      PageBounds(k, q.limit.value);
    }
    page := k / q.limit.value + 1;
    OnPage(db, me, q, k, page);
  }

  /** Item `k` of the timeline order is on page `k / limit + 1`, whatever
      page the query asked for. */
  lemma OnPage(db: Db, me: UserId, q: FeedQuery, k: nat, page: int)
    requires q.limit.Some? && q.limit.value > 0 && page == k / q.limit.value + 1
    requires q.kind == Some("following") ==> UserById(db, me).Some? && Followees(db, me) != {}
    requires k < |FeedOrder(db, FilterOf(q), Scope(db, me, q))|
    ensures Feed(db, me, q.(page := Some(page))).FeedPosts?
    ensures FeedOrder(db, FilterOf(q), Scope(db, me, q))[k] in Feed(db, me, q.(page := Some(page))).posts
  {
    var lim := q.limit.value;
    var q' := q.(page := Some(page));
    var s := FeedOrder(db, FilterOf(q), Scope(db, me, q));
    assert FeedOrder(db, FilterOf(q'), Scope(db, me, q')) == s by {
      assert FilterOf(q') == FilterOf(q) && Scope(db, me, q') == Scope(db, me, q);
    }
    assert OffsetOf(q') == (k / lim) * lim;
    PageBounds(k, lim);
    FeedIsWindow(db, me, q');
    WindowHolds(s, k, lim);
  }

  /** A matching post has a place in the timeline order. */
  lemma FeedIndexOf(db: Db, f: Filter, scope: Option<set<UserId>>, x: Post) returns (k: nat)
    requires x in db.posts && Matches(db, f, scope, x)
    ensures k < |FeedOrder(db, f, scope)| && FeedOrder(db, f, scope)[k] == x
  {
    var s := FeedOrder(db, f, scope);
    var i :| 0 <= i < |db.posts| && db.posts[i] == x;
    assert x in s;
    k :| 0 <= k < |s| && s[k] == x;
  }

  /** A post on the following tab has a followed author, so the followee
      list is not empty. */
  lemma MatchInScope(db: Db, me: UserId, q: FeedQuery, x: Post)
    requires Matches(db, FilterOf(q), Scope(db, me, q), x)
    ensures q.kind == Some("following") ==> Followees(db, me) != {}
  {
    if q.kind == Some("following") {
      assert x.userId in Followees(db, me);
    }
  }

  /** The window of the page of item `k` holds item `k`. */
  lemma WindowHolds<T>(s: seq<T>, k: nat, lim: int)
    requires k < |s| && lim > 0
    ensures 0 <= (k / lim) * lim
    ensures s[k] in Sorting.Window(s, (k / lim) * lim, lim)
  {
    PageBounds(k, lim);
    var off := (k / lim) * lim;
    assert Sorting.Window(s, off, lim)[k - off] == s[k];
  }

  /** Item `k` falls on the page of number `k / lim + 1`. */
  lemma PageBounds(k: nat, lim: int)
    requires lim > 0
    ensures k / lim >= 0
    ensures 0 <= (k / lim) * lim <= k < (k / lim) * lim + lim
  {
    assert k == (k / lim) * lim + k % lim;
  }

  /** The post detail: the post with its associations, comments and likes. */
  datatype Detail = Detail(view: PostCreate.PostView, comments: seq<Comment>, likers: set<UserId>)

  datatype DetailResponse = DetailFound(detail: Detail) | DetailMissing

  /** `findOne({ where: { id, isDeleted: false } })`. */
  function LivePost(db: Db, id: PostId): Option<Post> {
    FindFirst(db.posts, (p: Post) => p.id == id && !p.isDeleted)
  }

  /** `GET /api/posts/:id`: 404 unless a non-deleted post has that id;
      otherwise the post with all of its comments and the users who like
      it. */
  function GetPost(db: Db, id: PostId): (r: DetailResponse)
    ensures r.DetailMissing? <==> forall i :: 0 <= i < |db.posts| ==> db.posts[i].id != id || db.posts[i].isDeleted
    ensures r.DetailFound? ==> r.detail.view.post.id == id && !r.detail.view.post.isDeleted && r.detail.view.post in db.posts
    ensures r.DetailFound? ==> forall c :: c in r.detail.comments <==> c in db.comments && c.postId == id
    ensures r.DetailFound? ==> forall u :: u in r.detail.likers <==> (u, id) in db.likes
  {
    match LivePost(db, id)
    case None => DetailMissing
    case Some(p) =>
      var base := PostCreate.ReadPost(db, id).GetOr(PostCreate.PostView(p, None, [], [], None, []));
      DetailFound(Detail(
        base.(post := p),
        Where(db.comments, (c: Comment) => c.postId == id),
        set l | l in db.likes && l.1 == id :: l.0))
  }

  datatype LikeResponse = Liked | Unliked | LikeFailed

  /** `POST /api/posts/:id/like`: an existing like is removed; otherwise one
      is inserted, which the foreign keys reject for a missing post or
      user. */
  function ToggleLike(db: Db, user: UserId, post: PostId): (r: (Db, LikeResponse))
    ensures r.1 == Unliked <==> (user, post) in db.likes
    ensures r.1 == Liked <==> (user, post) !in db.likes && PostExists(db, post) && UserExists(db, user)
    ensures r.1 == Unliked ==> r.0 == db.(likes := db.likes - {(user, post)})
    ensures r.1 == Liked ==> r.0 == db.(likes := db.likes + {(user, post)})
    ensures r.1 == LikeFailed ==> r.0 == db
  {
    if (user, post) in db.likes then (db.(likes := db.likes - {(user, post)}), Unliked)
    else if !PostExists(db, post) || !UserExists(db, user) then (db, LikeFailed)
    else (db.(likes := db.likes + {(user, post)}), Liked)
  }

  /** Toggling twice restores the likes (when a like is present, its post
      and user exist, as the foreign keys guarantee). Only that one pair is
      ever affected. */
  lemma ToggleLikeTwice(db: Db, user: UserId, post: PostId)
    requires (user, post) in db.likes ==> PostExists(db, post) && UserExists(db, user)
    ensures ToggleLike(ToggleLike(db, user, post).0, user, post).0 == db
    ensures forall l :: l != (user, post) ==> (l in ToggleLike(db, user, post).0.likes <==> l in db.likes)
  {
    var once := ToggleLike(db, user, post);
    if once.1 == Unliked {
      assert once.0.users == db.users && once.0.posts == db.posts;
      assert once.0.likes + {(user, post)} == db.likes;
    } else if once.1 == Liked {
      assert once.0.likes - {(user, post)} == db.likes;
    }
  }

  datatype CommentResponse = Commented(comment: Comment) | CommentFailed

  /** `POST /api/posts/:id/comment`: content is NOT NULL and the post and
      user are foreign keys; anything else is stored as given. */
  function AddComment(db: Db, user: UserId, post: PostId, content: Option<string>, now: int): (r: (Db, CommentResponse))
    ensures r.1.Commented? <==> content.Some? && PostExists(db, post) && UserExists(db, user)
    ensures r.1.Commented? ==> (r.1.comment == Comment(user, post, content.value, now)
      && r.0 == db.(comments := db.comments + [r.1.comment]))
    ensures r.1.CommentFailed? ==> r.0 == db
  {
    if content.None? || !PostExists(db, post) || !UserExists(db, user) then (db, CommentFailed)
    else
      var c := Comment(user, post, content.value, now);
      (db.(comments := db.comments + [c]), Commented(c))
  }

  /** A comment on a live post shows in its detail view at once. */
  lemma AddCommentThenDetail(db: Db, user: UserId, post: PostId, content: Option<string>, now: int)
    requires GetPost(db, post).DetailFound?
    requires AddComment(db, user, post, content, now).1.Commented?
    ensures var (db', resp) := AddComment(db, user, post, content, now);
      GetPost(db', post).DetailFound? && resp.comment in GetPost(db', post).detail.comments
  {
    var (db', resp) := AddComment(db, user, post, content, now);
    assert db'.posts == db.posts;
    assert resp.comment in db'.comments;
  }

  datatype DeleteResponse = Deleted | DeleteNotFound | DeleteForbidden

  function DeleteStatus(r: DeleteResponse): int {
    match r
    case Deleted => OK
    case DeleteNotFound => NotFound
    case DeleteForbidden => Forbidden
  }

  /** `UPDATE post SET is_deleted = true WHERE id = ?`. */
  function MarkDeleted(posts: seq<Post>, id: PostId): (r: seq<Post>)
    ensures |r| == |posts|
    ensures forall i :: 0 <= i < |r| ==> if posts[i].id == id then r[i] == posts[i].(isDeleted := true) else r[i] == posts[i]
  {
    seq(|posts|, i requires 0 <= i < |posts| => if posts[i].id == id then posts[i].(isDeleted := true) else posts[i])
  }

  /** `DELETE /api/posts/:id`: 404 when no post has the id (deleted or
      not), 403 when the signed-in user is not its author, otherwise the
      post is flagged deleted and nothing else changes. */
  function DeletePost(db: Db, me: UserId, id: PostId): (r: (Db, DeleteResponse))
    ensures r.1 == DeleteNotFound <==> PostById(db, id).None?
    ensures r.1 == DeleteForbidden <==> PostById(db, id).Some? && PostById(db, id).value.userId != me
    ensures r.1 != Deleted ==> r.0 == db
    ensures r.1 == Deleted ==> r.0 == db.(posts := MarkDeleted(db.posts, id))
  {
    match PostById(db, id)
    case None => (db, DeleteNotFound)
    case Some(p) =>
      if p.userId != me then (db, DeleteForbidden)
      else (db.(posts := MarkDeleted(db.posts, id)), Deleted)
  }

  /** After a successful delete the detail view answers 404 and no timeline
      shows the post. */
  lemma DeleteHides(db: Db, me: UserId, id: PostId, q: FeedQuery)
    requires DeletePost(db, me, id).1 == Deleted
    ensures GetPost(DeletePost(db, me, id).0, id) == DetailMissing
    ensures Feed(DeletePost(db, me, id).0, me, q).FeedPosts? ==>
      forall k :: 0 <= k < |Feed(DeletePost(db, me, id).0, me, q).posts| ==> Feed(DeletePost(db, me, id).0, me, q).posts[k].id != id
  {
    var db' := DeletePost(db, me, id).0;
    if Feed(db', me, q).FeedPosts? {
      FeedSound(db', me, q);
    }
  }

  /** Deleting is idempotent: the owner may delete again, with the same
      answer and no further change. */
  lemma DeleteIdempotent(db: Db, me: UserId, id: PostId)
    requires DeletePost(db, me, id).1 == Deleted
    ensures DeletePost(DeletePost(db, me, id).0, me, id) == DeletePost(db, me, id)
  {
    var db' := DeletePost(db, me, id).0;
    FindFirstUpdated(db.posts, db'.posts, (p: Post) => p.id == id, (p: Post) => p.(isDeleted := true));
    assert MarkDeleted(db'.posts, id) == db'.posts;
  }
}

=== FILE: post_model.dfy ===
/** The instance methods of the post model: the route link, the route-info
    update and the original-language accessors. */
module PostModel {
  import opened Common
  import opened JsText
  import opened UriEncoding
  import opened Schema

  const MapsBase: string := "https://www.google.com/maps/dir/"

  /** The `travelmode` value: the lower-cased transport mode, or `driving`
      when the post has none. */
  function TravelMode(mode: Option<string>): (r: string)
    ensures !Truthy(mode) ==> r == "driving"
    ensures Truthy(mode) ==> r == LowerAscii(mode.value) && |r| == |mode.value|
    ensures forall i :: 0 <= i < |r| ==> !('A' <= r[i] <= 'Z')
  {
    if Truthy(mode) then LowerAscii(mode.value) else "driving"
  }

  /** `getMapLink()`: a directions link from the start to the end location,
      or null unless both are set. */
  function GetMapLink(p: Post): (r: Option<string>)
    ensures r.Some? <==> Truthy(p.startLocation) && Truthy(p.endLocation)
  {
    if Truthy(p.startLocation) && Truthy(p.endLocation) then
      Some(MapsBase + "?" + Join(MapLinkParams(p), '&'))
    else None
  }

  /** The four query parameters of the link, in the order they are written. */
  function MapLinkParams(p: Post): seq<string>
    requires Truthy(p.startLocation) && Truthy(p.endLocation)
  {
    [ "api=1",
      "origin=" + Encode(p.startLocation.value),
      "destination=" + Encode(p.endLocation.value),
      "travelmode=" + TravelMode(p.transportMode) ]
  }

  /** Reading the link back: its query holds exactly the parameters `api`,
      `origin`, `destination` and `travelmode`, in that order; the origin and
      destination values decode to the UTF-8 bytes of the start and end
      locations. */
  lemma MapLinkReadsBack(p: Post)
    requires Truthy(p.startLocation) && Truthy(p.endLocation)
    requires Truthy(p.transportMode) ==> '&' !in p.transportMode.value
    ensures GetMapLink(p).Some?
    ensures |QueryParams(GetMapLink(p).value)| == 4
    ensures QueryParams(GetMapLink(p).value)[0] == "api=1"
    ensures var q := QueryParams(GetMapLink(p).value);
      && q[1] == "origin=" + Encode(p.startLocation.value)
      && Decode(q[1][7..]) == Utf8String(p.startLocation.value)
      && q[2] == "destination=" + Encode(p.endLocation.value)
      && Decode(q[2][12..]) == Utf8String(p.endLocation.value)
      && q[3] == "travelmode=" + TravelMode(p.transportMode)
  {
    var ps := MapLinkParams(p);
    LinkQuery(p);
    ParamsAmpFree(p);
    ModeAmpFree(p.transportMode);
    NoAmpAfterPrefix("travelmode=", TravelMode(p.transportMode));
    SplitJoin(ps, '&');
    assert ps[1][7..] == Encode(p.startLocation.value);
    assert ps[2][12..] == Encode(p.endLocation.value);
    DecodeEncode(p.startLocation.value);
    DecodeEncode(p.endLocation.value);
  }

  /** A transport mode free of `&` stays free of it when lower-cased. */
  lemma ModeAmpFree(mode: Option<string>)
    requires Truthy(mode) ==> '&' !in mode.value
    ensures '&' !in TravelMode(mode)
  {
    if Truthy(mode) {
      var m := mode.value;
      forall k | 0 <= k < |m| ensures LowerAscii(m)[k] != '&' {
        assert m[k] != '&';
      }
    }
  }

  /** A parameter name free of `&` followed by an `&`-free value is free of `&`. */
  lemma NoAmpAfterPrefix(name: string, v: string)
    requires '&' !in name && '&' !in v
    ensures '&' !in name + v
  {
    forall k | 0 <= k < |name + v| ensures (name + v)[k] != '&' {
      if k >= |name| {
        assert (name + v)[k] == v[k - |name|];
      } else {
        assert (name + v)[k] == name[k];
      }
    }
  }

  /** Any `Encode` output is `&`-free, so only the transport mode can add a
      parameter to the link. */
  lemma EncodedHasNoAmp(s: string)
    ensures '&' !in Encode(s)
  {
    var e := Encode(s);
    forall k | 0 <= k < |e| ensures e[k] != '&' {
      assert IsUnreserved(e[k]) || e[k] == '%';
    }
  }

  /** `updateRouteInfo(start, end, mode, summary)`: assigns the four route
      fields and saves; the flag tells whether the save went through, which
      it always does when the four values are those already held (nothing
      is sent). */
  function UpdateRouteInfo(p: Post, start: Option<string>, end: Option<string>,
                           mode: Option<string>, summary: Option<string>,
                           saveFails: bool): (r: SaveResult<Post>)
    ensures r.ok <==> (start == p.startLocation && end == p.endLocation
                       && mode == p.transportMode && summary == p.routeSummary) || !saveFails
    ensures r.instance.startLocation == start && r.instance.endLocation == end
    ensures r.instance.transportMode == mode && r.instance.routeSummary == summary
    ensures r.instance.(startLocation := p.startLocation, endLocation := p.endLocation,
                        transportMode := p.transportMode, routeSummary := p.routeSummary) == p
    ensures r.ok ==> r.row == r.instance
    ensures !r.ok ==> r.row == p
  {
    var q := p.(startLocation := start, endLocation := end, transportMode := mode, routeSummary := summary);
    if q == p then SaveResult(q, p, true)
    else SaveResult(q, if saveFails then p else q, !saveFails)
  }

  /** `setOriginalLanguage(code)`: assigns and saves. The method has no
      handler around the save, so a failed save rejects the call instead of
      returning false; `ok` is false exactly then. Setting the code already
      held sends nothing and resolves true. */
  function SetOriginalLanguage(p: Post, code: Option<string>, saveFails: bool): (r: SaveResult<Post>)
    ensures r.ok <==> p.originalLanguage == code || !saveFails
    ensures r.instance == p.(originalLanguage := code)
    ensures r.row == if r.ok then r.instance else p
  {
    var q := p.(originalLanguage := code);
    if q == p then SaveResult(q, p, true)
    else SaveResult(q, if saveFails then p else q, !saveFails)
  }

  /** `getOriginalLanguage()`. */
  function GetOriginalLanguage(p: Post): Option<string> {
    p.originalLanguage
  }

  /** Setting the original language and reading it back gives the code that
      was set, on the instance always and on the stored row when the save
      succeeded. */
  lemma OriginalLanguageRoundTrip(p: Post, code: Option<string>, saveFails: bool)
    ensures GetOriginalLanguage(SetOriginalLanguage(p, code, saveFails).instance) == code
    ensures !saveFails ==> GetOriginalLanguage(SetOriginalLanguage(p, code, saveFails).row) == code
    ensures saveFails ==> GetOriginalLanguage(SetOriginalLanguage(p, code, saveFails).row) == p.originalLanguage
  {
  }

  /** After a successful route update with both locations set, the stored
      post links from the new start to the new end. */
  lemma UpdateRouteThenLink(p: Post, start: string, end: string, mode: Option<string>, summary: Option<string>)
    requires start != "" && end != ""
    ensures var row := UpdateRouteInfo(p, Some(start), Some(end), mode, summary, false).row;
      && GetMapLink(row).Some?
      && |QueryParams(GetMapLink(row).value)| >= 4
      && QueryParams(GetMapLink(row).value)[1] == "origin=" + Encode(start)
      && QueryParams(GetMapLink(row).value)[2] == "destination=" + Encode(end)
  {
    var row := UpdateRouteInfo(p, Some(start), Some(end), mode, summary, false).row;
    assert row.startLocation == Some(start) && row.endLocation == Some(end);
    LinkPrefixParams(row);
    var q := QueryParams(GetMapLink(row).value);
    var ps := MapLinkParams(row);
    assert q[1] == q[..3][1] == ps[..3][1] == ps[1];
    assert q[2] == q[..3][2] == ps[..3][2] == ps[2];
  }

  /** Whatever the transport mode holds (it is written unencoded), the query
      starts with the `api`, `origin` and `destination` parameters. */
  lemma LinkPrefixParams(p: Post)
    requires Truthy(p.startLocation) && Truthy(p.endLocation)
    ensures GetMapLink(p).Some?
    ensures |QueryParams(GetMapLink(p).value)| >= 4
    ensures QueryParams(GetMapLink(p).value)[..3] == MapLinkParams(p)[..3]
  {
    ParamsAmpFree(p);
    LinkQuery(p);
    SplitJoinPrefix(MapLinkParams(p), '&');
  }

  /** The `api`, `origin` and `destination` parameters hold no `&`. */
  lemma ParamsAmpFree(p: Post)
    requires Truthy(p.startLocation) && Truthy(p.endLocation)
    ensures var ps := MapLinkParams(p); '&' !in ps[0] && '&' !in ps[1] && '&' !in ps[2]
  {
    EncodedParamAmpFree("origin=", p.startLocation.value);
    EncodedParamAmpFree("destination=", p.endLocation.value);
    assert '&' !in "api=1";
  }

  /** A parameter whose name holds no `&` and whose value is encoded holds
      no `&`. */
  lemma EncodedParamAmpFree(name: string, v: string)
    requires '&' !in name
    ensures '&' !in name + Encode(v)
  {
    EncodedHasNoAmp(v);
    NoAmpAfterPrefix(name, Encode(v));
  }

  /** Joining four pieces, the first three separator-free, and splitting
      again gives back those three first. */
  lemma SplitJoinPrefix(ps: seq<string>, sep: char)
    requires |ps| == 4 && sep !in ps[0] && sep !in ps[1] && sep !in ps[2]
    ensures |Split(Join(ps, sep), sep)| >= 4
    ensures Split(Join(ps, sep), sep)[..3] == ps[..3]
  {
    JoinFour(ps, sep);
    SplitThree(ps[0], ps[1], ps[2], ps[3], sep);
  }

  /** The query of the link is the `&`-joined parameter list. */
  lemma LinkQuery(p: Post)
    requires Truthy(p.startLocation) && Truthy(p.endLocation)
    ensures GetMapLink(p).Some?
    ensures QueryParams(GetMapLink(p).value) == Split(Join(MapLinkParams(p), '&'), '&')
  {
    assert forall k :: 0 <= k < |MapsBase| ==> MapsBase[k] != '?';
    QueryOfAppend(MapsBase, Join(MapLinkParams(p), '&'));
  }

  /** Splitting three separator-free pieces followed by anything yields those
      pieces first. */
  lemma SplitThree(a: string, b: string, c: string, t: string, sep: char)
    requires sep !in a && sep !in b && sep !in c
    ensures |Split(a + [sep] + (b + [sep] + (c + [sep] + t)), sep)| >= 4
    ensures Split(a + [sep] + (b + [sep] + (c + [sep] + t)), sep)[..3] == [a, b, c]
  {
    SplitPrefix(c, t, sep);
    SplitPrefix(b, c + [sep] + t, sep);
    SplitPrefix(a, b + [sep] + (c + [sep] + t), sep);
  }

  /** `join` of four pieces, written out. */
  lemma JoinFour(ps: seq<string>, sep: char)
    requires |ps| == 4
    ensures Join(ps, sep) == ps[0] + [sep] + (ps[1] + [sep] + (ps[2] + [sep] + ps[3]))
  {
    assert ps[1..][1..][1..] == [ps[3]];
    assert Join(ps[1..][1..], sep) == ps[2] + [sep] + ps[3];
  }
}

=== FILE: profile_model.dfy ===
/** The profile model: the four text setters and the age-group setter, each
    of which assigns one field and saves, and the public view of a profile.
    The profile columns carry no validators, so a save fails only when the
    database refuses it, which is given as a parameter; a save that changes
    no attribute sends nothing and cannot fail. */
module ProfileModel {
  import opened Common
  import opened Schema

  /** Every stored spelling reads back as its age group, and no two groups
      share a spelling. */
  lemma AgeGroupRoundTrip(g: AgeGroup, h: AgeGroup)
    ensures ParseAgeGroup(AgeGroupName(g)) == Some(g)
    ensures AgeGroupName(g) == AgeGroupName(h) ==> g == h
  {
  }

  /** The text fields the `updateX` methods assign. */
  datatype TextField = DisplayNameField | BioField | AvatarUrlField | BannerUrlField

  function Get(p: Profile, f: TextField): Option<string> {
    match f
    case DisplayNameField => p.displayName
    case BioField => p.bio
    case AvatarUrlField => p.avatarUrl
    case BannerUrlField => p.bannerUrl
  }

  function Set(p: Profile, f: TextField, v: Option<string>): (r: Profile)
    ensures Get(r, f) == v
    ensures forall g :: g != f ==> Get(r, g) == Get(p, g)
    ensures r.userId == p.userId && r.ageGroup == p.ageGroup
  {
    match f
    case DisplayNameField => p.(displayName := v)
    case BioField => p.(bio := v)
    case AvatarUrlField => p.(avatarUrl := v)
    case BannerUrlField => p.(bannerUrl := v)
  }

  /** A profile is determined by its owner, its age group and its four text
      fields. */
  lemma ProfileFields(p: Profile, q: Profile)
    requires p.userId == q.userId && p.ageGroup == q.ageGroup
    requires forall f :: Get(p, f) == Get(q, f)
    ensures p == q
  {
    assert Get(p, DisplayNameField) == Get(q, DisplayNameField);
    assert Get(p, BioField) == Get(q, BioField);
    assert Get(p, AvatarUrlField) == Get(q, AvatarUrlField);
    assert Get(p, BannerUrlField) == Get(q, BannerUrlField);
  }

  /** `updateDisplayName`, `updateBio`, `updateAvatarUrl` and
      `updateBannerUrl`: the instance takes the value in that one field;
      the stored row follows exactly when the save succeeds, which is what
      the returned flag says. Assigning the value already held sends nothing
      and succeeds. */
  function UpdateField(p: Profile, f: TextField, v: Option<string>, saveFails: bool): (r: SaveResult<Profile>)
    ensures r.ok <==> Get(p, f) == v || !saveFails
    ensures Get(r.instance, f) == v
    ensures forall g :: g != f ==> Get(r.instance, g) == Get(p, g)
    ensures r.instance.userId == p.userId && r.instance.ageGroup == p.ageGroup
    ensures r.row == if r.ok then r.instance else p
  {
    var q := Set(p, f, v);
    if q == p then SaveResult(q, p, true)
    else SaveResult(q, if saveFails then p else q, !saveFails)
  }

  /** `updateAgeGroup`: the same for the age group. A value outside the
      enumeration cannot be represented here. */
  function UpdateAgeGroup(p: Profile, g: Option<AgeGroup>, saveFails: bool): (r: SaveResult<Profile>)
    ensures r.ok <==> p.ageGroup == g || !saveFails
    ensures r.instance.ageGroup == g
    ensures forall f :: Get(r.instance, f) == Get(p, f)
    ensures r.instance.userId == p.userId
    ensures r.row == if r.ok then r.instance else p
  {
    var q := p.(ageGroup := g);
    if q == p then SaveResult(q, p, true)
    else SaveResult(q, if saveFails then p else q, !saveFails)
  }

  /** What `getProfileView()` returns. */
  datatype ProfileView = ProfileView(
    displayName: Option<string>,
    bio: Option<string>,
    avatarUrl: Option<string>,
    bannerUrl: Option<string>,
    ageGroup: Option<AgeGroup>)

  /** `getProfileView()`: the five public fields; the owner is not shown. */
  function GetProfileView(p: Profile): (r: ProfileView)
    ensures r.displayName == Get(p, DisplayNameField) && r.bio == Get(p, BioField)
    ensures r.avatarUrl == Get(p, AvatarUrlField) && r.bannerUrl == Get(p, BannerUrlField)
    ensures r.ageGroup == p.ageGroup
  {
    ProfileView(p.displayName, p.bio, p.avatarUrl, p.bannerUrl, p.ageGroup)
  }

  /** The view's value for a text field. */
  function ViewGet(v: ProfileView, f: TextField): Option<string> {
    match f
    case DisplayNameField => v.displayName
    case BioField => v.bio
    case AvatarUrlField => v.avatarUrl
    case BannerUrlField => v.bannerUrl
  }

  /** An update followed by `getProfileView()` shows the new value in that
      field and the old view everywhere else; on the stored row only when
      the save went through. */
  lemma UpdateThenView(p: Profile, f: TextField, v: Option<string>, saveFails: bool)
    ensures ViewGet(GetProfileView(UpdateField(p, f, v, saveFails).instance), f) == v
    ensures forall g :: g != f ==>
      ViewGet(GetProfileView(UpdateField(p, f, v, saveFails).instance), g) == ViewGet(GetProfileView(p), g)
    ensures GetProfileView(UpdateField(p, f, v, saveFails).instance).ageGroup == p.ageGroup
    ensures ViewGet(GetProfileView(UpdateField(p, f, v, saveFails).row), f) == if saveFails then Get(p, f) else v
  {
    var q := UpdateField(p, f, v, saveFails).instance;
    forall g: TextField ensures ViewGet(GetProfileView(q), g) == Get(q, g) && ViewGet(GetProfileView(p), g) == Get(p, g) {
    }
  }

  /** Setting a field to the value it already holds saves the same row. */
  lemma UpdateSameValue(p: Profile, f: TextField, saveFails: bool)
    ensures UpdateField(p, f, Get(p, f), saveFails).row == p
  {
    var q := UpdateField(p, f, Get(p, f), saveFails).instance;
    forall g ensures Get(q, g) == Get(p, g) {
    }
    ProfileFields(q, p);
  }

  /** An age-group update followed by `getProfileView()` shows the new group
      and the old text fields; on the stored row exactly when it saved. */
  lemma UpdateAgeGroupThenView(p: Profile, g: Option<AgeGroup>, saveFails: bool)
    ensures GetProfileView(UpdateAgeGroup(p, g, saveFails).instance) == GetProfileView(p).(ageGroup := g)
    ensures GetProfileView(UpdateAgeGroup(p, g, saveFails).row).ageGroup == if saveFails then p.ageGroup else g
  {
  }
}

=== FILE: profile_routes.dfy ===
/** The profile routes: the public profile looked up by username, the
    user's posts, and the update of one's own profile, which creates the
    profile when the user has none. */
module ProfileRoutes {
  import opened Common
  import opened Sorting
  import opened Schema
  import ProfileModel
  import PostFeed

  /** The body of `GET /api/profiles/:username`: user and profile merged. */
  datatype PublicProfile = PublicProfile(
    username: string,
    displayName: string,
    bio: string,
    avatarUrl: Option<string>,
    bannerUrl: Option<string>,
    ageGroup: Option<AgeGroup>,
    userId: UserId)

  /** `GET /api/profiles/:username`: none for an unknown name (404). The
      display name is the profile's when it is non-empty, else the
      username; the bio is the profile's when non-empty, else empty; a
      user without a profile shows only those fallbacks. */
  function GetProfile(db: Db, username: string): (r: Option<PublicProfile>)
    ensures r.None? <==> forall i :: 0 <= i < |db.users| ==> db.users[i].username != username
    ensures r.Some? ==>
      && r.value.username == username
      && UserByName(db, username).Some? && r.value.userId == UserByName(db, username).value.id
    ensures r.Some? && ProfileOf(db, r.value.userId).None? ==>
      r.value == PublicProfile(username, username, "", None, None, None, r.value.userId)
    ensures r.Some? && ProfileOf(db, r.value.userId).Some? ==>
      var p := ProfileOf(db, r.value.userId).value;
      && (Truthy(p.displayName) ==> r.value.displayName == p.displayName.value)
      && (!Truthy(p.displayName) ==> r.value.displayName == username)
      && (Truthy(p.bio) ==> r.value.bio == p.bio.value)
      && (!Truthy(p.bio) ==> r.value.bio == "")
      && r.value.avatarUrl == p.avatarUrl && r.value.bannerUrl == p.bannerUrl && r.value.ageGroup == p.ageGroup
  {
    match UserByName(db, username)
    case None => None
    case Some(u) =>
      var pd := ProfileOf(db, u.id).GetOr(Profile(u.id, None, None, None, None, None));
      Some(PublicProfile(
        u.username,
        if Truthy(pd.displayName) then pd.displayName.value else u.username,
        if Truthy(pd.bio) then pd.bio.value else "",
        pd.avatarUrl,
        pd.bannerUrl,
        pd.ageGroup,
        u.id))
  }

  /** `GET /api/profiles/:username/posts` as written: every post of the
      user, newest first, soft-deleted ones included. */
  function UserPostsAsWritten(db: Db, username: string): (r: Option<seq<Post>>)
    ensures r.None? <==> UserByName(db, username).None?
    ensures r.Some? ==> SortedDesc(r.value, PostFeed.CreatedKey)
    ensures r.Some? ==> forall k :: 0 <= k < |r.value| ==>
      r.value[k] in db.posts && r.value[k].userId == UserByName(db, username).value.id
    ensures r.Some? ==> forall i :: 0 <= i < |db.posts| && db.posts[i].userId == UserByName(db, username).value.id ==>
      db.posts[i] in r.value
    ensures r.Some? ==> (forall x :: multiset(r.value)[x] == if x.userId == UserByName(db, username).value.id then multiset(db.posts)[x] else 0)
  {
    match UserByName(db, username)
    case None => None
    case Some(u) =>
      var w := Where(db.posts, (p: Post) => p.userId == u.id);
      WhereCount(db.posts, (p: Post) => p.userId == u.id);
      var r := SortDesc(w, PostFeed.CreatedKey);
      forall k | 0 <= k < |r| ensures r[k] in w {
        SameElements(r, w, r[k]);
      }
      forall i | 0 <= i < |db.posts| && db.posts[i].userId == u.id ensures db.posts[i] in r {
        SameElements(r, w, db.posts[i]);
      }
      Some(r)
  }

  /** The listing with soft-deleted posts left out, as every other listing
      of posts does: the user's live posts, newest first. */
  function UserPosts(db: Db, username: string): (r: Option<seq<Post>>)
    ensures r.None? <==> UserByName(db, username).None?
    ensures r.Some? ==> SortedDesc(r.value, PostFeed.CreatedKey)
    ensures r.Some? ==> forall k :: 0 <= k < |r.value| ==>
      r.value[k] in db.posts && r.value[k].userId == UserByName(db, username).value.id && !r.value[k].isDeleted
    ensures r.Some? ==> forall i :: 0 <= i < |db.posts| && db.posts[i].userId == UserByName(db, username).value.id && !db.posts[i].isDeleted ==>
      db.posts[i] in r.value
    ensures r.Some? ==> (forall x :: multiset(r.value)[x] == if x.userId == UserByName(db, username).value.id && !x.isDeleted then multiset(db.posts)[x] else 0)
  {
    match UserByName(db, username)
    case None => None
    case Some(u) =>
      var w := Where(db.posts, (p: Post) => p.userId == u.id && !p.isDeleted);
      WhereCount(db.posts, (p: Post) => p.userId == u.id && !p.isDeleted);
      var r := SortDesc(w, PostFeed.CreatedKey);
      forall k | 0 <= k < |r| ensures r[k] in w {
        SameElements(r, w, r[k]);
      }
      forall i | 0 <= i < |db.posts| && db.posts[i].userId == u.id && !db.posts[i].isDeleted ensures db.posts[i] in r {
        SameElements(r, w, db.posts[i]);
      }
      Some(r)
  }

  /** After the owner deletes a post, the listing as written still shows
      it (marked deleted) although its detail answers 404; the corrected
      listing shows no post with that id. */
  lemma DeletedPostStillListed(db: Db, username: string, me: UserId, id: PostId)
    requires UserByName(db, username).Some? && UserByName(db, username).value.id == me
    requires PostFeed.DeletePost(db, me, id).1 == PostFeed.Deleted
    ensures var db' := PostFeed.DeletePost(db, me, id).0;
      && PostFeed.GetPost(db', id) == PostFeed.DetailMissing
      && (exists k :: 0 <= k < |UserPostsAsWritten(db', username).value| && UserPostsAsWritten(db', username).value[k].id == id)
      && (forall k :: 0 <= k < |UserPosts(db', username).value| ==> UserPosts(db', username).value[k].id != id)
  {
    var db' := PostFeed.DeletePost(db, me, id).0;
    PostFeed.DeleteHides(db, me, id, PostFeed.FeedQuery(None, None, None, None, None, None));
    var j := DeletedRowKept(db, me, id);
    assert UserByName(db', username) == UserByName(db, username);
    var listed := UserPostsAsWritten(db', username).value;
    assert db'.posts[j] in listed;
    var k :| 0 <= k < |listed| && listed[k] == db'.posts[j];
    DeletedNotListed(db', username, id);
  }

  /** The deleted post's row stays in the table, still owned by its author. */
  lemma DeletedRowKept(db: Db, me: UserId, id: PostId) returns (j: int)
    requires PostFeed.DeletePost(db, me, id).1 == PostFeed.Deleted
    ensures var db' := PostFeed.DeletePost(db, me, id).0;
      0 <= j < |db'.posts| && db'.posts[j].id == id && db'.posts[j].userId == me
  {
    var p := PostById(db, id).value;
    j :| 0 <= j < |db.posts| && db.posts[j] == p;
  }

  /** Once the detail view answers 404, the corrected listing has no post
      with that id. */
  lemma DeletedNotListed(db: Db, username: string, id: PostId)
    requires UserByName(db, username).Some?
    requires PostFeed.GetPost(db, id) == PostFeed.DetailMissing
    ensures forall k :: 0 <= k < |UserPosts(db, username).value| ==> UserPosts(db, username).value[k].id != id
  {
    LiveRowsAvoid(UserPosts(db, username).value, db.posts, id);
  }

  /** Live rows taken from a table with no live row of the id avoid it. */
  lemma LiveRowsAvoid(listed: seq<Post>, posts: seq<Post>, id: PostId)
    requires forall i :: 0 <= i < |posts| ==> posts[i].id != id || posts[i].isDeleted
    requires forall k :: 0 <= k < |listed| ==> listed[k] in posts && !listed[k].isDeleted
    ensures forall k :: 0 <= k < |listed| ==> listed[k].id != id
  {
    forall k | 0 <= k < |listed| ensures listed[k].id != id {
      var i :| 0 <= i < |posts| && posts[i] == listed[k];
    }
  }

  /** The body of `PUT /api/profiles/me`. */
  datatype ProfileUpdate = ProfileUpdate(
    displayName: Option<string>,
    bio: Option<string>,
    avatarUrl: Option<string>,
    bannerUrl: Option<string>)

  function Requested(req: ProfileUpdate, f: ProfileModel.TextField): Option<string> {
    match f
    case DisplayNameField => req.displayName
    case BioField => req.bio
    case AvatarUrlField => req.avatarUrl
    case BannerUrlField => req.bannerUrl
  }

  /** The field's update, run only when the requested value is non-empty. */
  function UpdateIfGiven(p: Profile, f: ProfileModel.TextField, v: Option<string>): Profile {
    if Truthy(v) then ProfileModel.UpdateField(p, f, v, false).row else p
  }

  /** The four guarded updates in the route's order. */
  function ApplyUpdate(p: Profile, req: ProfileUpdate): (r: Profile)
    ensures forall f :: ProfileModel.Get(r, f) == if Truthy(Requested(req, f)) then Requested(req, f) else ProfileModel.Get(p, f)
    ensures r.userId == p.userId && r.ageGroup == p.ageGroup
  {
    var p1 := UpdateIfGiven(p, ProfileModel.DisplayNameField, req.displayName);
    var p2 := UpdateIfGiven(p1, ProfileModel.BioField, req.bio);
    var p3 := UpdateIfGiven(p2, ProfileModel.AvatarUrlField, req.avatarUrl);
    UpdateIfGiven(p3, ProfileModel.BannerUrlField, req.bannerUrl)
  }

  /** The profile table with the first profile of `me` replaced. */
  function ReplaceOwned(ps: seq<Profile>, me: UserId, np: Profile): (r: seq<Profile>)
    ensures |r| == |ps|
  {
    if |ps| == 0 then []
    else if ps[0].userId == me then [np] + ps[1..]
    else [ps[0]] + ReplaceOwned(ps[1..], me, np)
  }

  /** After the replacement `me`'s profile is the new one and every other
      user's profile is the one it was. */
  lemma {:induction false} ReplaceOwnedFinds(db: Db, me: UserId, np: Profile, u: UserId)
    requires np.userId == me && ProfileOf(db, me).Some?
    ensures ProfileOf(db.(profiles := ReplaceOwned(db.profiles, me, np)), u) ==
      if u == me then Some(np) else ProfileOf(db, u)
    decreases |db.profiles|
  {
    var ps := db.profiles;
    if ps[0].userId != me {
      var tail := db.(profiles := ps[1..]);
      ReplaceOwnedFinds(tail, me, np, u);
    }
  }

  /** A profile that replaces itself leaves the table as it was. */
  lemma {:induction false} ReplaceOwnedSame(ps: seq<Profile>, me: UserId, np: Profile)
    requires FindFirst(ps, (p: Profile) => p.userId == me) == Some(np)
    ensures ReplaceOwned(ps, me, np) == ps
  {
    if ps[0].userId != me {
      ReplaceOwnedSame(ps[1..], me, np);
    }
  }

  datatype UpdateResponse = ProfileUpdated | UpdateUserMissing

  /** The profile an update starts from: the user's, or the one it creates
      (owner only, every other column null). */
  function StartingProfile(db: Db, me: UserId): Profile {
    ProfileOf(db, me).GetOr(Profile(me, None, None, None, None, None))
  }

  /** `PUT /api/profiles/me`: 404 when the requester's user row is missing;
      otherwise the profile (created first when missing) takes each of
      display name, bio, avatar and banner whose requested value is
      non-empty, and keeps the rest, the age group included. Only the
      requester's profile changes. */
  function UpdateProfile(db: Db, me: UserId, req: ProfileUpdate): (r: (Db, UpdateResponse))
    ensures r.1 == UpdateUserMissing <==> UserById(db, me).None?
    ensures r.1 == UpdateUserMissing ==> r.0 == db
    ensures r.1 == ProfileUpdated ==> r.0 == db.(profiles := r.0.profiles)
    ensures r.1 == ProfileUpdated ==> ProfileOf(db, me).None? ==> r.0.profiles == db.profiles + [ApplyUpdate(StartingProfile(db, me), req)]
    ensures r.1 == ProfileUpdated ==> ProfileOf(db, me).Some? ==> |r.0.profiles| == |db.profiles|
  {
    if UserById(db, me).None? then (db, UpdateUserMissing)
    else
      var np := ApplyUpdate(StartingProfile(db, me), req);
      if ProfileOf(db, me).None? then (db.(profiles := db.profiles + [np]), ProfileUpdated)
      else (db.(profiles := ReplaceOwned(db.profiles, me, np)), ProfileUpdated)
  }

  /** What an update leaves behind: the requester's profile holds each
      non-empty requested value, the old value (or null, for a new
      profile) elsewhere, the old age group; other users' profiles are
      untouched. */
  lemma UpdateProfileEffect(db: Db, me: UserId, req: ProfileUpdate, u: UserId)
    requires UpdateProfile(db, me, req).1 == ProfileUpdated
    ensures var db' := UpdateProfile(db, me, req).0;
      && ProfileOf(db', me).Some?
      && (forall f :: ProfileModel.Get(ProfileOf(db', me).value, f) ==
           if Truthy(Requested(req, f)) then Requested(req, f) else ProfileModel.Get(StartingProfile(db, me), f))
      && ProfileOf(db', me).value.ageGroup == (if ProfileOf(db, me).Some? then ProfileOf(db, me).value.ageGroup else None)
      && (u != me ==> ProfileOf(db', u) == ProfileOf(db, u))
  {
    var np := ApplyUpdate(StartingProfile(db, me), req);
    if ProfileOf(db, me).None? {
      FindFirstAppend(db.profiles, [np], (p: Profile) => p.userId == me);
      FindFirstAppend(db.profiles, [np], (p: Profile) => p.userId == u);
    } else {
      ReplaceOwnedFinds(db, me, np, me);
      ReplaceOwnedFinds(db, me, np, u);
    }
  }

  /** Sending the same update twice leaves what the first one left. */
  lemma UpdateProfileTwice(db: Db, me: UserId, req: ProfileUpdate)
    requires UpdateProfile(db, me, req).1 == ProfileUpdated
    ensures var db' := UpdateProfile(db, me, req).0;
      UpdateProfile(db', me, req) == (db', ProfileUpdated)
  {
    var db' := UpdateProfile(db, me, req).0;
    UpdateProfileEffect(db, me, req, me);
    var p' := ProfileOf(db', me).value;
    var again := ApplyUpdate(p', req);
    forall f ensures ProfileModel.Get(again, f) == ProfileModel.Get(p', f) {
    }
    ProfileModel.ProfileFields(again, p');
    ReplaceOwnedSame(db'.profiles, me, p');
  }

  /** An update followed by a view of the same user shows each non-empty
      requested display name and bio. */
  lemma UpdateThenView(db: Db, me: UserId, req: ProfileUpdate)
    requires UpdateProfile(db, me, req).1 == ProfileUpdated
    ensures var db' := UpdateProfile(db, me, req).0;
      var name := UserById(db, me).value.username;
      && GetProfile(db', name).Some?
      && (UserByName(db, name) == UserById(db, me) ==>
          && (Truthy(req.displayName) ==> GetProfile(db', name).value.displayName == req.displayName.value)
          && (Truthy(req.bio) ==> GetProfile(db', name).value.bio == req.bio.value))
  {
    var db' := UpdateProfile(db, me, req).0;
    UpdateProfileEffect(db, me, req, me);
    var name := UserById(db, me).value.username;
    assert UserByName(db, name).Some? by {
      var u := UserById(db, me).value;
      var i :| 0 <= i < |db.users| && db.users[i] == u;
    }
    assert ProfileModel.Get(ProfileOf(db', me).value, ProfileModel.DisplayNameField) == ProfileOf(db', me).value.displayName;
    assert ProfileModel.Get(ProfileOf(db', me).value, ProfileModel.BioField) == ProfileOf(db', me).value.bio;
  }
}

=== FILE: recommendations.dfy ===
/** The two recommendation queries, as the rows they select. `ORDER BY
    RAND()` is a rank function given as a parameter: every property below
    holds whatever ranks it draws. */
module Recommendations {
  import opened Common
  import opened Sorting
  import opened Schema
  import Follows

  /** Most users recommended at once. */
  const UserLimit: nat := 5
  /** Most locations recommended at once. */
  const LocationLimit: nat := 3

  /** A row of the user query: user columns and, through the left join,
      the profile's avatar and bio (null without a profile). */
  datatype RecommendedUser = RecommendedUser(
    userId: UserId,
    username: string,
    displayName: Option<string>,
    avatarUrl: Option<string>,
    bio: Option<string>)

  /** Neither the requester nor anyone the requester follows. */
  predicate Eligible(db: Db, me: UserId, u: User) {
    u.id != me && (me, u.id) !in db.follows
  }

  function Candidates(db: Db, me: UserId): (r: seq<User>)
    ensures forall k :: 0 <= k < |r| ==> Eligible(db, me, r[k]) && r[k] in db.users
    ensures forall i :: 0 <= i < |db.users| && Eligible(db, me, db.users[i]) ==> db.users[i] in r
  {
    Where(db.users, (u: User) => Eligible(db, me, u))
  }

  function UserRow(db: Db, u: User): RecommendedUser {
    var p := ProfileOf(db, u.id);
    RecommendedUser(u.id, u.username, u.displayName,
      if p.Some? then p.value.avatarUrl else None,
      if p.Some? then p.value.bio else None)
  }

  /** `GET /api/recommendations/users`: up to five eligible users in the
      order the ranks give; fewer only when fewer are eligible. Avatar and
      bio come from the user's profile, null when there is none. */
  function RecommendUsers(db: Db, me: UserId, rank: User -> int): (r: seq<RecommendedUser>)
    ensures |r| == if |Candidates(db, me)| < UserLimit then |Candidates(db, me)| else UserLimit
    ensures forall k :: 0 <= k < |r| ==>
      && r[k].userId != me
      && (me, r[k].userId) !in db.follows
      && exists i :: 0 <= i < |db.users| && db.users[i].id == r[k].userId
           && db.users[i].username == r[k].username && db.users[i].displayName == r[k].displayName
    ensures forall k :: 0 <= k < |r| ==>
      && (ProfileOf(db, r[k].userId).None? ==> r[k].avatarUrl.None? && r[k].bio.None?)
      && (ProfileOf(db, r[k].userId).Some? ==>
            r[k].avatarUrl == ProfileOf(db, r[k].userId).value.avatarUrl && r[k].bio == ProfileOf(db, r[k].userId).value.bio)
    ensures UserIdsUnique(db) ==> forall k, l :: 0 <= k < l < |r| ==> r[k].userId != r[l].userId
  {
    var picked := Picked(db, me, rank);
    PickedEligible(db, me, rank);
    PickedDistinct(db, me, rank);
    var r := UserRows(db, picked);
    UserRowsFacts(db, me, picked, r);
    r
  }

  /** One row per picked user, in order. */
  function UserRows(db: Db, picked: seq<User>): (r: seq<RecommendedUser>)
    ensures |r| == |picked| && forall k :: 0 <= k < |r| ==> r[k] == UserRow(db, picked[k])
  {
    seq(|picked|, k requires 0 <= k < |picked| => UserRow(db, picked[k]))
  }

  /** What the rows of eligible, distinct users say about them. */
  lemma UserRowsFacts(db: Db, me: UserId, picked: seq<User>, r: seq<RecommendedUser>)
    requires forall k :: 0 <= k < |picked| ==> picked[k] in db.users && Eligible(db, me, picked[k])
    requires UserIdsUnique(db) ==> forall k, l :: 0 <= k < l < |picked| ==> picked[k].id != picked[l].id
    requires |r| == |picked| && forall k :: 0 <= k < |r| ==> r[k] == UserRow(db, picked[k])
    ensures forall k :: 0 <= k < |r| ==>
      && r[k].userId != me
      && (me, r[k].userId) !in db.follows
      && exists i :: 0 <= i < |db.users| && db.users[i].id == r[k].userId
           && db.users[i].username == r[k].username && db.users[i].displayName == r[k].displayName
    ensures forall k :: 0 <= k < |r| ==>
      && (ProfileOf(db, r[k].userId).None? ==> r[k].avatarUrl.None? && r[k].bio.None?)
      && (ProfileOf(db, r[k].userId).Some? ==>
            r[k].avatarUrl == ProfileOf(db, r[k].userId).value.avatarUrl && r[k].bio == ProfileOf(db, r[k].userId).value.bio)
    ensures UserIdsUnique(db) ==> forall k, l :: 0 <= k < l < |r| ==> r[k].userId != r[l].userId
  {
    forall k | 0 <= k < |r|
      ensures exists i :: 0 <= i < |db.users| && db.users[i].id == r[k].userId && db.users[i].username == r[k].username && db.users[i].displayName == r[k].displayName
    {
      var i :| 0 <= i < |db.users| && db.users[i] == picked[k];
    }
  }

  /** The users ranked first, at most five. */
  function Picked(db: Db, me: UserId, rank: User -> int): seq<User> {
    Window(SortAsc(Candidates(db, me), rank), 0, UserLimit)
  }

  /** Every picked user is eligible, and as many are picked as the limit and
      the candidates allow. */
  lemma PickedEligible(db: Db, me: UserId, rank: User -> int)
    ensures var picked := Picked(db, me, rank);
      && |picked| == (if |Candidates(db, me)| < UserLimit then |Candidates(db, me)| else UserLimit)
      && (forall k :: 0 <= k < |picked| ==> picked[k] in db.users && Eligible(db, me, picked[k]))
      && forall u :: multiset(picked)[u] <= multiset(db.users)[u]
  {
    var c := Candidates(db, me);
    var picked := Picked(db, me, rank);
    WindowPrefixCounts(SortAsc(c, rank), UserLimit);
    WhereCount(db.users, (u: User) => Eligible(db, me, u));
    forall k | 0 <= k < |picked| ensures picked[k] in c {
      SameElements(SortAsc(c, rank), c, picked[k]);
    }
  }

  /** With one row per user id, no user is picked twice. */
  lemma PickedDistinct(db: Db, me: UserId, rank: User -> int)
    ensures var picked := Picked(db, me, rank);
      UserIdsUnique(db) ==> forall k, l :: 0 <= k < l < |picked| ==> picked[k].id != picked[l].id
  {
    if UserIdsUnique(db) {
      PickedEligible(db, me, rank);
      KeysStayDistinct(Picked(db, me, rank), db.users, (u: User) => u.id);
    }
  }

  /** Entries occurring no more often than in a list with distinct keys
      have distinct keys too. */
  lemma KeysStayDistinct<T, K>(a: seq<T>, b: seq<T>, key: T -> K)
    requires forall x :: multiset(a)[x] <= multiset(b)[x]
    requires forall i, j :: 0 <= i < j < |b| ==> key(b[i]) != key(b[j])
    ensures forall k, l :: 0 <= k < l < |a| ==> key(a[k]) != key(a[l])
  {
    assert Distinct(b);
    assert multiset(a) <= multiset(b);
    CountsBelowDistinct(a, b);
    forall k, l | 0 <= k < l < |a| ensures key(a[k]) != key(a[l]) {
      assert a[k] in multiset(b) && a[l] in multiset(b);
      var i :| 0 <= i < |b| && b[i] == a[k];
      var j :| 0 <= j < |b| && b[j] == a[l];
      assert i != j;
    }
  }

  /** Whatever the ranks, when at most five users are eligible every one of
      them is recommended. */
  lemma FewCandidatesAllShown(db: Db, me: UserId, rank: User -> int, u: User)
    requires |Candidates(db, me)| <= UserLimit
    requires u in db.users && Eligible(db, me, u)
    ensures exists k :: 0 <= k < |RecommendUsers(db, me, rank)| && RecommendUsers(db, me, rank)[k] == UserRow(db, u)
  {
    var c := Candidates(db, me);
    var sorted := SortAsc(c, rank);
    var picked := Window(sorted, 0, UserLimit);
    assert u in c;
    SameElements(sorted, c, u);
    var k :| 0 <= k < |sorted| && sorted[k] == u;
    assert picked[k] == u;
    assert RecommendUsers(db, me, rank)[k] == UserRow(db, u);
  }

  /** A user just followed is never recommended, whatever the ranks. */
  lemma FollowedNotRecommended(db: Db, me: UserId, target: UserId, rank: User -> int)
    requires Follows.ToggleFollow(db, me, target).1 == Follows.Followed
    ensures var r := RecommendUsers(Follows.ToggleFollow(db, me, target).0, me, rank);
      forall k :: 0 <= k < |r| ==> r[k].userId != target
  {
  }

  /** A row of the location query. */
  datatype Location = Location(locationName: string, postCount: int, thumbnail: Option<string>)

  function PostCountKey(l: Location): int {
    l.postCount
  }

  /** The route point takes part in the query: it has a name and a post
      row to join. */
  predicate Joined(db: Db, rp: RoutePoint) {
    rp.locationName.Some? && PostExists(db, rp.postId)
  }

  /** Some joined route point carries the name. */
  predicate NameJoined(db: Db, name: string) {
    exists k :: 0 <= k < |db.routePoints| && Joined(db, db.routePoints[k]) && db.routePoints[k].locationName == Some(name)
  }

  /** The distinct names of the joined route points, in table order. */
  function NamesOf(db: Db, pts: seq<RoutePoint>): (r: seq<string>)
    ensures Distinct(r)
    ensures forall n :: n in r <==> exists k :: 0 <= k < |pts| && Joined(db, pts[k]) && pts[k].locationName == Some(n)
  {
    if |pts| == 0 then []
    else
      var rest := NamesOf(db, pts[1..]);
      assert forall k :: 1 <= k < |pts| ==> pts[k] == pts[1..][k - 1];
      assert forall k :: 0 <= k < |pts[1..]| ==> pts[1..][k] == pts[k + 1];
      if Joined(db, pts[0]) && pts[0].locationName.value !in rest then
        var r := [pts[0].locationName.value] + rest;
        assert forall k :: 1 <= k < |r| ==> r[k] == rest[k - 1];
        r
      else rest
  }

  /** The joined rows one route point yields: one per post row with its id,
      times one per image of that post, or once when it has none (the left
      join). */
  function JoinedRows(db: Db, rp: RoutePoint): (n: nat)
    ensures n > 0 <==> PostExists(db, rp.postId)
  {
    var posts := Where(db.posts, (p: Post) => p.id == rp.postId);
    var images := |Where(db.images, (i: PostImage) => i.postId == rp.postId)|;
    assert PostExists(db, rp.postId) <==> |posts| > 0 by {
      if PostExists(db, rp.postId) {
        var i :| 0 <= i < |db.posts| && db.posts[i].id == rp.postId;
        assert db.posts[i] in posts;
      }
      if |posts| > 0 {
        assert posts[0] in db.posts && posts[0].id == rp.postId;
      }
    }
    var perPost: nat := if images == 0 then 1 else images;
    PositiveProduct(|posts|, perPost);
    |posts| * perPost
  }

  lemma PositiveProduct(a: nat, b: nat)
    requires b > 0
    ensures a * b > 0 <==> a > 0
  {
    if a > 0 {
      assert a * b >= b by {
        assert a * b == (a - 1) * b + b;
      }
    }
  }

  /** `COUNT(rp.id)` of a name as written: the joined rows of its points. */
  function CountAsWritten(db: Db, pts: seq<RoutePoint>, name: string): nat {
    if |pts| == 0 then 0
    else (if pts[0].locationName == Some(name) then JoinedRows(db, pts[0]) else 0) + CountAsWritten(db, pts[1..], name)
  }

  /** The posts a name's joined route points belong to. */
  function PostsNamed(db: Db, name: string): set<PostId> {
    set k | 0 <= k < |db.routePoints| && Joined(db, db.routePoints[k]) && db.routePoints[k].locationName == Some(name)
      :: db.routePoints[k].postId
  }

  /** The count of a name as the client labels it ("N posts"): each post
      with a joined route point of that name counted once. */
  function CountPosts(db: Db, name: string): (n: nat)
    ensures n > 0 <==> NameJoined(db, name)
  {
    PostsNamedWitness(db, name);
    |PostsNamed(db, name)|
  }

  /** A joined route point of the name puts its post in the set. */
  lemma PostsNamedWitness(db: Db, name: string)
    ensures NameJoined(db, name) ==> PostsNamed(db, name) != {}
  {
    if NameJoined(db, name) {
      var k :| 0 <= k < |db.routePoints| && Joined(db, db.routePoints[k]) && db.routePoints[k].locationName == Some(name);
      assert db.routePoints[k].postId in PostsNamed(db, name);
    }
  }

  /** The count the query keeps for a name: as written, or each post once. */
  function GroupCount(db: Db, name: string, counted: bool): (c: nat)
    ensures counted ==> c == |PostsNamed(db, name)|
  {
    if counted then CountPosts(db, name) else CountAsWritten(db, db.routePoints, name)
  }

  /** The corrected count does not depend on the images of the posts. */
  lemma CountPostsIgnoresImages(db: Db, name: string, images: seq<PostImage>)
    ensures CountPosts(db.(images := images), name) == CountPosts(db, name)
  {
    assert PostsNamed(db.(images := images), name) == PostsNamed(db, name);
  }

  /** The count as written does depend on them: one post with two images and
      one named route point counts twice, and once without the images. */
  lemma CountAsWrittenDependsOnImages()
    ensures var post := Post(1, 1, "", None, None, None, None, None, None, None, None, false, 0);
      var point := RoutePoint(1, 0, 0, 0, Some("Kyoto"), None, None);
      var db := Db([], [], [post], [], [point], [], [], {}, [], {}, {}, []);
      var withImages := db.(images := [PostImage(1, "a.jpg", 0, None), PostImage(1, "b.jpg", 1, None)]);
      && CountAsWritten(db, db.routePoints, "Kyoto") == 1
      && CountAsWritten(withImages, withImages.routePoints, "Kyoto") == 2
      && CountPosts(withImages, "Kyoto") == 1
  {
    var post := Post(1, 1, "", None, None, None, None, None, None, None, None, false, 0);
    var point := RoutePoint(1, 0, 0, 0, Some("Kyoto"), None, None);
    var db := Db([], [], [post], [], [point], [], [], {}, [], {}, {}, []);
    var withImages := db.(images := [PostImage(1, "a.jpg", 0, None), PostImage(1, "b.jpg", 1, None)]);
    assert PostExists(db, 1) by { assert db.posts[0].id == 1; }
    assert Where(db.posts, (p: Post) => p.id == 1) == [post];
    assert Where(db.images, (i: PostImage) => i.postId == 1) == [];
    assert Where(withImages.images, (i: PostImage) => i.postId == 1) == withImages.images by {
      WhereAll(withImages.images, (i: PostImage) => i.postId == 1);
    }
    assert withImages.routePoints[1..] == [];
    assert PostsNamed(withImages, "Kyoto") == {1} by {
      assert Joined(withImages, withImages.routePoints[0]);
    }
  }

  /** It also counts route points, not posts: one post with two points of
      the same name and no images counts twice, where it is one post. */
  lemma CountAsWrittenRepeatsPosts()
    ensures var post := Post(1, 1, "", None, None, None, None, None, None, None, None, false, 0);
      var db := Db([], [], [post], [], [RoutePoint(1, 0, 0, 0, Some("Kyoto"), None, None), RoutePoint(1, 1, 0, 0, Some("Kyoto"), None, None)], [], [], {}, [], {}, {}, []);
      && CountAsWritten(db, db.routePoints, "Kyoto") == 2
      && CountPosts(db, "Kyoto") == 1
  {
    var post := Post(1, 1, "", None, None, None, None, None, None, None, None, false, 0);
    var db := Db([], [], [post], [], [RoutePoint(1, 0, 0, 0, Some("Kyoto"), None, None), RoutePoint(1, 1, 0, 0, Some("Kyoto"), None, None)], [], [], {}, [], {}, {}, []);
    assert PostExists(db, 1) by { assert db.posts[0].id == 1; }
    assert Where(db.posts, (p: Post) => p.id == 1) == [post];
    assert Where(db.images, (i: PostImage) => i.postId == 1) == [];
    assert db.routePoints[1..][1..] == [];
    assert JoinedRows(db, db.routePoints[0]) == 1 && JoinedRows(db, db.routePoints[1]) == 1;
    assert CountAsWritten(db, db.routePoints[1..], "Kyoto") == 1;
    assert PostsNamed(db, "Kyoto") == {1} by {
      assert Joined(db, db.routePoints[0]);
    }
  }

  /** Code-point order on strings, the order `MIN` takes. */
  predicate StrLeq(a: string, b: string) {
    if |a| == 0 then true
    else if |b| == 0 then false
    else if a[0] != b[0] then a[0] < b[0]
    else StrLeq(a[1..], b[1..])
  }

  lemma {:induction false} StrLeqRefl(a: string)
    ensures StrLeq(a, a)
  {
    if |a| > 0 {
      StrLeqRefl(a[1..]);
    }
  }

  lemma {:induction false} StrLeqTotal(a: string, b: string)
    ensures StrLeq(a, b) || StrLeq(b, a)
  {
    if |a| > 0 && |b| > 0 && a[0] == b[0] {
      StrLeqTotal(a[1..], b[1..]);
    }
  }

  lemma {:induction false} StrLeqTrans(a: string, b: string, c: string)
    requires StrLeq(a, b) && StrLeq(b, c)
    ensures StrLeq(a, c)
  {
    if |a| > 0 && |b| > 0 && |c| > 0 && a[0] == b[0] && b[0] == c[0] {
      StrLeqTrans(a[1..], b[1..], c[1..]);
    }
  }

  /** `MIN` over a column of strings: null for no rows. */
  function MinString(s: seq<string>): (r: Option<string>)
    ensures r.None? <==> |s| == 0
    ensures r.Some? ==> r.value in s && forall i :: 0 <= i < |s| ==> StrLeq(r.value, s[i])
  {
    if |s| == 0 then None
    else
      var m := MinString(s[1..]);
      assert forall i :: 1 <= i < |s| ==> s[i] == s[1..][i - 1];
      StrLeqRefl(s[0]);
      if m.None? then Some(s[0])
      else if StrLeq(s[0], m.value) then
        forall i | 1 <= i < |s| ensures StrLeq(s[0], s[i]) {
          StrLeqTrans(s[0], m.value, s[i]);
        }
        Some(s[0])
      else
        StrLeqTotal(s[0], m.value);
        m
  }

  /** The image joins a route point of the name. */
  predicate InGroup(db: Db, name: string, img: PostImage) {
    exists k :: 0 <= k < |db.routePoints| && Joined(db, db.routePoints[k])
      && db.routePoints[k].locationName == Some(name) && db.routePoints[k].postId == img.postId
  }

  /** The image URLs a name's joined rows carry. */
  function GroupImages(db: Db, name: string): (r: seq<string>)
    ensures forall u :: u in r <==> exists i :: 0 <= i < |db.images| && db.images[i].imageUrl == u && InGroup(db, name, db.images[i])
  {
    var w := Where(db.images, (img: PostImage) => InGroup(db, name, img));
    GroupUrlsSound(db, name, w);
    GroupUrlsComplete(db, name, w);
    Urls(w)
  }

  /** The URLs of a list of image rows, in order. */
  function Urls(w: seq<PostImage>): seq<string> {
    seq(|w|, i requires 0 <= i < |w| => w[i].imageUrl)
  }

  lemma GroupUrlsSound(db: Db, name: string, w: seq<PostImage>)
    requires forall k :: 0 <= k < |w| ==> InGroup(db, name, w[k]) && w[k] in db.images
    ensures forall u :: u in Urls(w) ==> exists i :: 0 <= i < |db.images| && db.images[i].imageUrl == u && InGroup(db, name, db.images[i])
  {
    var r := Urls(w);
    forall u | u in r ensures exists i :: 0 <= i < |db.images| && db.images[i].imageUrl == u && InGroup(db, name, db.images[i]) {
      var j :| 0 <= j < |r| && r[j] == u;
      var i :| 0 <= i < |db.images| && db.images[i] == w[j];
    }
  }

  lemma GroupUrlsComplete(db: Db, name: string, w: seq<PostImage>)
    requires forall i :: 0 <= i < |db.images| && InGroup(db, name, db.images[i]) ==> db.images[i] in w
    ensures forall u :: (exists i :: 0 <= i < |db.images| && db.images[i].imageUrl == u && InGroup(db, name, db.images[i])) ==> u in Urls(w)
  {
    var r := Urls(w);
    forall u | exists i :: 0 <= i < |db.images| && db.images[i].imageUrl == u && InGroup(db, name, db.images[i])
      ensures u in r {
      var i :| 0 <= i < |db.images| && db.images[i].imageUrl == u && InGroup(db, name, db.images[i]);
      var j :| 0 <= j < |w| && w[j] == db.images[i];
      assert r[j] == u;
    }
  }

  /** The first `lim` elements of a list are in its window. */
  lemma WindowPrefix<T>(s: seq<T>, lim: nat, k: int)
    requires 0 <= k < |s|
    ensures k < lim ==> s[k] in Window(s, 0, lim)
  {
    if k < lim {
      assert Window(s, 0, lim)[k] == s[k];
    }
  }

  /** The top three of the groups by count, stable on ties. */
  function TopLocations(rows: seq<Location>): (r: seq<Location>)
    ensures |r| <= LocationLimit
    ensures SortedDesc(r, PostCountKey)
    ensures forall k :: 0 <= k < |r| ==> r[k] in rows
    ensures Distinct(rows) ==> Distinct(r)
    ensures forall x :: x in rows && x !in r ==>
      |r| == LocationLimit && x.postCount <= r[LocationLimit - 1].postCount
  {
    var sorted := SortDesc(rows, PostCountKey);
    var r := Window(sorted, 0, LocationLimit);
    forall k | 0 <= k < |r| ensures r[k] in rows {
      SameElements(sorted, rows, r[k]);
    }
    DistinctPermutation(rows, sorted);
    forall x | x in rows && x !in r ensures |r| == LocationLimit && x.postCount <= r[LocationLimit - 1].postCount {
      SameElements(sorted, rows, x);
      var k :| 0 <= k < |sorted| && sorted[k] == x;
      WindowPrefix(sorted, LocationLimit, k);
      assert k >= LocationLimit;
      assert sorted[LocationLimit - 1] == r[LocationLimit - 1];
    }
    r
  }

  /** The row of one name: its count (as written, or each post once) and
      the least image URL. */
  function GroupRow(db: Db, name: string, counted: bool): Location {
    Location(name, GroupCount(db, name, counted), MinString(GroupImages(db, name)))
  }

  /** One row per name. */
  function Groups(db: Db, names: seq<string>, counted: bool): (r: seq<Location>)
    ensures |r| == |names|
    ensures forall k :: 0 <= k < |r| ==> r[k] == GroupRow(db, names[k], counted)
    ensures forall x :: x in r ==> x == GroupRow(db, x.locationName, counted) && x.locationName in names
    ensures Distinct(names) ==> Distinct(r)
  {
    seq(|names|, k requires 0 <= k < |names| => GroupRow(db, names[k], counted))
  }

  /** Rows of distinct names that are each their name's row differ in name. */
  lemma NamesDiffer(db: Db, r: seq<Location>, counted: bool)
    requires Distinct(r)
    requires forall k :: 0 <= k < |r| ==> r[k] == GroupRow(db, r[k].locationName, counted)
    ensures forall i, j :: 0 <= i < j < |r| ==> r[i].locationName != r[j].locationName
  {
  }

  /** The three largest groups under either count, the least image URL as
      each thumbnail; any name left out counts no more than the third row. */
  function TopGroups(db: Db, counted: bool): (r: seq<Location>)
    ensures |r| <= LocationLimit
    ensures SortedDesc(r, PostCountKey)
    ensures forall i, j :: 0 <= i < j < |r| ==> r[i].locationName != r[j].locationName
    ensures forall k :: 0 <= k < |r| ==>
      && NameJoined(db, r[k].locationName)
      && r[k].postCount == GroupCount(db, r[k].locationName, counted)
      && r[k].thumbnail == MinString(GroupImages(db, r[k].locationName))
    ensures forall n :: NameJoined(db, n) ==>
      (exists k :: 0 <= k < |r| && r[k].locationName == n)
      || (|r| == LocationLimit && GroupCount(db, n, counted) <= r[LocationLimit - 1].postCount)
  {
    var names := NamesOf(db, db.routePoints);
    var rows := Groups(db, names, counted);
    var r := TopLocations(rows);
    NamesDiffer(db, r, counted);
    LocationsJoined(db, names, rows, r, counted);
    LocationsCovered(db, names, rows, r, counted);
    r
  }

  /** `GET /api/recommendations/locations` as written: the joined route
      points with a name, grouped by name, the three largest `COUNT(rp.id)`
      first, each with the least image URL as thumbnail; any name left out
      counts no more than the third row. */
  function RecommendLocationsAsWritten(db: Db): (r: seq<Location>)
    ensures |r| <= LocationLimit
    ensures SortedDesc(r, PostCountKey)
    ensures forall i, j :: 0 <= i < j < |r| ==> r[i].locationName != r[j].locationName
    ensures forall k :: 0 <= k < |r| ==>
      && NameJoined(db, r[k].locationName)
      && r[k].postCount == CountAsWritten(db, db.routePoints, r[k].locationName)
      && r[k].thumbnail == MinString(GroupImages(db, r[k].locationName))
    ensures forall n :: NameJoined(db, n) ==>
      (exists k :: 0 <= k < |r| && r[k].locationName == n)
      || (|r| == LocationLimit && CountAsWritten(db, db.routePoints, n) <= r[LocationLimit - 1].postCount)
  {
    TopGroups(db, false)
  }

  /** The location recommendation as the client presents it: the count of a
      name is the number of posts with a route point of that name, however
      many points and images each has. One row per joined name; any name
      left out counts no more than the third row. */
  function RecommendLocations(db: Db): (r: seq<Location>)
    ensures |r| <= LocationLimit
    ensures SortedDesc(r, PostCountKey)
    ensures forall i, j :: 0 <= i < j < |r| ==> r[i].locationName != r[j].locationName
    ensures forall k :: 0 <= k < |r| ==>
      && NameJoined(db, r[k].locationName)
      && r[k].postCount == |PostsNamed(db, r[k].locationName)|
      && r[k].thumbnail == MinString(GroupImages(db, r[k].locationName))
    ensures forall n :: NameJoined(db, n) ==>
      (exists k :: 0 <= k < |r| && r[k].locationName == n)
      || (|r| == LocationLimit && |PostsNamed(db, n)| <= r[LocationLimit - 1].postCount)
  {
    TopGroups(db, true)
  }

  /** Each recommended name is the name of a joined route point. */
  lemma LocationsJoined(db: Db, names: seq<string>, rows: seq<Location>, r: seq<Location>, counted: bool)
    requires names == NamesOf(db, db.routePoints) && rows == Groups(db, names, counted)
    requires forall k :: 0 <= k < |r| ==> r[k] in rows
    ensures forall k :: 0 <= k < |r| ==>
      && NameJoined(db, r[k].locationName)
      && r[k].postCount == GroupCount(db, r[k].locationName, counted)
      && r[k].thumbnail == MinString(GroupImages(db, r[k].locationName))
  {
    forall k | 0 <= k < |r| ensures NameJoined(db, r[k].locationName) {
      assert r[k].locationName in names;
    }
  }

  /** Every joined name is recommended or outranked by all three rows. */
  lemma LocationsCovered(db: Db, names: seq<string>, rows: seq<Location>, r: seq<Location>, counted: bool)
    requires names == NamesOf(db, db.routePoints) && rows == Groups(db, names, counted)
    requires |r| <= LocationLimit
    requires forall x :: x in rows && x !in r ==> |r| == LocationLimit && x.postCount <= r[LocationLimit - 1].postCount
    ensures forall n :: NameJoined(db, n) ==>
      (exists k :: 0 <= k < |r| && r[k].locationName == n)
      || (|r| == LocationLimit && GroupCount(db, n, counted) <= r[LocationLimit - 1].postCount)
  {
    forall n | NameJoined(db, n)
      ensures (exists k :: 0 <= k < |r| && r[k].locationName == n)
        || (|r| == LocationLimit && GroupCount(db, n, counted) <= r[LocationLimit - 1].postCount) {
      assert n in names;
      var j :| 0 <= j < |names| && names[j] == n;
      assert rows[j] in rows && rows[j].locationName == n;
    }
  }
}

=== FILE: schema.dfy ===
/** The relational store as an immutable value: one record type per table
    and a `Db` holding every table. Tables whose rows carry their own data are
    sequences in insertion order; pure pair tables (follow edges, likes, post
    tags) are sets of pairs. */
module Schema {
  import opened Common

  /** The `age_group` enumeration of the profile table. */
  datatype AgeGroup = Teen | Twenties | Thirties | Forties | Fifties | SixtyPlus

  /** The stored spelling of an age group. */
  function AgeGroupName(g: AgeGroup): string {
    match g
    case Teen => "teen"
    case Twenties => "20s"
    case Thirties => "30s"
    case Forties => "40s"
    case Fifties => "50s"
    case SixtyPlus => "60plus"
  }

  /** Reads a spelling back: only the six enumeration values are accepted. */
  function ParseAgeGroup(s: string): (r: Option<AgeGroup>)
    ensures r.Some? ==> AgeGroupName(r.value) == s
    ensures r.None? ==> forall g: AgeGroup :: AgeGroupName(g) != s
  {
    if s == "teen" then Some(Teen)
    else if s == "20s" then Some(Twenties)
    else if s == "30s" then Some(Thirties)
    else if s == "40s" then Some(Forties)
    else if s == "50s" then Some(Fifties)
    else if s == "60plus" then Some(SixtyPlus)
    else None
  }

  /** A stored credential. `Plain` is a password as assigned to the model,
      `Digest` what the bcrypt hook turns it into; the hash is one-way, so
      the model keeps only which text and which salt went in. */
  datatype Secret = Plain(text: string) | Digest(text: string, salt: string)

  /** `bcrypt.compare(input, stored)`: true exactly for the hashed text. */
  predicate PasswordMatches(input: string, stored: Secret) {
    stored.Digest? && stored.text == input
  }

  datatype User = User(
    id: UserId,
    username: string,
    password: Secret,
    displayName: Option<string>,
    isActive: bool,
    isVerified: bool)

  datatype Profile = Profile(
    userId: UserId,
    displayName: Option<string>,
    bio: Option<string>,
    avatarUrl: Option<string>,
    bannerUrl: Option<string>,
    ageGroup: Option<AgeGroup>)

  /** A post row. Coordinates are opaque values; only their truthiness is
      ever inspected. */
  datatype Post = Post(
    id: PostId,
    userId: UserId,
    content: string,
    locationName: Option<string>,
    startLocation: Option<string>,
    endLocation: Option<string>,
    transportMode: Option<string>,
    routeSummary: Option<string>,
    latitude: Option<int>,
    longitude: Option<int>,
    originalLanguage: Option<string>,
    isDeleted: bool,
    createdAt: int)

  datatype PostImage = PostImage(postId: PostId, imageUrl: string, sortOrder: int, description: Option<string>)

  datatype RoutePoint = RoutePoint(
    postId: PostId,
    orderIndex: int,
    lat: int,
    lon: int,
    locationName: Option<string>,
    description: Option<string>,
    transportToNext: Option<string>)

  /** The trip record; its two list columns hold JSON arrays of strings,
      modelled as the lists themselves. */
  datatype TripData = TripData(
    postId: PostId,
    totalBudget: Option<int>,
    budgetFood: Option<int>,
    budgetAccommodation: Option<int>,
    budgetTransport: Option<int>,
    accommodationNames: seq<string>,
    transportMethods: seq<string>)

  datatype Tag = Tag(id: TagId, name: string)

  datatype Comment = Comment(userId: UserId, postId: PostId, content: string, createdAt: int)

  datatype Mimic = Mimic(userId: UserId, postId: PostId, notes: Option<string>, createdAt: int)

  datatype Db = Db(
    users: seq<User>,
    profiles: seq<Profile>,
    posts: seq<Post>,
    images: seq<PostImage>,
    routePoints: seq<RoutePoint>,
    tripData: seq<TripData>,
    tags: seq<Tag>,
    postTags: set<(PostId, TagId)>,
    comments: seq<Comment>,
    likes: set<(UserId, PostId)>,
    follows: set<(UserId, UserId)>,
    mimics: seq<Mimic>)

  /** `findOne`: the first row satisfying `p`, if any. */
  function FindFirst<T>(s: seq<T>, p: T -> bool): (r: Option<T>)
    ensures r.Some? ==> r.value in s && p(r.value)
    ensures r.None? <==> forall i :: 0 <= i < |s| ==> !p(s[i])
  {
    if |s| == 0 then None
    else if p(s[0]) then Some(s[0])
    else FindFirst(s[1..], p)
  }

  /** Rows appended to a table do not change which row `findOne` finds when
      one of the old rows already matches; otherwise the search continues
      into the new rows. */
  lemma {:induction false} FindFirstAppend<T>(a: seq<T>, b: seq<T>, p: T -> bool)
    ensures FindFirst(a + b, p) == if FindFirst(a, p).Some? then FindFirst(a, p) else FindFirst(b, p)
  {
    if |a| > 0 {
      assert (a + b)[0] == a[0];
      assert (a + b)[1..] == a[1..] + b;
      FindFirstAppend(a[1..], b, p);
    } else {
      assert a + b == b;
    }
  }

  /** An update applied to every row satisfying `p`, keeping `p` true,
      applies to the row `findOne` finds and to nothing it skips. */
  lemma {:induction false} FindFirstUpdated<T>(a: seq<T>, b: seq<T>, p: T -> bool, f: T -> T)
    requires |a| == |b|
    requires forall i :: 0 <= i < |a| ==> b[i] == if p(a[i]) then f(a[i]) else a[i]
    requires forall i :: 0 <= i < |a| && p(a[i]) ==> p(f(a[i]))
    ensures FindFirst(b, p) == if FindFirst(a, p).Some? then Some(f(FindFirst(a, p).value)) else None
  {
    if |a| > 0 {
      FindFirstUpdated(a[1..], b[1..], p, f);
    }
  }

  /** Rewriting every row with a map under which `p` holds of the new row
      exactly when it held of the old one moves nothing `findOne` sees: it
      finds the rewritten form of the row it found before. */
  lemma {:induction false} FindFirstMapped<T>(a: seq<T>, b: seq<T>, p: T -> bool, f: T -> T)
    requires |a| == |b|
    requires forall i :: 0 <= i < |a| ==> b[i] == f(a[i])
    requires forall i :: 0 <= i < |a| ==> (p(f(a[i])) <==> p(a[i]))
    ensures FindFirst(a, p).Some? ==> FindFirst(b, p) == Some(f(FindFirst(a, p).value))
    ensures FindFirst(a, p).None? ==> FindFirst(b, p).None?
  {
    if |a| > 0 {
      FindFirstMapped(a[1..], b[1..], p, f);
    }
  }

  /** `findAll({ where })`: the rows satisfying `p`, in table order. */
  function Where<T>(s: seq<T>, p: T -> bool): (r: seq<T>)
    ensures |r| <= |s|
    ensures forall k :: 0 <= k < |r| ==> p(r[k]) && r[k] in s
    ensures forall i :: 0 <= i < |s| && p(s[i]) ==> s[i] in r
  {
    if |s| == 0 then []
    else if p(s[0]) then [s[0]] + Where(s[1..], p)
    else Where(s[1..], p)
  }

  /** The filter keeps each row as often as the table holds it, and drops
      every row failing the condition. */
  lemma {:induction false} WhereCount<T>(s: seq<T>, p: T -> bool)
    ensures forall x :: multiset(Where(s, p))[x] == if p(x) then multiset(s)[x] else 0
  {
    if |s| > 0 {
      WhereCount(s[1..], p);
      assert s == [s[0]] + s[1..];
      assert multiset(s) == multiset{s[0]} + multiset(s[1..]);
      if p(s[0]) {
        assert multiset(Where(s, p)) == multiset{s[0]} + multiset(Where(s[1..], p));
      }
    }
  }

  /** Rows appended after the filter of a table are filtered on their own. */
  lemma {:induction false} WhereAppend<T>(a: seq<T>, b: seq<T>, p: T -> bool)
    ensures Where(a + b, p) == Where(a, p) + Where(b, p)
  {
    if |a| > 0 {
      WhereAppend(a[1..], b, p);
      assert (a + b)[0] == a[0] && (a + b)[1..] == a[1..] + b;
      if p(a[0]) {
        assert Where(a + b, p) == [a[0]] + (Where(a[1..], p) + Where(b, p));
      } else {
        assert Where(a + b, p) == Where(a[1..], p) + Where(b, p);
      }
    } else {
      assert a + b == b;
    }
  }

  /** A filter that no row satisfies is empty; one that every row satisfies
      keeps the table. */
  lemma {:induction false} WhereAll<T>(s: seq<T>, p: T -> bool)
    requires forall i :: 0 <= i < |s| ==> p(s[i])
    ensures Where(s, p) == s
  {
    if |s| > 0 {
      WhereAll(s[1..], p);
      assert s == [s[0]] + s[1..];
    }
  }

  lemma {:induction false} WhereNone<T>(s: seq<T>, p: T -> bool)
    requires forall i :: 0 <= i < |s| ==> !p(s[i])
    ensures Where(s, p) == []
  {
    if |s| > 0 {
      WhereNone(s[1..], p);
    }
  }

  function UserById(db: Db, id: UserId): Option<User> {
    FindFirst(db.users, (u: User) => u.id == id)
  }

  function UserByName(db: Db, name: string): Option<User> {
    FindFirst(db.users, (u: User) => u.username == name)
  }

  function PostById(db: Db, id: PostId): Option<Post> {
    FindFirst(db.posts, (p: Post) => p.id == id)
  }

  /** `user.profile` of the one-to-one association. */
  function ProfileOf(db: Db, id: UserId): Option<Profile> {
    FindFirst(db.profiles, (p: Profile) => p.userId == id)
  }

  function TagByName(db: Db, name: string): Option<Tag> {
    FindFirst(db.tags, (t: Tag) => t.name == name)
  }

  predicate UserExists(db: Db, id: UserId) {
    exists i :: 0 <= i < |db.users| && db.users[i].id == id
  }

  predicate PostExists(db: Db, id: PostId) {
    exists i :: 0 <= i < |db.posts| && db.posts[i].id == id
  }

  /** One more than the largest id in `ids` (at least 1): the id the next
      auto-increment insert receives. */
  function NextId(ids: seq<int>): (r: int)
    ensures r >= 1
    ensures forall i :: 0 <= i < |ids| ==> ids[i] < r
  {
    if |ids| == 0 then 1
    else
      var rest := NextId(ids[1..]);
      assert forall i :: 1 <= i < |ids| ==> ids[i] == ids[1..][i - 1];
      if ids[0] + 1 > rest then ids[0] + 1 else rest
  }

  function NextPostId(db: Db): (r: PostId)
    ensures forall i :: 0 <= i < |db.posts| ==> db.posts[i].id < r
  {
    var ids := seq(|db.posts|, i requires 0 <= i < |db.posts| => db.posts[i].id);
    assert forall i :: 0 <= i < |db.posts| ==> ids[i] == db.posts[i].id;
    NextId(ids)
  }

  function NextTagId(db: Db): (r: TagId)
    ensures forall i :: 0 <= i < |db.tags| ==> db.tags[i].id < r
  {
    var ids := seq(|db.tags|, i requires 0 <= i < |db.tags| => db.tags[i].id);
    assert forall i :: 0 <= i < |db.tags| ==> ids[i] == db.tags[i].id;
    NextId(ids)
  }

  /** No two tag rows share a name (the unique index on `tag.name`). */
  ghost predicate TagNamesUnique(db: Db) {
    forall i, j :: 0 <= i < j < |db.tags| ==> db.tags[i].name != db.tags[j].name
  }

  /** No two tag rows share an id. */
  ghost predicate TagIdsUnique(db: Db) {
    forall i, j :: 0 <= i < j < |db.tags| ==> db.tags[i].id != db.tags[j].id
  }

  /** No two user rows share an id (the primary key). */
  ghost predicate UserIdsUnique(db: Db) {
    forall i, j :: 0 <= i < j < |db.users| ==> db.users[i].id != db.users[j].id
  }

  /** No two post rows share an id. */
  ghost predicate PostIdsUnique(db: Db) {
    forall i, j :: 0 <= i < j < |db.posts| ==> db.posts[i].id != db.posts[j].id
  }

  /** Every child row of a post names an existing post (the foreign keys the
      associations declare). */
  ghost predicate ChildrenReferencePosts(db: Db) {
    && (forall k :: 0 <= k < |db.images| ==> PostExists(db, db.images[k].postId))
    && (forall k :: 0 <= k < |db.routePoints| ==> PostExists(db, db.routePoints[k].postId))
    && (forall k :: 0 <= k < |db.tripData| ==> PostExists(db, db.tripData[k].postId))
    && (forall pt :: pt in db.postTags ==> PostExists(db, pt.0))
  }

  /** The invariants post creation relies on and keeps. */
  ghost predicate WellFormed(db: Db) {
    && PostIdsUnique(db)
    && TagIdsUnique(db)
    && TagNamesUnique(db)
    && ChildrenReferencePosts(db)
  }

  /** The outcome of an instance method that assigns fields and then calls
      `save()`: the in-memory instance (already assigned, whether or not the
      save went through), the row the table now holds, and the returned
      flag. */
  datatype SaveResult<T> = SaveResult(instance: T, row: T, ok: bool)
}

=== FILE: sorting.dfy ===
/** Ordering of query results by an integer column (`ORDER BY col DESC` /
    `ASC`). SQL leaves the order of equal keys open; the model fixes it as
    table order (a stable insertion sort). */
module Sorting {

  /** Keys never increase along `s`. */
  ghost predicate SortedDesc<T>(s: seq<T>, key: T -> int) {
    forall i, j :: 0 <= i < j < |s| ==> key(s[i]) >= key(s[j])
  }

  /** Keys never decrease along `s`. */
  ghost predicate SortedAsc<T>(s: seq<T>, key: T -> int) {
    forall i, j :: 0 <= i < j < |s| ==> key(s[i]) <= key(s[j])
  }

  /** Places `x` into a descending list in front of the first element whose
      key is not larger than its own. */
  function InsertDesc<T>(x: T, s: seq<T>, key: T -> int): (r: seq<T>)
    requires SortedDesc(s, key)
    ensures SortedDesc(r, key)
    ensures multiset(r) == multiset(s) + multiset{x}
    ensures |r| == |s| + 1
    ensures r[0] == x || (|s| > 0 && r[0] == s[0])
  {
    if |s| == 0 || key(s[0]) <= key(x) then
      [x] + s
    else
      var rest := InsertDesc(x, s[1..], key);
      assert s == [s[0]] + s[1..];
      ConsSorted(s[0], rest, key);
      [s[0]] + rest
  }

  /** Putting `h` in front of a descending list whose head does not outrank
      it keeps the list descending. */
  lemma ConsSorted<T>(h: T, rest: seq<T>, key: T -> int)
    requires SortedDesc(rest, key)
    requires |rest| > 0 ==> key(h) >= key(rest[0])
    ensures SortedDesc([h] + rest, key)
  {
    var r := [h] + rest;
    forall i, j | 0 <= i < j < |r| ensures key(r[i]) >= key(r[j]) {
      assert r[j] == rest[j - 1];
      if i > 0 {
        assert r[i] == rest[i - 1];
      } else {
        assert key(rest[0]) >= key(rest[j - 1]);
      }
    }
  }

  /** `ORDER BY key DESC`: a descending permutation of `s`. */
  function SortDesc<T>(s: seq<T>, key: T -> int): (r: seq<T>)
    ensures SortedDesc(r, key)
    ensures multiset(r) == multiset(s)
    ensures |r| == |s|
  {
    if |s| == 0 then []
    else
      assert s == [s[0]] + s[1..];
      InsertDesc(s[0], SortDesc(s[1..], key), key)
  }

  /** `ORDER BY key ASC`: an ascending permutation of `s`. */
  function SortAsc<T>(s: seq<T>, key: T -> int): (r: seq<T>)
    ensures SortedAsc(r, key)
    ensures multiset(r) == multiset(s)
    ensures |r| == |s|
  {
    var neg := (x: T) => -key(x);
    var r := SortDesc(s, neg);
    assert forall i, j :: 0 <= i < j < |r| ==> neg(r[i]) >= neg(r[j]);
    r
  }

  /** Sorting a list that is already in descending order keeps it as it is:
      ties stay in table order. */
  lemma {:induction false} SortDescOfSorted<T>(s: seq<T>, key: T -> int)
    requires SortedDesc(s, key)
    ensures SortDesc(s, key) == s
  {
    if |s| > 0 {
      assert SortedDesc(s[1..], key) by {
        forall i, j | 0 <= i < j < |s[1..]| ensures key(s[1..][i]) >= key(s[1..][j]) {
          assert s[1..][i] == s[i + 1] && s[1..][j] == s[j + 1];
        }
      }
      SortDescOfSorted(s[1..], key);
      assert s == [s[0]] + s[1..];
    }
  }

  /** Sorting a list that is already in ascending order keeps it as it is. */
  lemma SortAscOfSorted<T>(s: seq<T>, key: T -> int)
    requires SortedAsc(s, key)
    ensures SortAsc(s, key) == s
  {
    var neg := (x: T) => -key(x);
    assert SortedDesc(s, neg) by {
      forall i, j | 0 <= i < j < |s| ensures neg(s[i]) >= neg(s[j]) {
        assert key(s[i]) <= key(s[j]);
      }
    }
    SortDescOfSorted(s, neg);
  }

  /** The elements of a list: a sorted list holds the same elements. */
  lemma SameElements<T>(a: seq<T>, b: seq<T>, x: T)
    requires multiset(a) == multiset(b)
    ensures x in a <==> x in b
  {
    assert x in a <==> x in multiset(a);
    assert x in b <==> x in multiset(b);
  }

  /** No element occurs twice. */
  ghost predicate Distinct<T>(s: seq<T>) {
    forall i, j :: 0 <= i < j < |s| ==> s[i] != s[j]
  }

  /** Each element of a list without repeats occurs once in its multiset. */
  lemma {:induction false} DistinctCounts<T>(s: seq<T>, x: T)
    requires Distinct(s)
    ensures multiset(s)[x] <= 1
  {
    if |s| > 0 {
      assert s == [s[0]] + s[1..];
      assert Distinct(s[1..]) by {
        forall i, j | 0 <= i < j < |s[1..]| ensures s[1..][i] != s[1..][j] {
          assert s[1..][i] == s[i + 1] && s[1..][j] == s[j + 1];
        }
      }
      DistinctCounts(s[1..], x);
      if s[0] == x {
        assert x !in s[1..] by {
          forall k | 0 <= k < |s[1..]| ensures s[1..][k] != x {
            assert s[1..][k] == s[k + 1];
          }
        }
      }
    }
  }

  /** A reordering of a list without repeats has none either. */
  lemma DistinctPermutation<T>(a: seq<T>, b: seq<T>)
    requires multiset(a) == multiset(b)
    ensures Distinct(a) ==> Distinct(b)
  {
    forall i, j | 0 <= i < j < |b| && Distinct(a) ensures b[i] != b[j] {
      if b[i] == b[j] {
        var x := b[i];
        assert b == b[..j] + b[j..];
        assert x in b[..j] && x in b[j..];
        assert multiset(b)[x] == multiset(b[..j])[x] + multiset(b[j..])[x];
        DistinctCounts(a, x);
        assert false;
      }
    }
  }

  /** A list whose every element occurs no more often than in a list
      without repeats has no repeats either. */
  lemma CountsBelowDistinct<T>(a: seq<T>, b: seq<T>)
    requires multiset(a) <= multiset(b)
    requires Distinct(b)
    ensures Distinct(a)
  {
    forall i, j | 0 <= i < j < |a| ensures a[i] != a[j] {
      if a[i] == a[j] {
        var x := a[i];
        assert a == a[..j] + a[j..];
        assert x in a[..j] && x in a[j..];
        assert multiset(a)[x] == multiset(a[..j])[x] + multiset(a[j..])[x];
        DistinctCounts(b, x);
        assert false;
      }
    }
  }

  /** The first `limit` entries occur no more often than in the list. */
  lemma WindowPrefixCounts<T>(s: seq<T>, limit: nat)
    ensures multiset(Window(s, 0, limit)) <= multiset(s)
  {
    var w := Window(s, 0, limit);
    assert w == s[..|w|];
    assert s == s[..|w|] + s[|w|..];
  }

  /** `LIMIT limit OFFSET offset` on an ordered result. */
  function Window<T>(s: seq<T>, offset: nat, limit: nat): (r: seq<T>)
    ensures |r| <= limit
    ensures offset <= |s| ==> |r| == if |s| - offset < limit then |s| - offset else limit
    ensures offset >= |s| ==> r == []
    ensures forall k :: 0 <= k < |r| ==> offset + k < |s| && r[k] == s[offset + k]
  {
    if offset >= |s| then []
    else if |s| - offset < limit then s[offset..]
    else s[offset..offset + limit]
  }
}

=== FILE: uri.dfy ===
/** `encodeURIComponent` and the reading of a query string, enough to state
    what the maps link of a post carries. */
module UriEncoding {
  import opened Common
  import opened JsText

  /** The characters `encodeURIComponent` leaves as they are. */
  predicate IsUnreserved(c: char) {
    || ('A' <= c <= 'Z') || ('a' <= c <= 'z') || ('0' <= c <= '9')
    || c == '-' || c == '_' || c == '.' || c == '!' || c == '~' || c == '*'
    || c == '\'' || c == '(' || c == ')'
  }

  /** The UTF-8 bytes of one Unicode scalar value. */
  function Utf8(c: char): (r: seq<int>)
    ensures 1 <= |r| <= 4
    ensures forall i :: 0 <= i < |r| ==> 0 <= r[i] < 256
    ensures (c as int) < 128 ==> r == [c as int]
  {
    var cp := c as int;
    if cp < 0x80 then [cp]
    else if cp < 0x800 then [0xC0 + cp / 64, 0x80 + cp % 64]
    else if cp < 0x1_0000 then [0xE0 + cp / 4096, 0x80 + (cp / 64) % 64, 0x80 + cp % 64]
    else [0xF0 + cp / 262144, 0x80 + (cp / 4096) % 64, 0x80 + (cp / 64) % 64, 0x80 + cp % 64]
  }

  /** The UTF-8 bytes of a string. */
  function Utf8String(s: string): seq<int> {
    if |s| == 0 then [] else Utf8(s[0]) + Utf8String(s[1..])
  }

  /** Upper-case hexadecimal digit. */
  function HexChar(n: int): (c: char)
    requires 0 <= n < 16
    ensures IsUnreserved(c)
  {
    if n < 10 then ('0' as int + n) as char else ('A' as int + n - 10) as char
  }

  /** Value of a hexadecimal digit of either case. */
  function HexValue(c: char): Option<int> {
    if '0' <= c <= '9' then Some(c as int - '0' as int)
    else if 'A' <= c <= 'F' then Some(c as int - 'A' as int + 10)
    else if 'a' <= c <= 'f' then Some(c as int - 'a' as int + 10)
    else None
  }

  /** `%XX` for one byte. */
  function Escape(b: int): string
    requires 0 <= b < 256
  {
    ['%', HexChar(b / 16), HexChar(b % 16)]
  }

  /** The escapes of a byte string, one after another. */
  function EscapeAll(bs: seq<int>): (r: string)
    requires forall i :: 0 <= i < |bs| ==> 0 <= bs[i] < 256
    ensures forall i :: 0 <= i < |r| ==> IsUnreserved(r[i]) || r[i] == '%'
  {
    if |bs| == 0 then ""
    else
      var rest := EscapeAll(bs[1..]);
      var e := Escape(bs[0]);
      assert forall i :: 3 <= i < |e + rest| ==> (e + rest)[i] == rest[i - 3];
      e + rest
  }

  /** `encodeURIComponent(s)`: unreserved characters stay, every other
      character becomes the escapes of its UTF-8 bytes. The result consists of
      unreserved characters and `%` only, so it never holds `&`, `=`, `?` or
      `#` and cannot split or end a query parameter. */
  function Encode(s: string): (r: string)
    ensures forall i :: 0 <= i < |r| ==> IsUnreserved(r[i]) || r[i] == '%'
  {
    if |s| == 0 then ""
    else
      var head := if IsUnreserved(s[0]) then [s[0]] else EscapeAll(Utf8(s[0]));
      var rest := Encode(s[1..]);
      assert forall i :: |head| <= i < |head + rest| ==> (head + rest)[i] == rest[i - |head|];
      head + rest
  }

  /** Percent-decoding to bytes: `%XX` is one byte, any other character its
      own code. */
  function Decode(s: string): seq<int> {
    if |s| == 0 then []
    else if s[0] == '%' && |s| >= 3 && HexValue(s[1]).Some? && HexValue(s[2]).Some? then
      [16 * HexValue(s[1]).value + HexValue(s[2]).value] + Decode(s[3..])
    else [s[0] as int] + Decode(s[1..])
  }

  lemma HexRoundTrip(n: int)
    requires 0 <= n < 16
    ensures HexValue(HexChar(n)) == Some(n)
  {
  }

  /** Regrouping a concatenation of three strings. */
  lemma Regroup(a: string, b: string, c: string)
    ensures (a + b) + c == a + (b + c)
  {
  }

  /** One escape followed by anything decodes to its byte first. */
  lemma DecodeOneEscape(b: int, t: string)
    requires 0 <= b < 256
    ensures Decode(Escape(b) + t) == [b] + Decode(t)
  {
    HexRoundTrip(b / 16);
    HexRoundTrip(b % 16);
    var s := Escape(b) + t;
    assert s[0] == '%' && s[1] == HexChar(b / 16) && s[2] == HexChar(b % 16);
    assert s[3..] == t;
  }

  /** Decoding escapes followed by anything reads the bytes back first. */
  lemma {:induction false} DecodeEscapes(bs: seq<int>, rest: string)
    requires forall i :: 0 <= i < |bs| ==> 0 <= bs[i] < 256
    ensures Decode(EscapeAll(bs) + rest) == bs + Decode(rest)
  {
    if |bs| > 0 {
      var b := bs[0];
      var more := EscapeAll(bs[1..]);
      var tail := more + rest;
      calc {
        Decode(EscapeAll(bs) + rest);
        { assert EscapeAll(bs) == Escape(b) + more; Regroup(Escape(b), more, rest); }
        Decode(Escape(b) + tail);
        { DecodeOneEscape(b, tail); }
        [b] + Decode(tail);
        { DecodeEscapes(bs[1..], rest); }
        [b] + (bs[1..] + Decode(rest));
        { assert bs == [b] + bs[1..]; }
        bs + Decode(rest);
      }
    } else {
      assert EscapeAll(bs) + rest == rest;
    }
  }

  /** Decoding what `Encode` produced gives the UTF-8 bytes of the original
      string: the encoding loses nothing. */
  lemma {:induction false} DecodeEncode(s: string)
    ensures Decode(Encode(s)) == Utf8String(s)
  {
    if |s| > 0 {
      DecodeEncode(s[1..]);
      var rest := Encode(s[1..]);
      if IsUnreserved(s[0]) {
        assert Encode(s) == [s[0]] + rest;
        assert (Encode(s))[1..] == rest;
      } else {
        DecodeEscapes(Utf8(s[0]), rest);
      }
    }
  }

  /** The query part of a URL: everything after its first `?`. */
  function QueryOf(url: string): string {
    if |url| == 0 then ""
    else if url[0] == '?' then url[1..]
    else QueryOf(url[1..])
  }

  /** The query of `base + "?" + q` is `q` when `base` has no `?`. */
  lemma {:induction false} QueryOfAppend(base: string, q: string)
    requires '?' !in base
    ensures QueryOf(base + "?" + q) == q
  {
    if |base| == 0 {
      assert base + "?" + q == "?" + q;
    } else {
      assert '?' !in base[1..] by {
        forall k | 0 <= k < |base[1..]| ensures base[1..][k] != '?' {
          assert base[1..][k] == base[k + 1];
        }
      }
      QueryOfAppend(base[1..], q);
      assert (base + "?" + q)[1..] == base[1..] + "?" + q;
    }
  }

  /** The `name=value` pairs of a query, in order. */
  function QueryParams(url: string): seq<string> {
    Split(QueryOf(url), '&')
  }
}

=== FILE: user_model.dfy ===
/** The user model: the hashing hooks that run around a save and the
    instance methods that assign one field and save. Hashing is symbolic
    (`Schema.Secret`); the salt and the random display-name suffix are
    parameters. A save with no changed attribute sends nothing and succeeds;
    any other save validates the changed attributes first (the `notEmpty`
    rules), then runs the hook, then writes, which the unique index on
    `username` or the database itself can refuse. */
module UserModel {
  import opened Common
  import opened Schema

  /** The `notEmpty` validators of `username` and `password`, which a save
      runs only on the attributes that changed since `prev` was loaded. A
      stored hash is never empty; only a plain password can be. */
  predicate PassesValidation(prev: User, u: User) {
    && (u.username != prev.username ==> u.username != "")
    && (u.password != prev.password ==> !(u.password.Plain? && u.password.text == ""))
  }

  /** Another row already holds the name (the unique index on `username`). */
  predicate NameTakenByOther(db: Db, u: User) {
    exists i :: 0 <= i < |db.users| && db.users[i].id != u.id && db.users[i].username == u.username
  }

  /** `beforeCreate`: a non-empty password is replaced by its hash, and a
      missing or empty display name by `user_` followed by the random
      suffix. Nothing else is touched. */
  function BeforeCreate(u: User, salt: string, suffix: string): (r: User)
    ensures u.password.Plain? && u.password.text != "" ==> r.password == Digest(u.password.text, salt)
    ensures !(u.password.Plain? && u.password.text != "") ==> r.password == u.password
    ensures Truthy(u.displayName) ==> r.displayName == u.displayName
    ensures !Truthy(u.displayName) ==> r.displayName == Some("user_" + suffix)
    ensures r.(password := u.password, displayName := u.displayName) == u
  {
    var hashed := if u.password.Plain? && u.password.text != "" then u.(password := Digest(u.password.text, salt)) else u;
    if Truthy(u.displayName) then hashed else hashed.(displayName := Some("user_" + suffix))
  }

  /** `beforeUpdate`: the password is hashed again only when it differs from
      the value the instance was loaded with. */
  function BeforeUpdate(prev: User, u: User, salt: string): (r: User)
    ensures u.password == prev.password ==> r == u
    ensures u.password != prev.password && u.password.Plain? ==> r == u.(password := Digest(u.password.text, salt))
    ensures r.(password := u.password) == u
  {
    if u.password != prev.password && u.password.Plain? then u.(password := Digest(u.password.text, salt)) else u
  }

  /** `save()` of an instance loaded as `prev` and assigned into `inst`.
      With no attribute changed nothing is sent, so the save succeeds
      whatever the database would do. Otherwise a validation failure stops
      before the hook; a refused write comes after it, so the instance then
      already holds the hash. The unique index can refuse only a write that
      changes the name. */
  function Save(db: Db, prev: User, inst: User, salt: string, dbFails: bool): (r: SaveResult<User>)
    ensures inst == prev ==> r == SaveResult(prev, prev, true)
    ensures r.ok <==> (
      || inst == prev
      || (PassesValidation(prev, inst) && !(inst.username != prev.username && NameTakenByOther(db, inst)) && !dbFails))
    ensures r.ok ==> r.row == r.instance
    ensures !r.ok ==> r.row == prev
    ensures !PassesValidation(prev, inst) ==> r.instance == inst
    ensures PassesValidation(prev, inst) ==> r.instance == BeforeUpdate(prev, inst, salt)
  {
    if inst == prev then SaveResult(inst, prev, true)
    else if !PassesValidation(prev, inst) then SaveResult(inst, prev, false)
    else
      var hooked := BeforeUpdate(prev, inst, salt);
      if (hooked.username != prev.username && NameTakenByOther(db, hooked)) || dbFails then SaveResult(hooked, prev, false)
      else SaveResult(hooked, hooked, true)
  }

  /** `verifyPassWord(input)`. */
  predicate VerifyPassWord(u: User, input: string) {
    PasswordMatches(input, u.password)
  }

  /** `changeUserName(name)`: true exactly when the save succeeds, which
      is always for the current name (nothing is sent) and otherwise needs a
      non-empty name that no other user holds and a working database; the
      stored row then differs from the old one in the name only. */
  function ChangeUserName(db: Db, u: User, newName: string, salt: string, dbFails: bool): (r: SaveResult<User>)
    ensures r.ok <==> (
      || newName == u.username
      || (newName != "" && !NameTakenByOther(db, u.(username := newName)) && !dbFails))
    ensures r.instance.username == newName
    ensures r.ok ==> r.row == u.(username := newName)
    ensures !r.ok ==> r.row == u
  {
    Save(db, u, u.(username := newName), salt, dbFails)
  }

  /** `resetPassWord(pw)`: true exactly when the save succeeds, which is
      always when the instance already holds that very value and otherwise
      needs a non-empty password and a working database; only the password
      of the row changes. */
  function ResetPassWord(db: Db, u: User, newPassword: string, salt: string, dbFails: bool): (r: SaveResult<User>)
    ensures r.ok <==> u.password == Plain(newPassword) || (newPassword != "" && !dbFails)
    ensures r.row.(password := u.password) == u
    ensures !r.ok ==> r.row == u
    ensures r.ok && u.password != Plain(newPassword) ==> r.row.password == Digest(newPassword, salt)
  {
    Save(db, u, u.(password := Plain(newPassword)), salt, dbFails)
  }

  /** After a successful reset of a hashed password, exactly the new
      password verifies against the stored row. */
  lemma ResetThenVerify(db: Db, u: User, newPassword: string, salt: string, dbFails: bool, input: string)
    requires u.password.Digest?
    requires ResetPassWord(db, u, newPassword, salt, dbFails).ok
    ensures VerifyPassWord(ResetPassWord(db, u, newPassword, salt, dbFails).row, input) <==> input == newPassword
  {
  }

  /** Renaming keeps the credential: a password verifies after the rename
      exactly when it did before. */
  lemma RenameKeepsPassword(db: Db, u: User, newName: string, salt: string, dbFails: bool, input: string)
    ensures VerifyPassWord(ChangeUserName(db, u, newName, salt, dbFails).row, input) <==> VerifyPassWord(u, input)
  {
  }

  /** `deactivateAccount()`: the instance is marked inactive; the row
      follows when the save succeeds, which is always for an account that
      is already inactive (nothing is sent). */
  function DeactivateAccount(db: Db, u: User, salt: string, dbFails: bool): (r: SaveResult<User>)
    ensures r.ok <==> !u.isActive || !dbFails
    ensures r.instance == u.(isActive := false)
    ensures r.ok ==> r.row == u.(isActive := false)
    ensures !r.ok ==> r.row == u
  {
    Save(db, u, u.(isActive := false), salt, dbFails)
  }

  /** Saves that change nothing report success even while the database
      refuses every write: renaming to the current name, and deactivating
      an account that is already inactive. */
  lemma UnchangedSavesIgnoreFaults(db: Db, u: User, salt: string)
    ensures ChangeUserName(db, u, u.username, salt, true) == SaveResult(u, u, true)
    ensures !u.isActive ==> DeactivateAccount(db, u, salt, true) == SaveResult(u, u, true)
    ensures u.isActive ==> !DeactivateAccount(db, u, salt, true).ok
  {
    assert u.(username := u.username) == u;
    if !u.isActive {
      assert u.(isActive := false) == u;
    }
  }

  /** The users table after a save: every row with the instance's id holds
      the saved row. */
  function Persist(db: Db, r: SaveResult<User>): (d: Db)
    ensures |d.users| == |db.users|
    ensures forall i :: 0 <= i < |db.users| ==>
      d.users[i] == if db.users[i].id == r.row.id then r.row else db.users[i]
    ensures d.(users := db.users) == db
  {
    db.(users := seq(|db.users|, i requires 0 <= i < |db.users| =>
      if db.users[i].id == r.row.id then r.row else db.users[i]))
  }
}
